=== FILE: README.md ===
# Dungeon level core — a Dafny model

This project models the simulation core of a tile-grid dungeon game, in two source revisions: the earlier `src/` files and the later `src/finalproject/` files. It covers:

- **Tiles and the level grid.** A level is a `width × height` grid of tiles. Each cell is either still undecided (`null` during generation) or a tile that is a wall or walkable. Tiles are equal when their coordinates are equal. Neighbour lookups are `getLeft/Right/Up/Down`, `getAdjacent` and the deliberately loose `isAdjacent`.
- **Level generation.** `makeTile` carves a maze recursively from (0, 0). At each step one random draw per undecided neighbour decides whether it is carved. `mapSatisfactory` rejects a map with a cell that has no neighbours, and the map is then regenerated. `fillEmpty` makes every cell left undecided walkable. The constructor clamps the difficulty into [1, 4].
- **Path finding.** The A* search `getPath` uses Manhattan heuristics, an open and a closed list, parent chains and path reconstruction.
- **Actors.** `moveToTarget`, health changes, the speed bonus, the direction flags, animation frames, and `doMove`, which slides the actor in pixel steps from its tile to its target.
- **Entities built on actors:**
  - **Projectiles** fly straight until they hit a wall or the edge.
  - **Enemies** are ghosts, bats and dogs. Each update they replan, wander or follow their path.
  - **The player** is steered by the most recent movement key held down and fires on the space key at a limited rate.
  - **Power-ups** heal the player (capped) or give a speed bonus.
- **Level population.** `getRandomTile` rejection-samples a walkable tile that has a path of a minimum length to a target. `addEnemies` and `addPowerUps` place the level's contents.
- **The applet's level cycle.** `changeDifficulty`, `endLevel` and `createNewLevel`.

The model is functional. A `Map` holds `cells[x][y]` as `Option<bool>` (`None` is an undecided cell, `Some(isWall)` a tile). Actors, enemies, players and projectiles are immutable datatypes, and every `update` returns the new value.

The sources of nondeterminism become parameters:
- `Math.random()` is a sequence of draws in [0, 1).
- `System.currentTimeMillis()` is a `now` parameter.
- Java `null` is `Option`'s `None`.
- Java's `(int)` cast on a double is `Numeric.Trunc` (truncation toward zero).

Generation and tile sampling run until the draws run out and then return `None`. The regeneration loop takes a `fuel` bound.

Some behaviour of the code is easy to misread. The model follows the code in each case:
- **A\* tie-break.** The minimum scan in `getPath` compares with `<=` (src/finalproject/Level.java:772). So A\* selects the *last* open entry of minimal `f`, not the first.
- **Replacement rule.** An open entry is replaced when the expanded node's own `g` is strictly smaller than the entry's `g` (src/finalproject/Level.java:817). The child's `g` is one more than that, so an entry is also replaced by a child of equal `g`, although the comment there speaks of "a better way".
- **Path order.** The javadoc of `getPath` says the first step of the path is at the end of the list (src/finalproject/Level.java:725-726), so index 0 is the target. `Enemy.update` nevertheless takes index 0 as its next move (src/Enemy.java:116-117). A multi-step route therefore sends an enemy at a tile that is usually not adjacent, and `moveToTarget` rejects that target.
- **Loose `isAdjacent`.** The javadoc of `isAdjacent` promises "whether or not the two Tiles are adjacent", but each of its four tests compares one coordinate only (src/finalproject/Level.java:863-882). So it accepts any tile whose x *or* y differs by exactly one from the current tile, diagonal and distant tiles included.
- **The `break` in the placement loops.** In both revisions, the loops of `addEnemies` and `addPowerUps` can never take their `break`: the loop bound equals the number of entities still owed. So the revision without the `break` and the revision with it are one model. The dead branch is an `assert false`.

## Model

| member | source | states |
|---|---|---|
| Tiles.SameIsEquivalence | src/Tile.java:99-115 | tile equality by coordinates is reflexive, symmetric and transitive |
| Tiles.SameIgnoresWall | src/Tile.java:99-115 | two tiles at the same coordinates are equal whatever their wall flags, although the records differ |
| Tiles.PixelDistance | src/Tile.java:149-160 | pixel positions are the coordinates scaled by the tile size: equal tiles share a pixel position, and pixel differences are coordinate differences times the size |
| Tiles.LoadImages | src/Tile.java:57-71 | the tile size is taken from the wall image exactly when both images have the same size; otherwise an exception is raised and the size is unchanged |
| Grid.EmptyMap | src/finalproject/Level.java:357-362 | a fresh map has the requested dimensions and every cell undecided |
| Grid.ClampDifficulty | src/finalproject/Level.java:133-139 | the stored difficulty lies in [1, 4], equals the argument when it already does, and is the nearer bound otherwise |
| Grid.PadNone | src/finalproject/Level.java:923-958 | padding keeps the entries already present and fills up to the array length with nulls |
| Grid.AroundInBounds | src/finalproject/Level.java:940-955 | of the four neighbours, taken left, right, up, down, exactly those on the map are kept, in that order |
| Grid.GetAdjacent | src/finalproject/Level.java:923-958 | the array has 2 to 4 entries; each non-null entry is a map tile 4-adjacent to (x, y), and every placed tile 4-adjacent to (x, y) is among them |
| Grid.GetAdjacentExact | src/finalproject/Level.java:923-958 | on a map at least 2 wide and 2 high, `getAdjacent` is exactly the in-bounds left, right, up and down cells in that order, 2 to 4 of them |
| Grid.PresentNeighbours | src/finalproject/Level.java:936-955 | the entries `getAdjacent` fills in are the stored tiles of the in-bounds 4-neighbours, left, right, up, down |
| Grid.GetAdjacentPadsNarrowMap | src/finalproject/Level.java:923-958 | on a one-column map the size count subtracts one too few, so the array ends in an extra null |
| Grid.GetLeft | src/finalproject/Level.java:966-994 | null for a null tile, an out-of-bounds tile or column 0; otherwise the cell to the left |
| Grid.GetRight | src/finalproject/Level.java:1002-1030 | null for a null tile, an out-of-bounds tile or the last column; otherwise the cell to the right |
| Grid.GetUp | src/finalproject/Level.java:1038-1066 | null for a null tile, an out-of-bounds tile or row 0; otherwise the cell above |
| Grid.GetDown | src/finalproject/Level.java:1074-1102 | null for a null tile, an out-of-bounds tile or the last row; otherwise the cell below |
| Grid.NeighbourLookupsOnCompleteMap | src/finalproject/Level.java:966-1102 | on a complete map each lookup that answers gives a 4-neighbour that is a tile of the map, and each answers whenever the neighbour is in bounds |
| Grid.IsAdjacentMeaning | src/finalproject/Level.java:863-882 | `isAdjacent` holds iff the x or the y coordinates differ by exactly one; it is symmetric, false for equal tiles, and implied by 4-adjacency |
| Grid.IsAdjacentIsLoose | src/finalproject/Level.java:863-882 | the pairs `isAdjacent` accepts that are not 4-neighbours are exactly those one column apart in different rows or one row apart in different columns, so diagonal and distant tiles count as adjacent |
| Generation.SetCell | src/finalproject/Level.java:386 | writing a cell changes that cell only |
| Generation.GetNullAdjacent | src/finalproject/Level.java:487-501 | a flag is set only for an in-bounds undecided neighbour; the left and up tests skip column and row 0; an unflagged neighbour in range is decided |
| Generation.WallOffSound | src/finalproject/Level.java:461-475 | after the final walling no neighbour of the cell is reported undecided, nothing decided changes, only undecided neighbours become walls, and column 0 and row 0 are untouched when the cell is off them |
| Generation.MakeTile | src/finalproject/Level.java:380-476 | an out-of-bounds or decided cell is left alone with no draw used; otherwise it becomes walkable and no neighbour is left undecided; decided cells never change |
| Generation.CarveLoop | src/finalproject/Level.java:398-458 | the carve loop only adds decisions and never uses more draws than it has |
| Generation.CarveNeighbours | src/finalproject/Level.java:429-457 | one draw per flagged neighbour; any flag consumes a draw; decided cells never change |
| Generation.CarveInto | src/finalproject/Level.java:432-455 | a flagged neighbour whose draw says empty uses that draw, is carved by the recursive `makeTile`, and decided cells never change |
| Generation.MakeTileReporting | src/Level.java:283-363 | the earlier revision's `makeTile` reports false exactly for an out-of-bounds or decided cell, leaving the state alone, and true after carving it |
| Generation.MapSatisfactory | src/finalproject/Level.java:512-540 | accepts iff no cell has an all-null neighbour array |
| Generation.FillEmpty | src/finalproject/Level.java:546-554 | the result is complete, keeps every decided cell, and makes every undecided cell walkable |
| Generation.GenerateMap | src/finalproject/Level.java:357-370 | a produced map is complete, has the requested size and has (0, 0) walkable; it is the wall-filling of the carve from (0, 0) on a fresh map of that size, made with what was left of the draws after the earlier attempts, and `mapSatisfactory` accepted that carve |
| Generation.NewLevel | src/finalproject/Level.java:128-146 | a new level has a clamped difficulty (the argument when already in range) and a complete map of the requested size |
| PathFinding.EqualsMeaning | src/Tile.java:99-115 | `Tile.equals` compares coordinates with tiles and with path tiles' current tile; `PathTile.equals` compares current tiles and is false for anything else |
| PathFinding.IndexOf | src/finalproject/Level.java:810 | `indexOf` returns the first entry equal to the tile, or -1 when none is |
| PathFinding.MinF | src/finalproject/Level.java:770-775 | the selected entry has minimal `f`, and every later entry has a strictly larger `f` (the last minimum wins) |
| PathFinding.RemoveAt | src/finalproject/Level.java:779 | removing the selected entry keeps the others in order |
| PathFinding.Relax | src/finalproject/Level.java:794-821 | walls and closed tiles leave the open list alone; a new tile is appended as a child of the current node; a listed tile is replaced only when the current node's `g` is smaller; no tile leaves the list |
| PathFinding.ExpandAll | src/finalproject/Level.java:790-823 | after the neighbour loop every non-wall neighbour is open or closed, nothing open is lost, and new entries are children of the current node |
| PathFinding.AdjacentTiles | src/finalproject/Level.java:790 | on a complete map the neighbour array holds only map tiles 4-adjacent to the node |
| PathFinding.StepPreserves | src/finalproject/Level.java:768-833 | one iteration closes the minimal entry, shrinks the set of unclosed cells, and keeps the search invariant (parent chains reach the start, no duplicate keys, open and closed disjoint) |
| PathFinding.Step | src/finalproject/Level.java:768-833 | one loop iteration either stops, with a closed list ending at the target whenever the target was reached, or continues with the search invariant kept and fewer unclosed cells |
| PathFinding.Search | src/finalproject/Level.java:768-833 | the search terminates; a found closed list ends with the target and every node's parent chain is a walk of adjacent walkable tiles back to the start |
| PathFinding.TraceShape | src/finalproject/Level.java:836-847 | the reconstructed chain has `g + 1` tiles, runs from the found tile to the start through adjacent walkable map tiles, and meets the start only at its end |
| PathFinding.RouteFromTrace | src/finalproject/Level.java:850 | removing the first occurrence of the start leaves a route whose index 0 is the target and whose last entry is next to the start |
| PathFinding.RouteFromFound | src/finalproject/Level.java:836-850 | tracing back from the last closed node (the target) and removing the start yields a route from start to target |
| PathFinding.GetPath | src/finalproject/Level.java:728-853 | empty when start equals target; null for a target that is out of bounds or a wall; otherwise any result is a route of adjacent walkable tiles from the target back to a neighbour of the start |
| PathFinding.StepSeals | src/finalproject/Level.java:776-823 | each iteration keeps every walkable map tile beside a closed node open or closed, because the node it closes is expanded at once |
| PathFinding.SearchComplete | src/finalproject/Level.java:825-831 | while a route to the target exists, the loop never drains the open list, so it ends with the target closed |
| PathFinding.GetPathComplete | src/finalproject/Level.java:728-853 | `getPath` returns a path whenever a route of walkable 4-neighbours leads from the start to the target, so null means the target is unreachable |
| PathFinding.GetPathFindsIffRoute | src/finalproject/Level.java:728-853 | for distinct start and target, `getPath` returns a path exactly when a route exists |
| PathFinding.RouteAtLeastDistance | src/finalproject/Level.java:728-853 | a route is at least as long as the Manhattan distance between start and target |
| Actors.NewActor | src/Actor.java:117-141 | a new actor is at full health, idle, with no target and zero offset, and keeps the given position, level, frame count and frame rate |
| Actors.MoveToTarget | src/Actor.java:200-213 | the move starts iff the target is non-null, not a wall, and `isAdjacent` to a non-null position; otherwise the target is cleared |
| Actors.DoDamage | src/Actor.java:220-226 | health drops by the damage but never below 0; nothing else changes |
| Actors.AddHealth | src/Actor.java:235-241 | health rises by the amount but never above 100; nothing else changes |
| Actors.HealthBounds | src/Actor.java:220-250 | both operations keep health in [0, 100], and each leaves the actor dead exactly when health reaches 0 |
| Actors.AddSpeedBonus | src/Actor.java:257-260 | the bonus starts now with the given duration; nothing else changes |
| Actors.CheckDirection | src/Actor.java:266-273 | each direction flag is set iff the target lies that way from the position; without position or target nothing changes |
| Actors.UpdateAnimation | src/Actor.java:281-319 | without a walkable target the frames return to their defaults; otherwise the column frame advances (wrapping) and the time is recorded exactly when more than `1000 / FPS` ms have passed since the last advance, and the row follows the direction of travel |
| Actors.AnimationOncePerPeriod | src/Actor.java:294-302 | right after an advance, an update within the next `1000 / FPS` ms changes neither the column frame nor its timestamp |
| Actors.UpdateAnimationInRange | src/Actor.java:281-319 | frames stay within the sprite sheet |
| Actors.DoMove | src/Actor.java:340-406 | an idle actor is unchanged; a finished transition puts the actor on its target with zero offset and no target; an unfinished one keeps position and target; an expired bonus is cleared |
| Actors.DoMoveOneAxis | src/Actor.java:340-406 | during a transition the offset moves along one axis toward the target by the step size, doubled while the speed bonus is live |
| Actors.Reset | src/Actor.java:416-429 | a reset actor has the new level and position, full health, no target, zero offset and is idle |
| Actors.MoveCompletes | src/Actor.java:340-406 | with the clock standing still and a positive step, a transition to a different tile ends on the target after exactly the pixel distance divided by the step (rounded up) ticks: it is still under way after fewer, and later ticks change nothing |
| Actors.MoveCompletesAnyClock | src/Actor.java:355-391 | whatever the clock reads at each tick, so that a speed bonus may run or lapse part-way, a transition with a positive bare step ends on the target within the pixel distance divided by the bare step (rounded up) ticks |
| Projectiles.NewProjectile | src/finalproject/Projectile.java:48-60 | a new projectile is live, has speed 2 and no default frames, and starts moving iff `moveToTarget` accepts the given target; otherwise it has no target and no direction |
| Projectiles.Continuation | src/finalproject/Projectile.java:76-87 | once a hop ends, the next target is the neighbour in the first direction flagged (left, right, up, down), else the current target |
| Projectiles.ContinuationAhead | src/finalproject/Projectile.java:76-87 | on a complete map, the continuation of a projectile with a heading is the map tile one step that way, or null off the map |
| Projectiles.Update | src/finalproject/Projectile.java:69-96 | no level or position means no change; mid-flight nothing is destroyed; at the end of a hop it moves on iff the continuation is accepted and is destroyed otherwise; destruction is never undone |
| Projectiles.DestroyProjectile | src/finalproject/Projectile.java:125-127 | the projectile is marked destroyed and its actor is unchanged |
| Projectiles.ContinuesStraight | src/finalproject/Projectile.java:69-96 | on a complete map a projectile heading one way is destroyed exactly when the next cell that way is off the map or a wall, and otherwise targets that cell |
| Projectiles.RejectedLaunchDestroys | src/finalproject/Projectile.java:48-96 | a projectile launched at a rejected target is destroyed on its first update |
| Projectiles.Run | src/finalproject/Projectile.java:69-127 | over any sequence of updates, draws and destroy calls the level is kept and a destroyed projectile stays destroyed |
| Projectiles.DestroyedForever | src/finalproject/Projectile.java:88-91 | once a prefix of the events destroys a projectile, every longer run leaves it destroyed |
| Projectiles.RunSplit | src/finalproject/Projectile.java:69-127 | running two event sequences one after the other equals running their concatenation |
| Enemies.NewEnemy | src/Enemy.java:37-62 | a new enemy has its type's speed (ghost 1.5, bat 0.75, dog 1.75), 2 frames at 15 per second, no default frames, and no remembered player position or path |
| Enemies.GetDamageAmount | src/Enemy.java:194-205 | ghosts deal 3, bats 6, dogs 10 |
| Enemies.OnlyGhostsWander | src/Enemy.java:70-87 | for a draw in [0, 1) an enemy picks a random step iff it is a ghost and the draw is below one half |
| Enemies.DirectionIndex | src/Enemy.java:128-129 | the direction is the draw's quarter, folded to at most 3 |
| Enemies.RandomAdjacent | src/Enemy.java:127-150 | each quarter of the draw picks left, right, up or down respectively; the answer is always one of the four lookups |
| Enemies.Replan | src/Enemy.java:89-105 | a dog searches only when its path is missing or empty; ghosts and bats search, and remember the player tile, exactly when the player moved since last time |
| Enemies.ReplanIdempotent | src/Enemy.java:89-105 | replanning twice against the same player tile is replanning once |
| Enemies.Wander | src/Enemy.java:107-112 | a random step targets a 4-neighbour map tile and re-plans the path from it; with no such neighbour the path is kept |
| Enemies.Follow | src/Enemy.java:113-118 | unless on the player's tile, a non-empty path gives up its index 0 as the target and keeps the rest |
| Enemies.Decide | src/Enemy.java:70-118 | only the target and the plan change; a random step targets `RandomAdjacent`'s pick, a 4-neighbour map tile; otherwise, off the player's tile, the new target followed by the remaining path is the replanned path, and with no path the target stays |
| Enemies.Update | src/Enemy.java:65-125 | no level, position or player means no change; mid-transition the plan is kept; otherwise the decided target is accepted iff `moveToTarget` accepts it, and the kind and speed never change |
| Enemies.TypeFixed | src/Enemy.java:65-125 | updates never change an enemy's damage or speed |
| Enemies.DogKeepsItsPath | src/Enemy.java:90-94 | a dog with a non-empty path does not replan: it steps to the path's index 0 and keeps the rest |
| Enemies.FreshPlanAimsAtPlayer | src/Enemy.java:96-121 | a non-wandering ghost or bat that sees the player move remembers the new tile, and any move it starts heads for the player's tile itself (index 0 of the route) |
| Players.NewPlayer | src/Player.java:28-42 | a new player holds no keys, fires at most once per 1000 ms, has 3 frames at 15 per second, and idles on column frame 1 |
| Players.ToLower | src/Player.java:136 | upper-case ASCII letters map to lower case; every other character is unchanged |
| Players.KeyPressed | src/Player.java:135-140 | the lower-cased key is held afterwards; it is appended only when not already held, so held keys stay distinct |
| Players.KeyReleased | src/Player.java:142-148 | the first occurrence of the lower-cased key is removed and the order kept; a key not held changes nothing; with distinct keys it is no longer held |
| Players.PressReleaseRestores | src/Player.java:135-148 | pressing and then releasing a key not held restores the player |
| Players.LastMoveKey | src/Player.java:72-95 | the chosen key is the latest of `a`, `d`, `w`, `s` held, and none is chosen iff none is held |
| Players.KeyTarget | src/Player.java:76-92 | `a`, `d`, `w`, `s` target the left, right, upper and lower neighbours |
| Players.FireDirection | src/Player.java:50-62 | the shot heads for the source's left, right, upper or lower neighbour, by the first of the move flags set in that order, and nowhere with no flag; a target found is a map tile 4-adjacent to the source |
| Players.Fire | src/Player.java:50-70 | when firing is allowed a projectile is appended, launched from the position or the walkable target toward the facing neighbour, and the time recorded; otherwise nothing changes |
| Players.Update | src/Player.java:45-101 | no level or position means no change; firing as in `Fire`; once idle the player moves iff the latest movement key's neighbour is accepted, and keeps its last target when no movement key is held |
| Players.FireRateLimited | src/Player.java:50-70 | after a shot no second shot is fired within the shoot interval |
| Players.BlockedKeyStops | src/Player.java:72-97 | a movement key pointing at a wall or off the map leaves the idle player without a target |
| Players.Reset | src/Player.java:126-130 | a reset clears the held keys and resets the actor |
| PowerUps.NewPowerUp | src/PowerUp.java:33-37 | a new power-up is live at its tile |
| PowerUps.DoPowerUp | src/HealthPowerUp.java:27-33 | only the player triggers a power-up, which is then destroyed; health rises capped at 100, or the speed bonus restarts for 2000 ms |
| PowerUps.HealTwiceCapped | src/HealthPowerUp.java:27-33 | two heals add twice the amount, capped at 100 |
| PowerUps.SpeedDoesNotStack | src/finalproject/SpeedPowerUp.java:38-43 | a second speed power-up restarts the 2000 ms bonus instead of extending it |
| Placement.ScaledDraw | src/finalproject/Level.java:333-334 | a scaled draw picks a coordinate from 0 to two less than the dimension |
| Placement.Keep | src/finalproject/Level.java:336-346 | a sample is kept iff it is walkable and, with a target, has a path to it at least the minimum length |
| Placement.Sample | src/finalproject/Level.java:333-334 | a sample is a tile of the map that is not in the last row or column |
| Placement.RandomTile | src/finalproject/Level.java:326-349 | a returned tile is walkable, not in the last row or column, and has a path of at least the minimum length to the target; each try uses draws |
| Placement.PlacedAwayFromTarget | src/finalproject/Level.java:326-349 | with a positive minimum distance the tile differs from the target and its path is at least the Manhattan distance |
| Placement.EnemyOrder | src/finalproject/Level.java:241-254 | enemies are made simple first, then search, then random |
| Placement.NumRandom | src/finalproject/Level.java:229 | two random enemies at difficulty 3 or more, one below |
| Placement.NextEnemy | src/finalproject/Level.java:241-254 | each iteration makes the first kind still owed and decrements its count; nothing when none is owed |
| Placement.EnemyClasses | src/finalproject/Level.java:225-261 | the kinds made are simple, search, then one or two random, never more than 4 |
| Placement.PlaceAll | src/finalproject/Level.java:234-236 | every placed tile passes `getRandomTile` with the player as target and distance 10 |
| Placement.AddEnemies | src/finalproject/Level.java:225-261 | 3 or 4 enemies (4 iff difficulty at least 3), in the kind order, each on a tile with a path of at least 10 to the player |
| Placement.PowerUpOrder | src/finalproject/Level.java:294-302 | health power-ups come first, then speed power-ups |
| Placement.PowerUpKinds | src/finalproject/Level.java:272-311 | one or two of each kind, exactly one each below difficulty 3 with no draws used, health (50) first |
| Placement.AddPowerUps | src/finalproject/Level.java:272-311 | 2 to 4 live power-ups, health first, each on a tile with a path of at least 10 to the player |
| Placement.Build | src/finalproject/Level.java:294-307 | power-ups are built live, in the given kinds and positions |
| Applet.ChangeDifficulty | src/finalproject/MainApplet.java:165-182 | difficulty moves half a step; the game is won iff it exceeds 4, which leaves it unclamped; otherwise it is raised to at least 1 |
| Applet.EndLevel | src/finalproject/MainApplet.java:142-154 | a new level is made iff the game is not won |
| Applet.OldChangeDifficulty | src/MainApplet.java:80-93 | difficulty moves half a step and is clamped into [1, 4] |
| Applet.OldDifficultyOnLattice | src/MainApplet.java:74-93 | from 1, any run of results keeps the difficulty on the half steps 1, 1.5, …, 4 |
| Applet.ChangeStaysOnLattice | src/finalproject/MainApplet.java:165-182 | from a half step in [1, 4], the game is won iff a win arrives at 4; otherwise the difficulty stays on a half step |
| Applet.DifficultyUntilWon | src/finalproject/MainApplet.java:142-182 | every level is made at a half step in [1, 4]; a won game ends at 4.5 |
| Applet.LevelWidth | src/finalproject/MainApplet.java:104-105 | the width grows with the difficulty from 22 at difficulty 1 to 30 at difficulty 4 |
| Applet.OldLevelWidth | src/MainApplet.java:46-48 | the earlier revision's random width lies in [20, 29] |
| Applet.EnemyRequest | src/MainApplet.java:59-61 | the earlier revision asks for one simple, one search and one or two random enemies |
| Applet.PlayerStart | src/finalproject/MainApplet.java:122 | the player starts on a walkable tile with a path to (0, 0) |
| Applet.CreateNewLevel | src/finalproject/MainApplet.java:80-134 | nothing happens without the content panel or a player; otherwise a complete level of width `LevelWidth(d)` and height 20 at the given difficulty, the player reset onto a start with a path to (0, 0), 3 or 4 enemies in the order `addEnemies` makes them and 2 to 4 live power-ups, health first, all on tiles with a path of at least 10 to the player's start |

## Left out

- Drawing, images, light areas and `lightRadius`, the HUD and content panel, Swing key events (only the typed character is modelled), timers and threads: these are presentation and scheduling, not game logic.
- `SimpleEnemy`, `SearchEnemy` and `RandomEnemy` are not part of this model. `addEnemies` is modelled up to which kind is made on which tile.
- The earlier revision's `MainApplet` calls `addEnemies(numSimple, numSearch, numRandom, …)` and `addPowerUps(2, 2, player)`. Those signatures do not exist in the earlier `Level`, so only the requested counts are modelled (`Applet.EnemyRequest`), and its player start at `getTile(0, 0)` is not modelled.
- Randomness: `Math.random()` is an explicit draw sequence. Each placement stage takes its own sequence, where the program shares one generator. The model makes no probabilistic claims, for example that rejection sampling or regeneration terminates with probability one. Running out of draws or of regeneration fuel yields `None`.
- `Generation.GenerateMap`: the regeneration loop is bounded by `fuel`, where the program loops until a map is accepted.
- `PathFinding.GetPath`: modelled only on a complete map at least 2 wide and 2 high with the start in bounds. On a one-column map `getAdjacent` returns a padding null that `getPath` would dereference. The model does not prove that routes are shortest.
- `Enemies.Update` requires a complete level of at least 2 × 2, for the same reason. `Players.Update` requires only a well-formed grid and a non-zero frame rate: `updateAnimation` divides by `FPS` (src/Actor.java:294), which throws for 0.
- A player without a position is not modelled: an enemy's view of the player is `Option<Tile>`, and `None` means no player.
- Integer widths: coordinates, health and times are unbounded integers. Java `int` overflow (for example `now - lastProjectileTime` across a wrap) is not modelled, and `double` arithmetic is exact `real` arithmetic.
- `Players.ToLower`: covers ASCII letters only, whereas `Character.toLowerCase` also folds other alphabets.
- The mutable-list aliasing of `getPath`'s `path` argument and of the shared open and closed lists is not modelled: each call builds fresh lists.
- The earlier revision's only `Actor` constructor (src/Actor.java:117) takes an image third, where `Enemy` (src/Enemy.java:39) and `Projectile` (src/Projectile.java:26) pass a health value; `Player` (src/Player.java:30) passes four arguments, which match no constructor, and sets its health itself at src/Player.java:32. The model reads that third argument as the health, so the earlier projectile starts with health 0, as the later one does, and both revisions share `Projectiles.NewProjectile`. The earlier revision's `animationComplete` is the later `transitionComplete`.

=== FILE: actor.dfy ===
/**
 * The movement state machine shared by the player, the enemies and the projectiles:
 * move acceptance, per-tick pixel offsets with the speed-bonus window, snapping on
 * completion, health bounds, the sprite frame counter and reset.
 *
 * The clock is the parameter `now` (milliseconds); the tile pixel size is `dims`.
 */
module Actors {
  import opened Wrappers
  import opened Numeric
  import opened Tiles
  import opened Grid

  const MAX_HEALTH: int := 100
  const SPEED_BONUS_FACTOR: int := 2

  /** The mutable fields of `Actor`, as one immutable record. */
  datatype Actor = Actor(
    position: Option<Tile>,
    target: Option<Tile>,
    level: Option<Level>,
    xMove: int,
    yMove: int,
    health: int,
    speed: real,
    numFrames: int,
    fps: int,
    xDefaultFrame: int,
    yDefaultFrame: int,
    transitionComplete: bool,
    moveLeft: bool,
    moveRight: bool,
    moveUp: bool,
    moveDown: bool,
    speedBonusStart: int,
    speedBonusDuration: int,
    lastFrameTime: int,
    xCurFrame: int,
    yCurFrame: int)
  {
    /** Between tiles: a target is set and the transition has not completed. */
    predicate Moving() {
      position.Some? && target.Some? && !transitionComplete
    }
  }

  /** The `Actor` constructor: full health, at rest, speed 1, frame counters and defaults 0. */
  function NewActor(position: Option<Tile>, level: Option<Level>, numFrames: int, fps: int): (a: Actor)
    ensures a.health == MAX_HEALTH && a.transitionComplete && a.speed == 1.0
    ensures a.target.None? && !a.Moving() && a.xMove == 0 && a.yMove == 0
    ensures a.position == position && a.level == level && a.numFrames == numFrames && a.fps == fps
    ensures a.xCurFrame == 0 && a.yCurFrame == 0 && a.xDefaultFrame == 0 && a.yDefaultFrame == 0
  {
    Actor(position, None, level, 0, 0, MAX_HEALTH, 1.0, numFrames, fps, 0, 0, true,
          false, false, false, false, 0, 0, 0, 0, 0)
  }

  /**
   * `moveToTarget`: starts a transition when the target is a non-wall tile `isAdjacent` to
   * the position; otherwise drops the target.
   */
  function MoveToTarget(a: Actor): (r: (Actor, bool))
    ensures r.1 <==> a.target.Some? && !a.target.value.isWall && a.position.Some?
                     && IsAdjacent(a.position.value, a.target.value)
    ensures r.1 ==> r.0.Moving() && r.0.xMove == 0 && r.0.yMove == 0
                    && r.0 == a.(transitionComplete := false, xMove := 0, yMove := 0)
    ensures !r.1 ==> r.0.target.None? && r.0 == a.(target := None)
  {
    if a.target.Some? && !a.target.value.isWall && a.position.Some?
       && IsAdjacent(a.position.value, a.target.value)
    then (a.(transitionComplete := false, xMove := 0, yMove := 0), true)
    else (a.(target := None), false)
  }

  /** The condition under which `moveToTarget` accepts a target from a position. */
  predicate Accepts(position: Option<Tile>, target: Option<Tile>) {
    position.Some? && target.Some? && !target.value.isWall && IsAdjacent(position.value, target.value)
  }

  /** `doDamage`: health drops by `damage`, floored at 0. */
  function DoDamage(a: Actor, damage: int): (r: Actor)
    ensures r.health >= 0
    ensures r.health == a.health - damage || (r.health == 0 && a.health - damage < 0)
    ensures r == a.(health := r.health)
  {
    var h := a.health - damage;
    a.(health := if h < 0 then 0 else h)
  }

  /** `addHealth`: health rises by `amount`, capped at MAX_HEALTH. */
  function AddHealth(a: Actor, amount: int): (r: Actor)
    ensures r.health <= MAX_HEALTH
    ensures r.health == a.health + amount || (r.health == MAX_HEALTH && a.health + amount > MAX_HEALTH)
    ensures r == a.(health := r.health)
  {
    var h := a.health + amount;
    a.(health := if h > MAX_HEALTH then MAX_HEALTH else h)
  }

  predicate IsDead(a: Actor) {
    a.health <= 0
  }

  /**
   * Health stays within [0, MAX_HEALTH] under non-negative damage and healing, damage at
   * least the remaining health kills, and healing never revives past the cap.
   */
  lemma HealthBounds(a: Actor, damage: int, amount: int)
    requires 0 <= a.health <= MAX_HEALTH && damage >= 0 && amount >= 0
    ensures 0 <= DoDamage(a, damage).health <= MAX_HEALTH
    ensures 0 <= AddHealth(a, amount).health <= MAX_HEALTH
    ensures IsDead(DoDamage(a, damage)) <==> damage >= a.health
    ensures IsDead(AddHealth(a, amount)) <==> a.health + amount <= 0
  {
  }

  /** `addSpeedBonus`: a new bonus window of `duration` starting now, replacing any earlier one. */
  function AddSpeedBonus(a: Actor, duration: int, now: int): (r: Actor)
    ensures r.speedBonusDuration == duration && r.speedBonusStart == now
    ensures r.(speedBonusDuration := a.speedBonusDuration, speedBonusStart := a.speedBonusStart) == a
  {
    a.(speedBonusDuration := duration, speedBonusStart := now)
  }

  /** `checkDirection`: the direction flags from position towards target (unchanged without both). */
  function CheckDirection(a: Actor): (r: Actor)
    ensures a.position.Some? && a.target.Some? ==>
      (r.moveLeft <==> a.target.value.x < a.position.value.x)
      && (r.moveRight <==> a.position.value.x < a.target.value.x)
      && (r.moveUp <==> a.target.value.y < a.position.value.y)
      && (r.moveDown <==> a.position.value.y < a.target.value.y)
    ensures a.position.None? || a.target.None? ==> r == a
    ensures r == a.(moveLeft := r.moveLeft, moveRight := r.moveRight, moveUp := r.moveUp, moveDown := r.moveDown)
  {
    if a.position.Some? && a.target.Some? then
      var p := a.position.value;
      var t := a.target.value;
      a.(moveLeft := p.x > t.x, moveRight := p.x < t.x, moveUp := p.y > t.y, moveDown := p.y < t.y)
    else a
  }

  /** The next frame index of the cyclic animation counter. */
  function NextFrame(cur: int, numFrames: int): int {
    if cur == numFrames - 1 then 0 else cur + 1
  }

  /** The sprite row for a direction: 1 left, 2 right, 3 up, 0 otherwise. */
  function DirectionRow(a: Actor): int {
    if a.moveLeft then 1 else if a.moveRight then 2 else if a.moveUp then 3 else 0
  }

  /**
   * `updateAnimation(now)`: without a usable target the frame goes to the defaults (unless
   * -1); otherwise the column advances cyclically once more than `1000 / FPS` ms have passed
   * since the last advance, and the row follows the direction of travel. With a dividend of
   * 1000 Dafny's `/` agrees with Java's truncating `int` division for either sign of `FPS`.
   */
  function UpdateAnimation(a: Actor, now: int): (r: Actor)
    requires a.target.Some? && !a.target.value.isWall ==> a.fps != 0
    ensures a.target.None? || a.target.value.isWall ==>
      r.xCurFrame == (if a.xDefaultFrame != -1 then a.xDefaultFrame else a.xCurFrame)
      && r.yCurFrame == (if a.yDefaultFrame != -1 then a.yDefaultFrame else a.yCurFrame)
    ensures a.target.Some? && !a.target.value.isWall ==>
      (r.xCurFrame == a.xCurFrame || r.xCurFrame == NextFrame(a.xCurFrame, a.numFrames))
      && (r.lastFrameTime != a.lastFrameTime ==> r.lastFrameTime == now && r.xCurFrame == NextFrame(a.xCurFrame, a.numFrames))
    ensures a.target.Some? && !a.target.value.isWall ==>
      (now - a.lastFrameTime > 1000 / a.fps ==> r.xCurFrame == NextFrame(a.xCurFrame, a.numFrames) && r.lastFrameTime == now)
      && (now - a.lastFrameTime <= 1000 / a.fps ==> r.xCurFrame == a.xCurFrame && r.lastFrameTime == a.lastFrameTime)
    ensures a.target.Some? && !a.target.value.isWall && a.position.Some? ==>
      (r.yCurFrame == 1 <==> a.target.value.x < a.position.value.x)
      && (r.yCurFrame == 2 <==> a.position.value.x < a.target.value.x)
      && (r.yCurFrame == 3 <==> a.position.value.x == a.target.value.x && a.target.value.y < a.position.value.y)
    ensures r.position == a.position && r.target == a.target && r.health == a.health
      && r.xMove == a.xMove && r.yMove == a.yMove && r.transitionComplete == a.transitionComplete
    ensures r.level == a.level && r.fps == a.fps && r.numFrames == a.numFrames && r.speed == a.speed
      && r.xDefaultFrame == a.xDefaultFrame && r.yDefaultFrame == a.yDefaultFrame
  {
    if a.target.None? || a.target.value.isWall then
      a.(xCurFrame := if a.xDefaultFrame != -1 then a.xDefaultFrame else a.xCurFrame,
         yCurFrame := if a.yDefaultFrame != -1 then a.yDefaultFrame else a.yCurFrame)
    else
      var ticked := if now - a.lastFrameTime > 1000 / a.fps
                    then a.(xCurFrame := NextFrame(a.xCurFrame, a.numFrames), lastFrameTime := now)
                    else a;
      var d := CheckDirection(ticked);
      d.(yCurFrame := DirectionRow(d))
  }

  /**
   * The column advances at most once per frame period: right after an advance at `t1`, an
   * update no more than `1000 / FPS` ms later leaves the frame and its timestamp alone.
   */
  lemma AnimationOncePerPeriod(a: Actor, t1: int, t2: int)
    requires a.target.Some? && !a.target.value.isWall && a.fps != 0
    requires t1 - a.lastFrameTime > 1000 / a.fps && t2 - t1 <= 1000 / a.fps
    ensures UpdateAnimation(a, t1).xCurFrame == NextFrame(a.xCurFrame, a.numFrames)
    ensures UpdateAnimation(UpdateAnimation(a, t1), t2).xCurFrame == UpdateAnimation(a, t1).xCurFrame
    ensures UpdateAnimation(UpdateAnimation(a, t1), t2).lastFrameTime == t1
  {
  }

  /** The frame indices lie on the sprite sheet: a column below numFrames and one of the four rows. */
  predicate FramesInRange(a: Actor) {
    0 <= a.xCurFrame < a.numFrames && 0 <= a.yCurFrame < 4
    && (a.xDefaultFrame == -1 || 0 <= a.xDefaultFrame < a.numFrames)
    && (a.yDefaultFrame == -1 || 0 <= a.yDefaultFrame < 4)
  }

  /** The frame counter never leaves the sprite sheet. */
  lemma UpdateAnimationInRange(a: Actor, now: int)
    requires FramesInRange(a)
    requires a.target.Some? && !a.target.value.isWall ==> a.fps != 0
    ensures FramesInRange(UpdateAnimation(a, now))
  {
  }

  /** The per-tick pixel steps `(int)(speed * WIDTH / 8)` and `(int)(speed * HEIGHT / 8)`. */
  function BaseStep(speed: real, size: int): int {
    Trunc(speed * size as real / 8.0)
  }

  /** Whether the speed bonus is running at `now`. */
  predicate BonusLive(a: Actor, now: int) {
    a.speedBonusDuration > 0 && now - a.speedBonusStart < a.speedBonusDuration
  }

  /** The magnitude of one step along x (`horizontal`) or y, bonus included. */
  function StepSize(a: Actor, dims: TileDims, now: int, horizontal: bool): nat {
    var base := BaseStep(a.speed, if horizontal then dims.width else dims.height);
    Abs(if BonusLive(a, now) then base * SPEED_BONUS_FACTOR else base)
  }

  /** One pixel step along the first flagged direction, left, right, up, down. */
  function Advance(a: Actor, dims: TileDims, now: int, xDiff: int, yDiff: int): (r: Actor)
    ensures r == a.(xMove := r.xMove, yMove := r.yMove, transitionComplete := r.transitionComplete)
  {
    var xStep := StepSize(a, dims, now, true);
    var yStep := StepSize(a, dims, now, false);
    if a.moveLeft then a.(xMove := a.xMove - xStep, transitionComplete := a.xMove - xStep <= xDiff)
    else if a.moveRight then a.(xMove := a.xMove + xStep, transitionComplete := a.xMove + xStep >= xDiff)
    else if a.moveUp then a.(yMove := a.yMove - yStep, transitionComplete := a.yMove - yStep <= yDiff)
    else if a.moveDown then a.(yMove := a.yMove + yStep, transitionComplete := a.yMove + yStep >= yDiff)
    else a
  }

  /**
   * `doMove(now)`: one animation tick. Nothing happens without a position or target or once
   * the transition is complete; a target equal to the position completes at once; otherwise
   * one axis advances by one step (doubled while the bonus runs, the bonus cleared once it
   * has expired), and on completion the actor snaps onto the target.
   */
  function DoMove(a: Actor, dims: TileDims, now: int): (r: Actor)
    ensures !a.Moving() ==> r == a
    ensures a.Moving() && r.transitionComplete ==>
      r.position == a.target && r.target.None? && r.xMove == 0 && r.yMove == 0
    ensures a.Moving() && !r.transitionComplete ==> r.position == a.position && r.target == a.target
    ensures r.health == a.health && r.level == a.level && r.speed == a.speed
      && r.speedBonusStart == a.speedBonusStart
    ensures r.speedBonusDuration == a.speedBonusDuration || (r.speedBonusDuration == 0 && !BonusLive(a, now))
  {
    if !a.Moving() then a
    else
      var p := a.position.value;
      var t := a.target.value;
      var moved :=
        if Same(t, p) then a.(transitionComplete := true)
        else
          var d := CheckDirection(a);
          var xDiff := XPixels(t, dims) - XPixels(p, dims);
          var yDiff := YPixels(t, dims) - YPixels(p, dims);
          var stepped := Advance(d, dims, now, xDiff, yDiff);
          if a.speedBonusDuration > 0 && !BonusLive(a, now) then stepped.(speedBonusDuration := 0) else stepped;
      if moved.transitionComplete then moved.(position := moved.target, xMove := 0, yMove := 0, target := None)
      else moved
  }

  /** A `doMove` tick keeps the animation settings. */
  lemma DoMoveKeepsSettings(a: Actor, dims: TileDims, now: int)
    ensures DoMove(a, dims, now).fps == a.fps && DoMove(a, dims, now).numFrames == a.numFrames
  {
  }

  /** `reset`: new level and position, full health, at rest with no target. */
  function Reset(a: Actor, level: Option<Level>, position: Option<Tile>): (r: Actor)
    ensures r.level == level && r.position == position && r.health == MAX_HEALTH
    ensures r.transitionComplete && r.target.None? && r.xMove == 0 && r.yMove == 0 && !r.Moving()
    ensures r.speed == a.speed && r.numFrames == a.numFrames && r.fps == a.fps
  {
    a.(level := level, position := position, health := MAX_HEALTH, transitionComplete := true,
       target := None, xMove := 0, yMove := 0)
  }

  /**
   * A tick that does not complete moves exactly one axis by one step, with priority left,
   * right, up, down; the step is doubled exactly while the bonus runs, and an expired bonus
   * is cleared.
   */
  lemma DoMoveOneAxis(a: Actor, dims: TileDims, now: int)
    requires a.Moving() && !Same(a.position.value, a.target.value)
    ensures var r := DoMove(a, dims, now);
      var p := a.position.value;
      var t := a.target.value;
      !r.transitionComplete ==>
        if t.x < p.x then r.xMove == a.xMove - StepSize(a, dims, now, true) && r.yMove == a.yMove
        else if p.x < t.x then r.xMove == a.xMove + StepSize(a, dims, now, true) && r.yMove == a.yMove
        else if t.y < p.y then r.yMove == a.yMove - StepSize(a, dims, now, false) && r.xMove == a.xMove
        else r.yMove == a.yMove + StepSize(a, dims, now, false) && r.xMove == a.xMove
    ensures StepSize(a, dims, now, true) == Abs(
      if BonusLive(a, now) then BaseStep(a.speed, dims.width) * SPEED_BONUS_FACTOR else BaseStep(a.speed, dims.width))
    ensures a.speedBonusDuration > 0 && !BonusLive(a, now) ==> DoMove(a, dims, now).speedBonusDuration == 0
  {
  }

  /** One `doMove` tick per clock reading in `times`, in order. */
  function RunMoves(a: Actor, dims: TileDims, times: seq<int>): Actor
    decreases |times|
  {
    if times == [] then a else RunMoves(DoMove(a, dims, times[0]), dims, times[1..])
  }

  /** Ticks after the transition has completed change nothing. */
  lemma {:induction false} RunMovesIdle(a: Actor, dims: TileDims, times: seq<int>)
    requires !a.Moving()
    ensures RunMoves(a, dims, times) == a
    decreases |times|
  {
    if times != [] {
      RunMovesIdle(a, dims, times[1..]);
    }
  }

  /** The transition runs along x when the columns differ, along y otherwise. */
  predicate Horizontal(a: Actor)
    requires a.Moving()
  {
    a.target.value.x != a.position.value.x
  }

  /** The pixel distance to cover along the travel axis. */
  function Travel(a: Actor, dims: TileDims): int
    requires a.Moving()
  {
    if Horizontal(a) then Abs(a.target.value.x - a.position.value.x) * dims.width
    else Abs(a.target.value.y - a.position.value.y) * dims.height
  }

  /** The step along the travel axis without the bonus: no tick moves less. */
  function BareStep(a: Actor, dims: TileDims): nat
    requires a.Moving()
  {
    Abs(BaseStep(a.speed, if Horizontal(a) then dims.width else dims.height))
  }

  /** Whatever the clock reads, a step is at least the bare step. */
  lemma StepAtLeastBare(a: Actor, dims: TileDims, now: int)
    requires a.Moving()
    ensures StepSize(a, dims, now, Horizontal(a)) >= BareStep(a, dims)
  {
  }

  /** The actor has moved `o` pixels towards the target along the travel axis. */
  predicate Offset(a: Actor, o: nat)
    requires a.Moving()
  {
    var v: int := o;
    if Horizontal(a) then a.xMove == (if a.target.value.x < a.position.value.x then -v else v)
    else a.yMove == (if a.target.value.y < a.position.value.y then -v else v)
  }

  /** The outcome `OneMove` promises for one tick of `s` pixels from offset `o`. */
  predicate OneMoveOutcome(a: Actor, b: Actor, dims: TileDims, now: int, s: nat, o: nat)
    requires a.Moving()
  {
    if o + s >= Travel(a, dims) then
      b.transitionComplete && b.position == a.target && b.target.None? && b.xMove == 0 && b.yMove == 0
    else
      b.Moving() && b.position == a.position && b.target == a.target && b.speed == a.speed
      && Offset(b, o + s) && StepSize(b, dims, now, Horizontal(b)) == s
  }

  /** One tick from offset `o`: either it completes on the target or it is one step further. */
  lemma OneMove(a: Actor, dims: TileDims, now: int, s: nat, o: nat)
    requires a.Moving() && !Same(a.position.value, a.target.value) && dims.width > 0 && dims.height > 0
    requires s >= 1 && s == StepSize(a, dims, now, Horizontal(a))
    requires Offset(a, o)
    ensures OneMoveOutcome(a, DoMove(a, dims, now), dims, now, s, o)
  {
    var p := a.position.value;
    var t := a.target.value;
    if t.x != p.x {
      OneMoveHorizontal(a, dims, now, s, o);
    } else {
      OneMoveVertical(a, dims, now, s, o);
    }
  }

  lemma OneMoveHorizontal(a: Actor, dims: TileDims, now: int, s: nat, o: nat)
    requires a.Moving() && a.target.value.x != a.position.value.x && dims.width > 0
    requires s >= 1 && s == StepSize(a, dims, now, true)
    requires Offset(a, o)
    ensures OneMoveOutcome(a, DoMove(a, dims, now), dims, now, s, o)
  {
    var p := a.position.value;
    var t := a.target.value;
    var d := CheckDirection(a);
    var xDiff := XPixels(t, dims) - XPixels(p, dims);
    var yDiff := YPixels(t, dims) - YPixels(p, dims);
    var travel := Abs(t.x - p.x) * dims.width;
    assert Travel(a, dims) == travel;
    PixelDistance(p, t, dims);
    assert StepSize(d, dims, now, true) == s;
    var stepped := Advance(d, dims, now, xDiff, yDiff);
    if t.x < p.x {
      assert xDiff == -travel;
      assert stepped.xMove == -(o + s) && (stepped.transitionComplete <==> o + s >= travel);
    } else {
      assert xDiff == travel;
      assert stepped.xMove == o + s && (stepped.transitionComplete <==> o + s >= travel);
    }
  }

  lemma OneMoveVertical(a: Actor, dims: TileDims, now: int, s: nat, o: nat)
    requires a.Moving() && a.target.value.x == a.position.value.x && dims.height > 0
    requires !Same(a.position.value, a.target.value)
    requires s >= 1 && s == StepSize(a, dims, now, false)
    requires Offset(a, o)
    ensures OneMoveOutcome(a, DoMove(a, dims, now), dims, now, s, o)
  {
    var p := a.position.value;
    var t := a.target.value;
    var d := CheckDirection(a);
    var xDiff := XPixels(t, dims) - XPixels(p, dims);
    var yDiff := YPixels(t, dims) - YPixels(p, dims);
    var travel := Abs(t.y - p.y) * dims.height;
    assert Travel(a, dims) == travel;
    PixelDistance(p, t, dims);
    assert StepSize(d, dims, now, false) == s;
    var stepped := Advance(d, dims, now, xDiff, yDiff);
    if t.y < p.y {
      assert yDiff == -travel;
      assert stepped.yMove == -(o + s) && (stepped.transitionComplete <==> o + s >= travel);
    } else {
      assert yDiff == travel;
      assert stepped.yMove == o + s && (stepped.transitionComplete <==> o + s >= travel);
    }
  }

  /** Covering at least `b` more pixels saves at least one step of `b`. */
  lemma CeilDivShrinks(d: nat, s: nat, b: nat)
    requires b >= 1 && s >= b && d > s
    ensures CeilDiv(d - s, b) + 1 <= CeilDiv(d, b)
  {
    var q1 := CeilDiv(d - s, b);
    var q := CeilDiv(d, b);
    assert q1 > 0;
    assert q1 * b == (q1 - 1) * b + b;
    if q1 >= q {
      MulLe(q, q1, b);
    }
  }

  lemma MulLe(a: nat, b: nat, s: nat)
    requires a <= b
    ensures a * s <= b * s
  {
  }

  /** `(n + 1) * s` unfolds by one step. */
  lemma MulSucc(n: nat, s: nat)
    ensures (n + 1) * s == n * s + s
  {
  }

  /** The transition is over and the actor stands on the target it had. */
  predicate Arrived(a: Actor, b: Actor)
    requires a.Moving()
  {
    b.transitionComplete && b.position == a.target && b.target.None? && b.xMove == 0 && b.yMove == 0
  }

  /** Part-way through a transition at a constant clock: `o` pixels covered, steps of `s`. */
  predicate OnTheWay(a: Actor, dims: TileDims, now: int, s: nat, o: nat) {
    a.Moving() && !Same(a.position.value, a.target.value) && dims.width > 0 && dims.height > 0
    && s >= 1 && s == StepSize(a, dims, now, Horizontal(a)) && Offset(a, o) && o < Travel(a, dims)
  }

  /** One tick at a constant clock either arrives or leaves the actor one step further on its way. */
  lemma TickAt(a: Actor, dims: TileDims, now: int, s: nat, o: nat)
    requires OnTheWay(a, dims, now, s, o)
    ensures var b := DoMove(a, dims, now);
      if o + s >= Travel(a, dims) then Arrived(a, b) && !b.Moving()
      else OnTheWay(b, dims, now, s, o + s) && b.target == a.target && Travel(b, dims) == Travel(a, dims)
  {
    OneMove(a, dims, now, s, o);
  }

  /** From offset `o` at a constant clock, `ceil((travel - o) / s)` ticks complete the transition. */
  lemma {:induction false} MovesFrom(a: Actor, dims: TileDims, now: int, times: seq<int>, s: nat, o: nat)
    requires OnTheWay(a, dims, now, s, o)
    requires forall k :: 0 <= k < |times| ==> times[k] == now
    requires |times| >= CeilDiv(Travel(a, dims) - o, s)
    ensures Arrived(a, RunMoves(a, dims, times))
    decreases |times|
  {
    var d := Travel(a, dims);
    assert |times| > 0 && times[0] == now;
    var b1 := DoMove(a, dims, now);
    var rest := times[1..];
    TickAt(a, dims, now, s, o);
    assert RunMoves(a, dims, times) == RunMoves(b1, dims, rest);
    if o + s >= d {
      RunMovesIdle(b1, dims, rest);
    } else {
      CeilDivShrinks(d - o, s, s);
      assert forall k :: 0 <= k < |rest| ==> rest[k] == times[k + 1];
      MovesFrom(b1, dims, now, rest, s, o + s);
    }
  }

  /** Ticks at a constant clock that cover less than the travel leave the actor on its way. */
  lemma {:induction false} MovesShort(a: Actor, dims: TileDims, now: int, times: seq<int>, s: nat, o: nat)
    requires OnTheWay(a, dims, now, s, o)
    requires forall k :: 0 <= k < |times| ==> times[k] == now
    requires o + |times| * s < Travel(a, dims)
    ensures RunMoves(a, dims, times).Moving()
    decreases |times|
  {
    if times != [] {
      assert times[0] == now;
      var b1 := DoMove(a, dims, now);
      var rest := times[1..];
      MulSucc(|rest|, s);
      TickAt(a, dims, now, s, o);
      assert RunMoves(a, dims, times) == RunMoves(b1, dims, rest);
      assert forall k :: 0 <= k < |rest| ==> rest[k] == times[k + 1];
      MovesShort(b1, dims, now, rest, s, o + s);
    }
  }

  /**
   * A transition started by `moveToTarget` (offsets 0) towards a different tile, with the
   * clock standing still and a step of at least one pixel, completes on the target after
   * exactly `ceil(travel / step)` ticks: not before, and any later ticks change nothing.
   */
  lemma MoveCompletes(a: Actor, dims: TileDims, now: int, times: seq<int>)
    requires a.Moving() && !Same(a.position.value, a.target.value) && dims.width > 0 && dims.height > 0
    requires a.xMove == 0 && a.yMove == 0
    requires StepSize(a, dims, now, Horizontal(a)) >= 1
    requires forall k :: 0 <= k < |times| ==> times[k] == now
    ensures |times| >= CeilDiv(Travel(a, dims), StepSize(a, dims, now, Horizontal(a))) ==>
      Arrived(a, RunMoves(a, dims, times))
    ensures |times| < CeilDiv(Travel(a, dims), StepSize(a, dims, now, Horizontal(a))) ==>
      RunMoves(a, dims, times).Moving()
  {
    var s := StepSize(a, dims, now, Horizontal(a));
    var d := Travel(a, dims);
    assert d > 0 by {
      if Horizontal(a) {
        MulLe(1, Abs(a.target.value.x - a.position.value.x), dims.width);
      } else {
        MulLe(1, Abs(a.target.value.y - a.position.value.y), dims.height);
      }
    }
    assert OnTheWay(a, dims, now, s, 0);
    if |times| >= CeilDiv(d, s) {
      MovesFrom(a, dims, now, times, s, 0);
    } else {
      MulLe(|times|, CeilDiv(d, s) - 1, s);
      MovesShort(a, dims, now, times, s, 0);
    }
  }

  /** Part-way through a transition with `o` pixels covered, whatever the clock: bare step at least 1. */
  predicate OnTheWayAnyClock(a: Actor, dims: TileDims, o: nat) {
    a.Moving() && !Same(a.position.value, a.target.value) && dims.width > 0 && dims.height > 0
    && BareStep(a, dims) >= 1 && Offset(a, o) && o < Travel(a, dims)
  }

  /** One tick at any clock reading moves at least the bare step, or arrives. */
  lemma TickAny(a: Actor, dims: TileDims, now: int, o: nat)
    requires OnTheWayAnyClock(a, dims, o)
    ensures var b := DoMove(a, dims, now);
      var s := StepSize(a, dims, now, Horizontal(a));
      s >= BareStep(a, dims)
      && (if o + s >= Travel(a, dims) then Arrived(a, b) && !b.Moving()
          else (OnTheWayAnyClock(b, dims, o + s) && b.target == a.target
                && Travel(b, dims) == Travel(a, dims) && BareStep(b, dims) == BareStep(a, dims)))
  {
    StepAtLeastBare(a, dims, now);
    OneMove(a, dims, now, StepSize(a, dims, now, Horizontal(a)), o);
  }

  /** From offset `o`, `ceil((travel - o) / bare step)` ticks complete the transition whatever the clock reads. */
  lemma {:induction false} MovesFromAnyClock(a: Actor, dims: TileDims, times: seq<int>, o: nat)
    requires OnTheWayAnyClock(a, dims, o)
    requires |times| >= CeilDiv(Travel(a, dims) - o, BareStep(a, dims))
    ensures Arrived(a, RunMoves(a, dims, times))
    decreases |times|
  {
    var d := Travel(a, dims);
    var b := BareStep(a, dims);
    assert |times| > 0;
    var now := times[0];
    var s := StepSize(a, dims, now, Horizontal(a));
    var b1 := DoMove(a, dims, now);
    var rest := times[1..];
    TickAny(a, dims, now, o);
    assert RunMoves(a, dims, times) == RunMoves(b1, dims, rest);
    if o + s >= d {
      RunMovesIdle(b1, dims, rest);
    } else {
      CeilDivShrinks(d - o, s, b);
      MovesFromAnyClock(b1, dims, rest, o + s);
    }
  }

  /**
   * A transition started by `moveToTarget` towards a different tile completes on the target
   * within `ceil(travel / bare step)` ticks, whatever the clock reads at each tick: a speed
   * bonus that runs or lapses part-way only makes some steps longer.
   */
  lemma MoveCompletesAnyClock(a: Actor, dims: TileDims, times: seq<int>)
    requires a.Moving() && !Same(a.position.value, a.target.value) && dims.width > 0 && dims.height > 0
    requires a.xMove == 0 && a.yMove == 0 && BareStep(a, dims) >= 1
    requires |times| >= CeilDiv(Travel(a, dims), BareStep(a, dims))
    ensures Arrived(a, RunMoves(a, dims, times))
  {
    assert Travel(a, dims) > 0 by {
      if Horizontal(a) {
        MulLe(1, Abs(a.target.value.x - a.position.value.x), dims.width);
      } else {
        MulLe(1, Abs(a.target.value.y - a.position.value.y), dims.height);
      }
    }
    assert OnTheWayAnyClock(a, dims, 0);
    MovesFromAnyClock(a, dims, times, 0);
  }
}

=== FILE: applet.dfy ===
/**
 * The game loop's level bookkeeping: how the difficulty moves between levels (in both
 * revisions), when a new level is created, how wide it is, and where the player starts.
 */
module Applet {
  import opened Wrappers
  import opened Numeric
  import opened Tiles
  import opened Grid
  import opened Generation
  import opened PathFinding
  import opened Players
  import opened Placement

  const DIFFICULTY_INCREMENT: real := 0.5
  const MIN_WIDTH: int := 20
  const MAX_WIDTH: int := 30
  const HEIGHT: int := 20
  const START_DIFFICULTY: real := 1.0

  /**
   * `changeDifficulty(won)` of the later revision: half a step up on a win, down on a loss.
   * Passing MAX_DIFFICULTY wins the game and leaves the difficulty unclamped; falling below
   * 1 resets it to 1.
   */
  function ChangeDifficulty(d: real, won: bool): (r: (real, bool))
    ensures var moved := if won then d + DIFFICULTY_INCREMENT else d - DIFFICULTY_INCREMENT;
      (r.1 <==> moved > MAX_DIFFICULTY)
      && (r.1 ==> r.0 == moved)
      && (!r.1 ==> r.0 == (if moved < 1.0 then 1.0 else moved) && 1.0 <= r.0 <= MAX_DIFFICULTY)
  {
    var moved := if won then d + DIFFICULTY_INCREMENT else d - DIFFICULTY_INCREMENT;
    if moved > MAX_DIFFICULTY then (moved, true)
    else if moved < 1.0 then (1.0, false)
    else (moved, false)
  }

  /** `endLevel(win)` of the later revision: a new level is made exactly when the game is not won. */
  function EndLevel(d: real, win: bool): (r: (real, bool))
    ensures r.0 == ChangeDifficulty(d, win).0
    ensures r.1 <==> !ChangeDifficulty(d, win).1
  {
    var changed := ChangeDifficulty(d, win);
    (changed.0, !changed.1)
  }

  /** `changeDifficulty(increase)` of the earlier revision: half a step, then clamped into [1, MAX_DIFFICULTY]. */
  function OldChangeDifficulty(d: real, increase: bool): (r: real)
    ensures 1.0 <= r <= MAX_DIFFICULTY
    ensures r == ClampDifficulty(if increase then d + DIFFICULTY_INCREMENT else d - DIFFICULTY_INCREMENT)
  {
    var moved := if increase then d + DIFFICULTY_INCREMENT else d - DIFFICULTY_INCREMENT;
    if moved < 1.0 then 1.0 else if moved > MAX_DIFFICULTY then MAX_DIFFICULTY else moved
  }

  /** The earlier revision's `endLevel` always changes the difficulty and always builds a new level. */
  function OldEndLevels(d: real, results: seq<bool>): (r: real)
    decreases |results|
  {
    if results == [] then d else OldEndLevels(OldChangeDifficulty(d, results[0]), results[1..])
  }

  /** The difficulties reachable in half steps from 1 within [1, MAX_DIFFICULTY]: 1, 1.5, ..., 4. */
  ghost predicate OnLattice(d: real) {
    exists k: int :: 0 <= k <= 6 && d == Rung(k)
  }

  /** The k-th half step above 1. */
  function Rung(k: int): real {
    1.0 + k as real * DIFFICULTY_INCREMENT
  }

  lemma OldChangeStaysOnLattice(d: real, increase: bool)
    requires OnLattice(d)
    ensures OnLattice(OldChangeDifficulty(d, increase))
  {
    var k: int :| 0 <= k <= 6 && d == Rung(k);
    var k' := if increase then (if k < 6 then k + 1 else 6) else (if k > 0 then k - 1 else 0);
    assert OldChangeDifficulty(d, increase) == Rung(k');
  }

  /**
   * Starting from 1, any run of won and lost levels in the earlier revision keeps the
   * difficulty on the half-step lattice inside [1, MAX_DIFFICULTY].
   */
  lemma {:induction false} OldDifficultyOnLattice(results: seq<bool>, d: real)
    requires OnLattice(d)
    ensures OnLattice(OldEndLevels(d, results))
    ensures 1.0 <= OldEndLevels(d, results) <= MAX_DIFFICULTY
    decreases |results|
  {
    if results == [] {
      var k: int :| 0 <= k <= 6 && d == Rung(k);
    } else {
      OldChangeStaysOnLattice(d, results[0]);
      OldDifficultyOnLattice(results[1..], OldChangeDifficulty(d, results[0]));
    }
  }

  lemma StartOnLattice()
    ensures OnLattice(START_DIFFICULTY)
  {
    assert START_DIFFICULTY == Rung(0);
  }

  /**
   * The later revision over a run of level results: `endLevel` stops creating levels once
   * the game is won, so later results are ignored. Returns the difficulty and whether the
   * game was won.
   */
  function EndLevels(d: real, results: seq<bool>): (r: (real, bool))
    decreases |results|
  {
    if results == [] then (d, false)
    else
      var next := EndLevel(d, results[0]);
      if !next.1 then (next.0, true) else EndLevels(next.0, results[1..])
  }

  /** From a lattice difficulty one step either wins the game from the top rung or stays on the lattice. */
  lemma ChangeStaysOnLattice(d: real, won: bool)
    requires OnLattice(d)
    ensures ChangeDifficulty(d, won).1 <==> won && d == MAX_DIFFICULTY
    ensures !ChangeDifficulty(d, won).1 ==> OnLattice(ChangeDifficulty(d, won).0)
  {
    var k: int :| 0 <= k <= 6 && d == Rung(k);
    if !ChangeDifficulty(d, won).1 {
      var k' := if won then k + 1 else (if k > 0 then k - 1 else 0);
      assert ChangeDifficulty(d, won).0 == Rung(k');
    }
  }

  /**
   * In the later revision, from a lattice difficulty every level is created at a difficulty
   * on the lattice inside [1, MAX_DIFFICULTY]; the game is won only by winning at
   * MAX_DIFFICULTY, which leaves the difficulty half a step above it.
   */
  lemma {:induction false} DifficultyUntilWon(d: real, results: seq<bool>)
    requires OnLattice(d)
    ensures !EndLevels(d, results).1 ==> OnLattice(EndLevels(d, results).0)
    ensures !EndLevels(d, results).1 ==> 1.0 <= EndLevels(d, results).0 <= MAX_DIFFICULTY
    ensures EndLevels(d, results).1 ==> EndLevels(d, results).0 == MAX_DIFFICULTY + DIFFICULTY_INCREMENT
    decreases |results|
  {
    var k: int :| 0 <= k <= 6 && d == Rung(k);
    if results != [] {
      ChangeStaysOnLattice(d, results[0]);
      if EndLevel(d, results[0]).1 {
        DifficultyUntilWon(EndLevel(d, results[0]).0, results[1..]);
      }
    }
  }

  /** The later revision's level width: `MIN_WIDTH + (int)((d / MAX_DIFFICULTY) * (MAX_WIDTH - MIN_WIDTH))`. */
  function LevelWidth(d: real): (w: int)
    ensures 1.0 <= d <= MAX_DIFFICULTY ==> 22 <= w <= MAX_WIDTH
    ensures d == MAX_DIFFICULTY ==> w == MAX_WIDTH
  {
    var scaled := (d / MAX_DIFFICULTY) * (MAX_WIDTH - MIN_WIDTH) as real;
    assert 1.0 <= d <= MAX_DIFFICULTY ==> 2.5 <= scaled <= 10.0;
    MIN_WIDTH + Trunc(scaled)
  }

  /** The earlier revision's level width: `MIN_WIDTH + (int)(Math.random() * (MAX_WIDTH - MIN_WIDTH))`. */
  function OldLevelWidth(draw: real): (w: int)
    ensures 0.0 <= draw < 1.0 ==> MIN_WIDTH <= w <= MAX_WIDTH - 1
  {
    MIN_WIDTH + Trunc(draw * (MAX_WIDTH - MIN_WIDTH) as real)
  }

  /** The earlier revision's enemy request: one simple, one search, and one or two random enemies. */
  function EnemyRequest(d: real): (r: (int, int, int))
    ensures r.0 == 1 && r.1 == 1
    ensures r.2 == (if d < HARD_DIFFICULTY then 1 else 2)
  {
    (1, 1, NumRandom(d))
  }

  /**
   * The player's start: `getRandomTile(getTile(0, 0), 0)`, a walkable tile from which
   * `getPath` reaches (0, 0).
   */
  function PlayerStart(m: Map, draws: seq<real>): (r: Option<(Tile, seq<real>)>)
    requires Sampleable(m) && UnitDraws(draws)
    ensures r.Some? ==> m.Holds(r.value.0) && !r.value.0.isWall
    ensures r.Some? ==> GetPath(m, r.value.0, m.TileAt(0, 0).value).Some?
  {
    RandomTile(m, Some(m.TileAt(0, 0).value), 0, draws)
  }

  /** What `createNewLevel` sets up: the level, the reset player, the enemies and the power-ups. */
  datatype Setup = Setup(level: Level, player: Player, enemies: seq<(EnemyClass, Tile)>,
                         powerUps: seq<PowerUps.PowerUp>)

  /**
   * `createNewLevel()` of the later revision. Without a content panel or a player it does
   * nothing. Otherwise it generates a level of width `LevelWidth(d)` and height HEIGHT,
   * resets the player onto a start tile with a route to (0, 0), and adds the enemies and
   * power-ups. Generation, the start tile, the enemies and the power-ups take their own
   * draw sequences; `None` means the draws or the generation fuel ran out.
   */
  method CreateNewLevel(hasContent: bool, player: Option<Player>, d: real,
                        levelDraws: seq<real>, fuel: nat, startDraws: seq<real>,
                        enemyDraws: seq<real>, powerUpDraws: seq<real>)
    returns (r: Option<Setup>)
    requires 1.0 <= d <= MAX_DIFFICULTY
    requires UnitDraws(startDraws) && UnitDraws(enemyDraws) && UnitDraws(powerUpDraws)
    ensures !hasContent || player.None? ==> r.None?
    ensures r.Some? ==>
      var m := r.value.level.grid;
      m.Complete() && m.width == LevelWidth(d) && m.height == HEIGHT && r.value.level.difficulty == d
    ensures r.Some? ==>
      var m := r.value.level.grid;
      var p := r.value.player;
      p.actor.position.Some? && m.Holds(p.actor.position.value) && !p.actor.position.value.isWall
      && GetPath(m, p.actor.position.value, m.TileAt(0, 0).value).Some?
      && p.keys == [] && p.actor.health == Actors.MAX_HEALTH && !p.actor.Moving()
    ensures r.Some? ==>
      var e := r.value.enemies;
      |e| == 2 + NumRandom(d) && Classes(e) == EnemyOrder(NumRandom(d))
      && AllPlaced(r.value.level.grid, StartTiles(e), r.value.player.actor.position.value)
    ensures r.Some? ==>
      var ps := r.value.powerUps;
      |ps| <= 4
      && (exists nh: nat, ns: nat :: 1 <= nh <= 2 && 1 <= ns <= 2 && (d < HARD_DIFFICULTY ==> nh == 1 && ns == 1)
            && KindsOf(ps) == PowerUpOrder(nh, ns))
      && (forall k :: 0 <= k < |ps| ==> !ps[k].destroyed)
      && AllPlaced(r.value.level.grid, Positions(ps), r.value.player.actor.position.value)
  {
    if !hasContent || player.None? {
      return None;
    }
    var width := LevelWidth(d);
    var level := NewLevel(width, HEIGHT, d, levelDraws, fuel);
    if level.None? {
      return None;
    }
    var m := level.value.grid;
    var start := PlayerStart(m, startDraws);
    if start.None? {
      return None;
    }
    var p := Players.Reset(player.value, level, Some(start.value.0));
    var enemies := AddEnemies(m, d, start.value.0, enemyDraws);
    var powerUps := AddPowerUps(m, d, start.value.0, powerUpDraws);
    if enemies.None? || powerUps.None? {
      return None;
    }
    return Some(Setup(level.value, p, enemies.value, powerUps.value));
  }
}

=== FILE: enemy.dfy ===
/**
 * Enemies: ghosts, bats and dogs that chase the player along `getPath` routes, the ghost
 * sometimes stepping to a random neighbour instead. `Math.random()` is replaced by the two
 * draws an update may consume: one for the random-move choice and one for the direction.
 */
module Enemies {
  import opened Wrappers
  import opened Numeric
  import opened Tiles
  import opened Grid
  import opened PathFinding
  import opened Actors

  datatype EnemyType = Ghost | Bat | Dog

  const NUM_FRAMES: int := 2
  const FPS: int := 15
  const GHOST_DAMAGE: int := 3
  const BAT_DAMAGE: int := 6
  const DOG_DAMAGE: int := 10
  /** Out of ten, how often each type picks a random move. */
  const GHOST_CHOOSE_RANDOM: int := 5
  const BAT_CHOOSE_RANDOM: int := 0
  const DOG_CHOOSE_RANDOM: int := 0
  const GHOST_SPEED: real := 1.5
  const BAT_SPEED: real := 0.75
  const DOG_SPEED: real := 1.75

  function SpeedOf(kind: EnemyType): real {
    match kind
    case Ghost => GHOST_SPEED
    case Bat => BAT_SPEED
    case Dog => DOG_SPEED
  }

  function ChooseRandomOf(kind: EnemyType): int {
    match kind
    case Ghost => GHOST_CHOOSE_RANDOM
    case Bat => BAT_CHOOSE_RANDOM
    case Dog => DOG_CHOOSE_RANDOM
  }

  /** An enemy: its actor state, its type, the player tile it last planned for, and its path. */
  datatype Enemy = Enemy(actor: Actor, kind: EnemyType, lastPlayerPosition: Option<Tile>,
                         pathToPlayer: Option<seq<Tile>>)

  /** The constructor: the type fixes the speed; no default frames, no plan yet. */
  function NewEnemy(position: Option<Tile>, level: Option<Level>, health: int, kind: EnemyType): (e: Enemy)
    ensures e.kind == kind && e.actor.health == health && e.actor.position == position && e.actor.level == level
    ensures kind == Ghost ==> e.actor.speed == 1.5
    ensures kind == Bat ==> e.actor.speed == 0.75
    ensures kind == Dog ==> e.actor.speed == 1.75
    ensures e.actor.fps == FPS && e.actor.numFrames == NUM_FRAMES && !e.actor.Moving()
    ensures e.actor.xDefaultFrame == -1 && e.actor.yDefaultFrame == -1
    ensures e.lastPlayerPosition.None? && e.pathToPlayer.None?
  {
    var a := NewActor(position, level, NUM_FRAMES, FPS);
    Enemy(a.(health := health, speed := SpeedOf(kind), xDefaultFrame := -1, yDefaultFrame := -1),
          kind, None, None)
  }

  /** `getDamageAmount`: the damage a contact with this type does. */
  function GetDamageAmount(e: Enemy): (d: int)
    ensures e.kind == Ghost ==> d == 3
    ensures e.kind == Bat ==> d == 6
    ensures e.kind == Dog ==> d == 10
  {
    match e.kind
    case Ghost => GHOST_DAMAGE
    case Bat => BAT_DAMAGE
    case Dog => DOG_DAMAGE
  }

  /** `Math.random() * 10 < CHOOSE_RANDOM`: the draw that decides on a random move. */
  predicate ChoosesRandom(kind: EnemyType, draw: real) {
    draw * 10.0 < ChooseRandomOf(kind) as real
  }

  /** With a draw from [0, 1), bats and dogs never move at random, and a ghost does for draws below 0.5. */
  lemma OnlyGhostsWander(kind: EnemyType, draw: real)
    requires 0.0 <= draw < 1.0
    ensures ChoosesRandom(kind, draw) <==> kind == Ghost && draw < 0.5
  {
  }

  /** `(int)(Math.random() * 4)`, with 4 and above folded onto 3. */
  function DirectionIndex(draw: real): (d: int)
    ensures d <= 3
    ensures 0.0 <= draw < 1.0 ==> 0 <= d && d as real <= draw * 4.0 < d as real + 1.0
  {
    var k := Trunc(draw * 4.0);
    if k >= 4 then 3 else k
  }

  /**
   * `getRandomAdjacent`: the left, right, up or down neighbour for direction 0, 1, 2 or
   * anything else; each quarter of [0, 1) selects one direction.
   */
  function RandomAdjacent(m: Map, pos: Tile, draw: real): (r: Option<Tile>)
    requires m.Valid()
    ensures 0.0 <= draw < 0.25 ==> r == GetLeft(m, Some(pos))
    ensures 0.25 <= draw < 0.5 ==> r == GetRight(m, Some(pos))
    ensures 0.5 <= draw < 0.75 ==> r == GetUp(m, Some(pos))
    ensures 0.75 <= draw ==> r == GetDown(m, Some(pos))
    ensures r == GetLeft(m, Some(pos)) || r == GetRight(m, Some(pos)) || r == GetUp(m, Some(pos))
      || r == GetDown(m, Some(pos))
  {
    match DirectionIndex(draw)
    case 0 => GetLeft(m, Some(pos))
    case 1 => GetRight(m, Some(pos))
    case 2 => GetUp(m, Some(pos))
    case _ => GetDown(m, Some(pos))
  }

  /** The map an enemy on level `m` at `pos` can search: complete, at least 2 by 2, `pos` on it. */
  ghost predicate Searches(e: Enemy) {
    e.actor.fps != 0
    && (e.actor.level.Some? ==>
          e.actor.level.value.grid.Complete() && e.actor.level.value.grid.width >= 2 && e.actor.level.value.grid.height >= 2)
    && (e.actor.level.Some? && e.actor.position.Some? ==>
          Searchable(e.actor.level.value.grid, e.actor.position.value))
  }

  /**
   * The replanning rule: a dog plans only when it has no path or an exhausted one; ghosts and
   * bats plan whenever the player's tile differs from the one they last planned for, and
   * record it.
   */
  function Replan(e: Enemy, m: Map, pos: Tile, player: Tile): (r: Enemy)
    requires Searchable(m, pos)
    ensures r.actor == e.actor && r.kind == e.kind
    ensures e.kind == Dog ==> r.lastPlayerPosition == e.lastPlayerPosition
    ensures e.kind == Dog && (e.pathToPlayer.None? || e.pathToPlayer.value == []) ==>
      r.pathToPlayer == GetPath(m, pos, player)
    ensures e.kind == Dog && e.pathToPlayer.Some? && e.pathToPlayer.value != [] ==> r == e
    ensures e.kind != Dog && (e.lastPlayerPosition.None? || !Same(e.lastPlayerPosition.value, player)) ==>
      r.lastPlayerPosition == Some(player) && r.pathToPlayer == GetPath(m, pos, player)
    ensures e.kind != Dog && e.lastPlayerPosition.Some? && Same(e.lastPlayerPosition.value, player) ==> r == e
  {
    if e.kind == Dog then
      if e.pathToPlayer.None? || e.pathToPlayer.value == [] then e.(pathToPlayer := GetPath(m, pos, player))
      else e
    else if e.lastPlayerPosition.None? || !Same(e.lastPlayerPosition.value, player) then
      e.(lastPlayerPosition := Some(player), pathToPlayer := GetPath(m, pos, player))
    else e
  }

  /** Planning twice for the same player tile is planning once. */
  lemma ReplanIdempotent(e: Enemy, m: Map, pos: Tile, player: Tile)
    requires Searchable(m, pos)
    ensures Replan(Replan(e, m, pos, player), m, pos, player) == Replan(e, m, pos, player)
  {
    var r := Replan(e, m, pos, player);
    if e.kind == Dog && (e.pathToPlayer.None? || e.pathToPlayer.value == []) {
      if r.pathToPlayer.Some? && r.pathToPlayer.value == [] {
        assert Same(pos, player);
      }
    }
  }

  /**
   * The random branch: the target becomes a random neighbour, and when there is one the
   * path is planned again from it.
   */
  function Wander(e: Enemy, m: Map, pos: Tile, player: Tile, draw: real): (r: Enemy)
    requires m.Complete() && m.width >= 2 && m.height >= 2 && m.InBounds(pos.x, pos.y)
    ensures r.kind == e.kind && r.lastPlayerPosition == e.lastPlayerPosition
    ensures r.actor == e.actor.(target := RandomAdjacent(m, pos, draw))
    ensures r.actor.target.Some? ==> Adjacent4(pos, r.actor.target.value) && m.Holds(r.actor.target.value)
    ensures r.actor.target.Some? ==> r.pathToPlayer == GetPath(m, r.actor.target.value, player)
    ensures r.actor.target.None? ==> r.pathToPlayer == e.pathToPlayer
  {
    NeighbourLookupsOnCompleteMap(m, pos);
    var t := RandomAdjacent(m, pos, draw);
    var moved := e.(actor := e.actor.(target := t));
    if t.Some? then moved.(pathToPlayer := GetPath(m, t.value, player)) else moved
  }

  /**
   * The path-following branch: off the player's tile and with a non-empty path, the first
   * path entry becomes the target and leaves the path; otherwise nothing changes.
   */
  function Follow(e: Enemy, pos: Tile, player: Tile): (r: Enemy)
    ensures r.kind == e.kind && r.lastPlayerPosition == e.lastPlayerPosition
    ensures !Same(pos, player) && e.pathToPlayer.Some? && |e.pathToPlayer.value| > 0 ==>
      r.actor == e.actor.(target := Some(e.pathToPlayer.value[0]))
      && r.pathToPlayer == Some(e.pathToPlayer.value[1..])
      && [r.actor.target.value] + r.pathToPlayer.value == e.pathToPlayer.value
    ensures Same(pos, player) || e.pathToPlayer.None? || e.pathToPlayer.value == [] ==> r == e
  {
    if !Same(pos, player) && e.pathToPlayer.Some? && |e.pathToPlayer.value| > 0 then
      Enemy(e.actor.(target := Some(e.pathToPlayer.value[0])), e.kind, e.lastPlayerPosition,
            Some(e.pathToPlayer.value[1..]))
    else e
  }

  /** The decision taken after a completed transition, before `moveToTarget` runs. */
  function Decide(e: Enemy, m: Map, pos: Tile, player: Tile, chooseDraw: real, directionDraw: real): (r: Enemy)
    requires m.Complete() && m.width >= 2 && m.height >= 2 && m.InBounds(pos.x, pos.y)
    ensures r.kind == e.kind && r.actor.position == e.actor.position && r.actor.level == e.actor.level
    ensures r.actor == e.actor.(target := r.actor.target)
    ensures ChoosesRandom(e.kind, chooseDraw) ==>
      r.actor.target == RandomAdjacent(m, pos, directionDraw)
      && (r.actor.target.Some? ==> Adjacent4(pos, r.actor.target.value) && m.Holds(r.actor.target.value))
    ensures !ChoosesRandom(e.kind, chooseDraw) && !Same(pos, player) ==>
      var plan := Replan(e, m, pos, player).pathToPlayer;
      (plan.Some? && plan.value != [] ==>
         r.actor.target.Some? && r.pathToPlayer.Some? && [r.actor.target.value] + r.pathToPlayer.value == plan.value)
      && (plan.None? || plan.value == [] ==> r.actor.target == e.actor.target)
    ensures !ChoosesRandom(e.kind, chooseDraw) && Same(pos, player) ==> r.actor == e.actor
  {
    var planned := Replan(e, m, pos, player);
    if ChoosesRandom(e.kind, chooseDraw) then Wander(planned, m, pos, player, directionDraw)
    else Follow(planned, pos, player)
  }

  /**
   * `update`: nothing happens without a level, a position or a player. While a transition
   * runs only the animation advances. Once it has completed the enemy replans, picks a
   * target (random neighbour or next path entry), attempts `moveToTarget`, and animates.
   */
  function Update(e: Enemy, player: Option<Tile>, chooseDraw: real, directionDraw: real, now: int): (r: Enemy)
    requires Searches(e)
    ensures e.actor.level.None? || e.actor.position.None? || player.None? ==> r == e
    ensures Searches(r) && r.kind == e.kind && r.actor.speed == e.actor.speed
    ensures r.actor.level == e.actor.level && r.actor.position == e.actor.position
    ensures !e.actor.transitionComplete ==>
      r.actor.target == e.actor.target && r.pathToPlayer == e.pathToPlayer
      && r.lastPlayerPosition == e.lastPlayerPosition && r.actor.Moving() == e.actor.Moving()
    ensures e.actor.level.Some? && e.actor.position.Some? && player.Some? && e.actor.transitionComplete ==>
      var d := Decide(e, e.actor.level.value.grid, e.actor.position.value, player.value, chooseDraw, directionDraw);
      r.pathToPlayer == d.pathToPlayer && r.lastPlayerPosition == d.lastPlayerPosition
      && (r.actor.Moving() <==> Accepts(e.actor.position, d.actor.target))
      && (Accepts(e.actor.position, d.actor.target) ==> r.actor.target == d.actor.target)
      && (!Accepts(e.actor.position, d.actor.target) ==> r.actor.target.None?)
  {
    var a := e.actor;
    if a.level.None? || a.position.None? || player.None? then e
    else if !a.transitionComplete then e.(actor := UpdateAnimation(a, now))
    else
      var d := Decide(e, a.level.value.grid, a.position.value, player.value, chooseDraw, directionDraw);
      var moved := MoveToTarget(d.actor).0;
      d.(actor := UpdateAnimation(moved, now))
  }

  /** The type, and with it the speed and the damage, never changes over updates. */
  lemma TypeFixed(e: Enemy, player: Option<Tile>, chooseDraw: real, directionDraw: real, now: int)
    requires Searches(e)
    ensures var r := Update(e, player, chooseDraw, directionDraw, now);
      GetDamageAmount(r) == GetDamageAmount(e) && r.actor.speed == e.actor.speed
  {
  }

  /**
   * A dog with a non-empty path does not replan: off the player's tile it takes the first
   * entry of the path it already had and keeps the rest.
   */
  lemma DogKeepsItsPath(e: Enemy, player: Tile, chooseDraw: real, directionDraw: real, now: int)
    requires Searches(e) && e.kind == Dog && 0.0 <= chooseDraw
    requires e.actor.level.Some? && e.actor.position.Some? && e.actor.transitionComplete
    requires e.pathToPlayer.Some? && e.pathToPlayer.value != [] && !Same(e.actor.position.value, player)
    ensures var r := Update(e, Some(player), chooseDraw, directionDraw, now);
      r.pathToPlayer == Some(e.pathToPlayer.value[1..])
      && (r.actor.Moving() <==> Accepts(e.actor.position, Some(e.pathToPlayer.value[0])))
  {
  }

  /**
   * After replanning, a ghost or bat at rest that follows its path aims straight at the
   * player's tile: `getPath` puts the target first and the update takes index 0. So the
   * move is accepted only when the player's tile passes the loose `isAdjacent` test.
   */
  lemma FreshPlanAimsAtPlayer(e: Enemy, player: Tile, chooseDraw: real, directionDraw: real, now: int)
    requires Searches(e) && e.kind != Dog && !ChoosesRandom(e.kind, chooseDraw)
    requires e.actor.level.Some? && e.actor.position.Some? && e.actor.transitionComplete && e.actor.target.None?
    requires e.lastPlayerPosition.None? || !Same(e.lastPlayerPosition.value, player)
    requires !Same(e.actor.position.value, player)
    ensures var r := Update(e, Some(player), chooseDraw, directionDraw, now);
      r.lastPlayerPosition == Some(player)
      && (r.actor.Moving() ==> Same(r.actor.target.value, player))
      && (r.actor.Moving() ==> IsAdjacent(e.actor.position.value, player))
  {
    var m := e.actor.level.value.grid;
    var pos := e.actor.position.value;
    var planned := Replan(e, m, pos, player);
    var d := Follow(planned, pos, player);
    assert Decide(e, m, pos, player, chooseDraw, directionDraw) == d;
    var p := GetPath(m, pos, player);
    assert planned.pathToPlayer == p;
    if p.Some? {
      assert Route(m, pos, player, p.value);
      assert d.actor.target == Some(p.value[0]);
      var t := p.value[0];
      assert Same(t, player);
      if Accepts(e.actor.position, d.actor.target) {
        assert IsAdjacent(pos, t);
      }
    } else {
      assert d.actor.target.None?;
    }
  }
}

=== FILE: generation.dfy ===
/**
 * Map generation: the recursive randomized carve `makeTile` entered at (0, 0), the
 * `mapSatisfactory` check, the `fillEmpty` pass and the `generateMap` retry loop.
 *
 * `Math.random()` is replaced by an explicit sequence of draws that the carve consumes
 * front to back; running out of draws yields `None`.
 */
module Generation {
  import opened Wrappers
  import opened Tiles
  import opened Grid

  /** The carve state: the map so far and the draws still available. */
  datatype Gen = Gen(grid: Map, draws: seq<real>)

  /** `b` keeps every decided cell of `a`: nothing is ever reassigned. */
  ghost predicate Grows(a: Map, b: Map) {
    a.Valid() && b.Valid() && b.width == a.width && b.height == a.height
    && forall x, y :: a.InBounds(x, y) && a.cells[x][y].Some? ==> b.cells[x][y] == a.cells[x][y]
  }

  /** Column `x` of `b` equals column `x` of `a`. */
  ghost predicate ColumnKept(a: Map, b: Map, x: int)
    requires a.Valid() && b.Valid() && b.width == a.width && b.height == a.height
  {
    0 <= x < a.width ==> forall y :: 0 <= y < a.height ==> b.cells[x][y] == a.cells[x][y]
  }

  /** Row `y` of `b` equals row `y` of `a`. */
  ghost predicate RowKept(a: Map, b: Map, y: int)
    requires a.Valid() && b.Valid() && b.width == a.width && b.height == a.height
  {
    0 <= y < a.height ==> forall x :: 0 <= x < a.width ==> b.cells[x][y] == a.cells[x][y]
  }

  lemma GrowsTransitive(a: Map, b: Map, c: Map)
    requires Grows(a, b) && Grows(b, c)
    ensures Grows(a, c)
  {
  }

  lemma KeptTransitive(a: Map, b: Map, c: Map, x: int, y: int)
    requires Grows(a, b) && Grows(b, c)
    ensures ColumnKept(a, b, x) && ColumnKept(b, c, x) ==> ColumnKept(a, c, x)
    ensures RowKept(a, b, y) && RowKept(b, c, y) ==> RowKept(a, c, y)
  {
  }

  /** `b` is what is left of the draws `a` once some were taken from the front. */
  predicate Suffix(a: seq<real>, b: seq<real>) {
    |b| <= |a| && b == a[|a| - |b|..]
  }

  lemma SuffixTransitive(a: seq<real>, b: seq<real>, c: seq<real>)
    requires Suffix(a, b) && Suffix(b, c)
    ensures Suffix(a, c)
  {
    assert a[|a| - |c|..] == a[|a| - |b|..][|b| - |c|..];
  }

  /** Taking one draw and then more leaves a strictly shorter suffix. */
  lemma SuffixAfterDraw(a: seq<real>, b: seq<real>, c: seq<real>)
    requires a != [] && Suffix(a[1..], b) && Suffix(b, c)
    ensures Suffix(a, c) && |c| < |a|
  {
    assert Suffix(a, a[1..]);
    SuffixTransitive(a[1..], b, c);
    SuffixTransitive(a, a[1..], c);
  }

  /** (`i`, `j`) is one of the four neighbours of (`x`, `y`). */
  predicate Beside(i: int, j: int, x: int, y: int) {
    (i == x && (j == y - 1 || j == y + 1)) || (j == y && (i == x - 1 || i == x + 1))
  }

  /** The cells where `b` differs from `a` were null, are walls now, and lie beside (`x`, `y`). */
  ghost predicate OnlyWalled(a: Map, b: Map, x: int, y: int)
    requires Grows(a, b)
  {
    forall i, j :: a.InBounds(i, j) && b.cells[i][j] != a.cells[i][j] ==>
      a.cells[i][j].None? && b.cells[i][j] == Some(true) && Beside(i, j, x, y)
  }

  /** Writes one cell. */
  function SetCell(m: Map, x: int, y: int, c: Cell): (r: Map)
    requires m.Valid() && m.InBounds(x, y)
    ensures r.Valid() && r.width == m.width && r.height == m.height
    ensures r.cells[x][y] == c
    ensures forall i, j :: m.InBounds(i, j) && (i != x || j != y) ==> r.cells[i][j] == m.cells[i][j]
  {
    Map(m.width, m.height, m.cells[x := m.cells[x][y := c]])
  }

  /** The coordinates of neighbour `i` (0 left, 1 right, 2 up, 3 down). */
  function Neighbour(x: int, y: int, i: int): (int, int)
    requires 0 <= i < 4
  {
    Around(x, y)[i]
  }

  /** A neighbour of a cell off column 0 (row 0) is off it too, except the left (upper) one. */
  lemma NeighbourOffEdges(x: int, y: int, i: int)
    requires 0 <= i < 4
    ensures i != 0 && x >= 1 ==> Neighbour(x, y, i).0 >= 1
    ensures i != 2 && y >= 1 ==> Neighbour(x, y, i).1 >= 1
    ensures i == 0 ==> Neighbour(x, y, i) == (x - 1, y)
    ensures i == 2 ==> Neighbour(x, y, i) == (x, y - 1)
  {
  }

  /**
   * `getNullAdjacent`: which neighbours (left, right, up, down) are still null. The left
   * and up tests are `> 0`, so column 0 and row 0 are never reported.
   */
  function GetNullAdjacent(m: Map, x: int, y: int): (na: seq<bool>)
    requires m.Valid() && m.InBounds(x, y)
    ensures |na| == 4
    ensures forall i :: 0 <= i < 4 && na[i] ==>
      m.InBounds(Neighbour(x, y, i).0, Neighbour(x, y, i).1)
      && m.cells[Neighbour(x, y, i).0][Neighbour(x, y, i).1].None?
    ensures na[0] ==> x - 1 >= 1
    ensures na[2] ==> y - 1 >= 1
    ensures !na[0] && x - 1 >= 1 ==> m.cells[x - 1][y].Some?
    ensures !na[1] && x + 1 < m.width ==> m.cells[x + 1][y].Some?
    ensures !na[2] && y - 1 >= 1 ==> m.cells[x][y - 1].Some?
    ensures !na[3] && y + 1 < m.height ==> m.cells[x][y + 1].Some?
  {
    [ x - 1 > 0 && m.cells[x - 1][y].None?,
      x + 1 < m.width && m.cells[x + 1][y].None?,
      y - 1 > 0 && m.cells[x][y - 1].None?,
      y + 1 < m.height && m.cells[x][y + 1].None? ]
  }

  predicate NoneNull(na: seq<bool>)
    requires |na| == 4
  {
    !na[0] && !na[1] && !na[2] && !na[3]
  }

  /**
   * The loop's "an adjacent tile is already empty" test: a decided, non-wall neighbour,
   * again with `> 0` on the left and up sides.
   */
  predicate HasOpenNeighbour(m: Map, x: int, y: int)
    requires m.Valid() && m.InBounds(x, y)
  {
    (x - 1 > 0 && m.cells[x - 1][y] == Some(false))
    || (x + 1 < m.width && m.cells[x + 1][y] == Some(false))
    || (y - 1 > 0 && m.cells[x][y - 1] == Some(false))
    || (y + 1 < m.height && m.cells[x][y + 1] == Some(false))
  }

  /** Cell (`i`, `j`) is a neighbour of (`x`, `y`) that `na` reports null. */
  predicate Flagged(na: seq<bool>, x: int, y: int, i: int, j: int)
    requires |na| == 4
  {
    (na[0] && i == x - 1 && j == y) || (na[1] && i == x + 1 && j == y)
    || (na[2] && i == x && j == y - 1) || (na[3] && i == x && j == y + 1)
  }

  /**
   * The final step of `makeTile`: the four independent writes that turn every neighbour
   * still reported null into a wall. No other cell changes.
   */
  function WallOff(m: Map, x: int, y: int): (r: Map)
    requires m.Valid() && m.InBounds(x, y)
    ensures r.Valid() && r.width == m.width && r.height == m.height
    ensures forall i, j :: m.InBounds(i, j) ==>
      r.cells[i][j] == if Flagged(GetNullAdjacent(m, x, y), x, y, i, j) then Some(true) else m.cells[i][j]
  {
    var na := GetNullAdjacent(m, x, y);
    Map(m.width, m.height,
        seq(m.width, i requires 0 <= i < m.width =>
          seq(m.height, j requires 0 <= j < m.height =>
            if Flagged(na, x, y, i, j) then Some(true) else m.cells[i][j])))
  }

  /**
   * What the walling guarantees: nothing decided changes, only null neighbours become
   * walls, none is reported null afterwards, and column 0 (row 0) stays as it was when
   * `x >= 1` (`y >= 1`).
   */
  lemma WallOffSound(m: Map, x: int, y: int)
    requires m.Valid() && m.InBounds(x, y)
    ensures Grows(m, WallOff(m, x, y)) && OnlyWalled(m, WallOff(m, x, y), x, y)
    ensures NoneNull(GetNullAdjacent(WallOff(m, x, y), x, y))
    ensures x >= 1 ==> ColumnKept(m, WallOff(m, x, y), 0)
    ensures y >= 1 ==> RowKept(m, WallOff(m, x, y), 0)
  {
    WallOffGrows(m, x, y);
    WallOffClears(m, x, y);
  }

  /** Only null neighbours become walls; everything else is kept. */
  lemma WallOffGrows(m: Map, x: int, y: int)
    requires m.Valid() && m.InBounds(x, y)
    ensures Grows(m, WallOff(m, x, y)) && OnlyWalled(m, WallOff(m, x, y), x, y)
  {
  }

  /** No neighbour is reported null after the walling. */
  lemma WallOffClears(m: Map, x: int, y: int)
    requires m.Valid() && m.InBounds(x, y)
    ensures NoneNull(GetNullAdjacent(WallOff(m, x, y), x, y))
  {
  }

  /**
   * `makeTile(x, y)`: out of bounds or already decided, nothing happens and no draw is
   * used; otherwise the cell becomes walkable, the carve loop runs, and the neighbours
   * left null are walled off.
   */
  function MakeTile(s: Gen, difficulty: real, x: int, y: int): (r: Option<Gen>)
    requires s.grid.Valid()
    ensures !s.grid.InBounds(x, y) || s.grid.cells[x][y].Some? ==> r == Some(s)
    ensures r.Some? ==> Grows(s.grid, r.value.grid) && Suffix(s.draws, r.value.draws)
    ensures r.Some? && s.grid.InBounds(x, y) && s.grid.cells[x][y].None? ==>
      r.value.grid.cells[x][y] == Some(false) && NoneNull(GetNullAdjacent(r.value.grid, x, y))
    ensures r.Some? && x >= 1 ==> ColumnKept(s.grid, r.value.grid, 0)
    ensures r.Some? && y >= 1 ==> RowKept(s.grid, r.value.grid, 0)
    decreases |s.draws|, 2, 0, 0
  {
    if !s.grid.InBounds(x, y) || s.grid.cells[x][y].Some? then Some(s)
    else
      var s1 := Gen(SetCell(s.grid, x, y, Some(false)), s.draws);
      match CarveLoop(s1, difficulty, x, y)
      case None => None
      case Some(s2) =>
        var walled := WallOff(s2.grid, x, y);
        WallOffSound(s2.grid, x, y);
        GrowsTransitive(s.grid, s1.grid, s2.grid);
        GrowsTransitive(s.grid, s2.grid, walled);
        Some(Gen(walled, s2.draws))
  }

  /**
   * The `while (forceOneEmpty)` loop of `makeTile`: stop when no neighbour is null;
   * otherwise draw for each null neighbour and repeat until a neighbour was already
   * open or a draw carved one.
   */
  function CarveLoop(s: Gen, difficulty: real, x: int, y: int): (r: Option<Gen>)
    requires s.grid.Valid() && s.grid.InBounds(x, y)
    ensures r.Some? ==> Grows(s.grid, r.value.grid) && Suffix(s.draws, r.value.draws)
    ensures r.Some? && x >= 1 ==> ColumnKept(s.grid, r.value.grid, 0)
    ensures r.Some? && y >= 1 ==> RowKept(s.grid, r.value.grid, 0)
    decreases |s.draws|, 1, 0, 0
  {
    var na := GetNullAdjacent(s.grid, x, y);
    var forceOneEmpty := !HasOpenNeighbour(s.grid, x, y);
    if NoneNull(na) then Some(s)
    else
      match CarveNeighbours(s, difficulty, x, y, na, 0, forceOneEmpty)
      case None => None
      case Some(res) =>
        if res.1 then
          var r := CarveLoop(res.0, difficulty, x, y);
          if r.Some? then SuffixTransitive(s.draws, res.0.draws, r.value.draws); r else r
        else Some(res.0)
  }

  /**
   * The inner `for` loop over the (possibly stale) null-neighbour array `na`: one draw per
   * flagged neighbour, `draw * 10 < 10 - difficulty` carves it by recursion.
   * Returns the new state and the updated `forceOneEmpty` flag.
   */
  function CarveNeighbours(s: Gen, difficulty: real, x: int, y: int, na: seq<bool>, i: nat, forceOneEmpty: bool)
    : (r: Option<(Gen, bool)>)
    requires s.grid.Valid() && s.grid.InBounds(x, y)
    requires |na| == 4 && i <= 4
    requires na[0] ==> x - 1 >= 1
    requires na[2] ==> y - 1 >= 1
    ensures r.Some? ==> Grows(s.grid, r.value.0.grid) && Suffix(s.draws, r.value.0.draws)
    ensures r.Some? && true in na[i..] ==> |r.value.0.draws| < |s.draws|
    ensures r.Some? && x >= 1 ==> ColumnKept(s.grid, r.value.0.grid, 0)
    ensures r.Some? && y >= 1 ==> RowKept(s.grid, r.value.0.grid, 0)
    decreases |s.draws|, 0, 4 - i, 1
  {
    if i == 4 then Some((s, forceOneEmpty))
    else if !na[i] then
      assert na[i..] == [na[i]] + na[i + 1..];
      CarveNeighbours(s, difficulty, x, y, na, i + 1, forceOneEmpty)
    else if s.draws == [] then None
    else
      var isEmpty := s.draws[0] * 10.0 < 10.0 - difficulty;
      var force := if isEmpty then false else forceOneEmpty;
      var s1 := Gen(s.grid, s.draws[1..]);
      if isEmpty then CarveInto(s, difficulty, x, y, na, i, force)
      else
        var r := CarveNeighbours(s1, difficulty, x, y, na, i + 1, force);
        if r.Some? then SuffixAfterDraw(s.draws, r.value.0.draws, r.value.0.draws); r else r
  }

  /**
   * A flagged neighbour whose draw (the head of `s.draws`) said "empty": consume the draw,
   * carve the neighbour with `makeTile`, then go on with the next entry of the loop.
   */
  function CarveInto(s: Gen, difficulty: real, x: int, y: int, na: seq<bool>, i: nat, forceOneEmpty: bool)
    : (r: Option<(Gen, bool)>)
    requires s.grid.Valid() && s.grid.InBounds(x, y)
    requires |na| == 4 && i < 4 && na[i] && s.draws != []
    requires na[0] ==> x - 1 >= 1
    requires na[2] ==> y - 1 >= 1
    ensures r.Some? ==> Grows(s.grid, r.value.0.grid) && Suffix(s.draws, r.value.0.draws)
    ensures r.Some? ==> |r.value.0.draws| < |s.draws|
    ensures r.Some? && x >= 1 ==> ColumnKept(s.grid, r.value.0.grid, 0)
    ensures r.Some? && y >= 1 ==> RowKept(s.grid, r.value.0.grid, 0)
    decreases |s.draws|, 0, 4 - i, 0
  {
    var (nx, ny) := Neighbour(x, y, i);
    NeighbourOffEdges(x, y, i);
    var s1 := Gen(s.grid, s.draws[1..]);
    match MakeTile(s1, difficulty, nx, ny)
    case None => None
    case Some(s2) =>
      var r := CarveNeighbours(s2, difficulty, x, y, na, i + 1, forceOneEmpty);
      if r.Some? then
        GrowsTransitive(s.grid, s2.grid, r.value.0.grid);
        KeptTransitive(s.grid, s2.grid, r.value.0.grid, 0, 0);
        SuffixAfterDraw(s.draws, s2.draws, r.value.0.draws);
        r
      else r
  }

  /**
   * The earlier revision's `makeTile`, which also reports whether it carved: false (and no
   * change) for an out-of-bounds or decided cell, true otherwise.
   */
  function MakeTileReporting(s: Gen, difficulty: real, x: int, y: int): (r: Option<(Gen, bool)>)
    requires s.grid.Valid()
    ensures r.Some? ==> Grows(s.grid, r.value.0.grid)
    ensures r.Some? && !r.value.1 ==> r.value.0 == s
    ensures r.Some? && !r.value.1 <==> r.Some? && (!s.grid.InBounds(x, y) || s.grid.cells[x][y].Some?)
    ensures r.Some? && r.value.1 ==>
      s.grid.InBounds(x, y) && s.grid.cells[x][y].None? && r.value.0.grid.cells[x][y] == Some(false)
      && NoneNull(GetNullAdjacent(r.value.0.grid, x, y))
    ensures r.None? <==> MakeTile(s, difficulty, x, y).None?
  {
    var carved := s.grid.InBounds(x, y) && s.grid.cells[x][y].None?;
    match MakeTile(s, difficulty, x, y)
    case None => None
    case Some(s') => Some((s', carved))
  }

  /** A cell whose every `getAdjacent` entry is null. */
  ghost predicate Isolated(m: Map, x: int, y: int)
    requires m.Valid() && m.InBounds(x, y)
  {
    var adj := GetAdjacent(m, x, y);
    forall k :: 0 <= k < |adj| ==> adj[k].None?
  }

  /** What `mapSatisfactory` accepts: no cell has only null entries around it. */
  ghost predicate NoIsolatedCell(m: Map)
    requires m.Valid()
  {
    forall x, y :: m.InBounds(x, y) ==> !Isolated(m, x, y)
  }

  /** `mapSatisfactory`: scans the cells column by column and rejects at the first isolated one. */
  method MapSatisfactory(m: Map) returns (ok: bool)
    requires m.Valid()
    ensures ok <==> NoIsolatedCell(m)
  {
    var x := 0;
    while x < m.width
      invariant 0 <= x <= m.width
      invariant forall i, j :: 0 <= i < x && 0 <= j < m.height ==> !Isolated(m, i, j)
    {
      var y := 0;
      while y < m.height
        invariant 0 <= y <= m.height
        invariant forall i, j :: 0 <= i < x && 0 <= j < m.height ==> !Isolated(m, i, j)
        invariant forall j :: 0 <= j < y ==> !Isolated(m, x, j)
      {
        var adjacent := GetAdjacent(m, x, y);
        var allNull := true;
        var k := 0;
        while k < |adjacent|
          invariant 0 <= k <= |adjacent|
          invariant allNull <==> forall l :: 0 <= l < k ==> adjacent[l].None?
        {
          if adjacent[k].Some? {
            allNull := false;
          }
          k := k + 1;
        }
        if allNull {
          return false;
        }
        y := y + 1;
      }
      x := x + 1;
    }
    return true;
  }

  /** `fillEmpty`: every cell still null becomes a walkable tile. */
  function FillEmpty(m: Map): (r: Map)
    requires m.Valid()
    ensures r.Complete() && r.width == m.width && r.height == m.height
    ensures Grows(m, r)
    ensures forall x, y :: m.InBounds(x, y) && m.cells[x][y].None? ==> r.cells[x][y] == Some(false)
  {
    Map(m.width, m.height,
        seq(m.width, x requires 0 <= x < m.width =>
          seq(m.height, y requires 0 <= y < m.height =>
            if m.cells[x][y].None? then Some(false) else m.cells[x][y])))
  }

  /**
   * `m` is the filling of a carve from (0, 0) on a fresh `width` by `height` map that used
   * the draws `ds` and that `mapSatisfactory` accepted.
   */
  ghost predicate AcceptedCarve(width: nat, height: nat, difficulty: real, ds: seq<real>, m: Map) {
    var g := MakeTile(Gen(EmptyMap(width, height), ds), difficulty, 0, 0);
    g.Some? && NoIsolatedCell(g.value.grid) && m == FillEmpty(g.value.grid)
  }

  /**
   * `generateMap`: carve from (0, 0) on a fresh map, retrying (at most `fuel` times) until
   * `mapSatisfactory` accepts, then fill the leftover null cells.
   */
  method GenerateMap(width: nat, height: nat, difficulty: real, draws: seq<real>, fuel: nat)
    returns (r: Option<Map>)
    ensures r.Some? ==> r.value.Complete() && r.value.width == width && r.value.height == height
    ensures r.Some? && width > 0 && height > 0 ==> r.value.cells[0][0] == Some(false)
    ensures r.Some? ==> exists k :: 0 <= k <= |draws| && AcceptedCarve(width, height, difficulty, draws[k..], r.value)
  {
    var ds := draws;
    var tries := fuel;
    while tries > 0
      invariant Suffix(draws, ds)
      decreases tries
    {
      var blank := EmptyMap(width, height);
      ghost var k := |draws| - |ds|;
      var g := MakeTile(Gen(blank, ds), difficulty, 0, 0);
      if g.None? {
        return None;
      }
      var carved := g.value.grid;
      ds := g.value.draws;
      var ok := MapSatisfactory(carved);
      if ok {
        assert AcceptedCarve(width, height, difficulty, draws[k..], FillEmpty(carved));
        return Some(FillEmpty(carved));
      }
      tries := tries - 1;
    }
    return None;
  }

  /** The level constructor: clamp the difficulty, then generate the map. */
  method NewLevel(width: nat, height: nat, difficulty: real, draws: seq<real>, fuel: nat)
    returns (r: Option<Level>)
    ensures r.Some? ==> 1.0 <= r.value.difficulty <= MAX_DIFFICULTY
    ensures r.Some? && 1.0 <= difficulty <= MAX_DIFFICULTY ==> r.value.difficulty == difficulty
    ensures r.Some? ==> r.value.grid.Complete() && r.value.grid.width == width && r.value.grid.height == height
  {
    var d := ClampDifficulty(difficulty);
    var m := GenerateMap(width, height, d, draws, fuel);
    if m.None? {
      return None;
    }
    return Some(Level(m.value, d));
  }
}

=== FILE: grid.dfy ===
/** The level map and its pure neighbour queries (Level's map, getAdjacent, getLeft/Right/Up/Down, isAdjacent). */
module Grid {
  import opened Wrappers
  import opened Tiles

  /** A map cell: `None` while undecided, `Some(isWall)` once a tile is placed. */
  type Cell = Option<bool>

  /** The maximum difficulty and the threshold at which levels get extra enemies and power-ups. */
  const MAX_DIFFICULTY: real := 4.0
  const HARD_DIFFICULTY: real := 3.0

  /** The map, indexed `cells[x][y]` like the Java `Tile[width][height]`. */
  datatype Map = Map(width: nat, height: nat, cells: seq<seq<Cell>>) {

    ghost predicate Valid() {
      |cells| == width && forall x :: 0 <= x < width ==> |cells[x]| == height
    }

    predicate InBounds(x: int, y: int) {
      0 <= x < width && 0 <= y < height
    }

    /** Every cell holds a tile (true once generation has finished). */
    ghost predicate Complete() {
      Valid() && forall x, y :: InBounds(x, y) ==> cells[x][y].Some?
    }

    /** `getTile(x, y)`: the tile stored at a cell, or `None` for a null cell. */
    function TileAt(x: int, y: int): (r: Option<Tile>)
      requires Valid() && InBounds(x, y)
      ensures r.Some? <==> cells[x][y].Some?
      ensures r.Some? ==> r.value == Tile(x, y, cells[x][y].value)
    {
      match cells[x][y]
      case None => None
      case Some(w) => Some(Tile(x, y, w))
    }

    /** A tile belongs to this map: in bounds and identical to the tile stored there. */
    ghost predicate Holds(t: Tile) {
      Valid() && InBounds(t.x, t.y) && cells[t.x][t.y] == Some(t.isWall)
    }
  }

  /** A level: its generated map and its (clamped) difficulty. */
  datatype Level = Level(grid: Map, difficulty: real)

  /** The empty `width x height` map that generation starts from. */
  function EmptyMap(width: nat, height: nat): (m: Map)
    ensures m.Valid() && m.width == width && m.height == height
    ensures forall x, y :: m.InBounds(x, y) ==> m.cells[x][y].None?
  {
    Map(width, height, seq(width, _ => seq(height, _ => None)))
  }

  /** The level constructor's difficulty clamp into [1, MAX_DIFFICULTY]. */
  function ClampDifficulty(d: real): (r: real)
    ensures 1.0 <= r <= MAX_DIFFICULTY
    ensures 1.0 <= d <= MAX_DIFFICULTY ==> r == d
    ensures d < 1.0 ==> r == 1.0
    ensures d > MAX_DIFFICULTY ==> r == MAX_DIFFICULTY
  {
    if d < 1.0 then 1.0 else if d > MAX_DIFFICULTY then MAX_DIFFICULTY else d
  }

  /** Pads `s` with `None` up to length `n`. */
  function PadNone(s: seq<Option<Tile>>, n: int): (r: seq<Option<Tile>>)
    ensures |s| >= n ==> r == s
    ensures |s| < n ==> |r| == n && r[..|s|] == s
    ensures forall k :: |s| <= k < |r| ==> r[k].None?
    decreases n - |s|
  {
    if |s| >= n then s else PadNone(s + [None], n)
  }

  /**
   * `getAdjacent(x, y)`: the left, right, up and down neighbours that exist, in that order,
   * in an array whose length counts one missing column and one missing row at most.
   */
  function GetAdjacent(m: Map, x: int, y: int): (r: seq<Option<Tile>>)
    requires m.Valid() && m.InBounds(x, y)
    ensures 2 <= |r| <= 4
    ensures forall k :: 0 <= k < |r| && r[k].Some? ==>
      m.Holds(r[k].value) && Adjacent4(Tile(x, y, r[k].value.isWall), r[k].value)
    ensures forall c :: c in Around(x, y) && m.InBounds(c.0, c.1) && m.cells[c.0][c.1].Some? ==>
      m.TileAt(c.0, c.1) in r
  {
    var n := 4 - (if x <= 0 || x >= m.width - 1 then 1 else 0)
               - (if y <= 0 || y >= m.height - 1 then 1 else 0);
    PresentAdjacent(m, x, y);
    PadNone(Present(m, x, y), n)
  }

  /** Every entry `getAdjacent` fills in is a map tile next to (x, y), and each such tile is found. */
  lemma PresentAdjacent(m: Map, x: int, y: int)
    requires m.Valid() && m.InBounds(x, y)
    ensures forall k :: 0 <= k < |Present(m, x, y)| && Present(m, x, y)[k].Some? ==>
      m.Holds(Present(m, x, y)[k].value)
      && Adjacent4(Tile(x, y, Present(m, x, y)[k].value.isWall), Present(m, x, y)[k].value)
    ensures forall c :: c in Around(x, y) && m.InBounds(c.0, c.1) && m.cells[c.0][c.1].Some? ==>
      m.TileAt(c.0, c.1) in Present(m, x, y)
  {
  }

  /** The entries `getAdjacent` fills in: the stored tile of each neighbour that exists. */
  function Present(m: Map, x: int, y: int): (r: seq<Option<Tile>>)
    requires m.Valid() && m.InBounds(x, y)
    ensures |r| == (if x > 0 then 1 else 0) + (if x < m.width - 1 then 1 else 0)
                 + (if y > 0 then 1 else 0) + (if y < m.height - 1 then 1 else 0)
  {
    (if x > 0 then [m.TileAt(x - 1, y)] else [])
    + (if x < m.width - 1 then [m.TileAt(x + 1, y)] else [])
    + (if y > 0 then [m.TileAt(x, y - 1)] else [])
    + (if y < m.height - 1 then [m.TileAt(x, y + 1)] else [])
  }

  /** On a map at least 2 by 2 the array length is exactly the number of neighbours found. */
  lemma GetAdjacentUnpadded(m: Map, x: int, y: int)
    requires m.Valid() && m.width >= 2 && m.height >= 2 && m.InBounds(x, y)
    ensures GetAdjacent(m, x, y) == Present(m, x, y)
    ensures 2 <= |Present(m, x, y)| <= 4
  {
  }

  /** The four axis neighbours of (x, y), left, right, up, down. */
  function Around(x: int, y: int): seq<(int, int)> {
    [(x - 1, y), (x + 1, y), (x, y - 1), (x, y + 1)]
  }

  /** Keeps the in-bounds coordinates of `cs`, in order. */
  function InBoundsOnly(m: Map, cs: seq<(int, int)>): (r: seq<(int, int)>)
    ensures forall k :: 0 <= k < |r| ==> m.InBounds(r[k].0, r[k].1)
    ensures |r| <= |cs|
  {
    if cs == [] then []
    else (if m.InBounds(cs[0].0, cs[0].1) then [cs[0]] else []) + InBoundsOnly(m, cs[1..])
  }

  /** `InBoundsOnly` keeps only coordinates it was given. */
  lemma {:induction false} InBoundsOnlyFrom(m: Map, cs: seq<(int, int)>, k: int)
    requires 0 <= k < |InBoundsOnly(m, cs)|
    ensures InBoundsOnly(m, cs)[k] in cs
  {
    if m.InBounds(cs[0].0, cs[0].1) {
      if k > 0 {
        InBoundsOnlyFrom(m, cs[1..], k - 1);
      }
    } else {
      InBoundsOnlyFrom(m, cs[1..], k);
    }
  }

  /** `InBoundsOnly` drops only out-of-bounds coordinates. */
  lemma {:induction false} InBoundsOnlyKeeps(m: Map, cs: seq<(int, int)>, c: (int, int))
    requires c in cs && m.InBounds(c.0, c.1)
    ensures c in InBoundsOnly(m, cs)
  {
    if cs[0] != c {
      InBoundsOnlyKeeps(m, cs[1..], c);
    }
  }

  /** The stored tile at a coordinate, `None` off the map. */
  function Lookup(m: Map, c: (int, int)): (r: Option<Tile>)
    requires m.Valid()
    ensures m.InBounds(c.0, c.1) ==> r == m.TileAt(c.0, c.1)
  {
    if m.InBounds(c.0, c.1) then m.TileAt(c.0, c.1) else None
  }

  /** The stored tiles at the coordinates `cs`, in order. */
  function TilesAt(m: Map, cs: seq<(int, int)>): (r: seq<Option<Tile>>)
    requires m.Valid()
    ensures |r| == |cs|
  {
    if cs == [] then [] else [Lookup(m, cs[0])] + TilesAt(m, cs[1..])
  }

  /** Entry `k` of the looked-up tiles is the tile at coordinate `k`. */
  lemma {:induction false} TilesAtIndex(m: Map, cs: seq<(int, int)>, k: int)
    requires m.Valid() && 0 <= k < |cs|
    ensures TilesAt(m, cs)[k] == Lookup(m, cs[k])
    decreases k
  {
    if k > 0 {
      TilesAtIndex(m, cs[1..], k - 1);
    }
  }

  /** Looking up tiles distributes over concatenation of coordinate lists. */
  lemma {:induction false} TilesAtAppend(m: Map, a: seq<(int, int)>, b: seq<(int, int)>)
    requires m.Valid()
    ensures TilesAt(m, a + b) == TilesAt(m, a) + TilesAt(m, b)
  {
    if a != [] {
      assert (a + b)[0] == a[0] && (a + b)[1..] == a[1..] + b;
      TilesAtAppend(m, a[1..], b);
      calc {
        TilesAt(m, a + b);
        [Lookup(m, a[0])] + TilesAt(m, a[1..] + b);
        [Lookup(m, a[0])] + (TilesAt(m, a[1..]) + TilesAt(m, b));
        ([Lookup(m, a[0])] + TilesAt(m, a[1..])) + TilesAt(m, b);
      }
    } else {
      assert a + b == b;
    }
  }

  /** Reference definition: the stored tiles at the in-bounds 4-neighbours of (x, y). */
  function NeighbourTiles(m: Map, x: int, y: int): (r: seq<Option<Tile>>)
    requires m.Valid()
  {
    TilesAt(m, InBoundsOnly(m, Around(x, y)))
  }

  /** The coordinate `c` alone when it lies on the map, nothing otherwise. */
  function Keep(m: Map, c: (int, int)): (r: seq<(int, int)>)
    ensures |r| <= 1
  {
    if m.InBounds(c.0, c.1) then [c] else []
  }

  /** One step of `InBoundsOnly`: the head is kept exactly when it is in bounds. */
  lemma InBoundsOnlyCons(m: Map, cs: seq<(int, int)>)
    requires |cs| > 0
    ensures InBoundsOnly(m, cs) == Keep(m, cs[0]) + InBoundsOnly(m, cs[1..])
  {
  }

  /** The in-bounds 4-neighbours of a cell, one optional entry per direction. */
  lemma AroundInBounds(m: Map, x: int, y: int)
    ensures InBoundsOnly(m, Around(x, y))
         == Keep(m, (x - 1, y)) + Keep(m, (x + 1, y)) + Keep(m, (x, y - 1)) + Keep(m, (x, y + 1))
  {
    var a := Around(x, y);
    var k0, k1, k2, k3 := Keep(m, a[0]), Keep(m, a[1]), Keep(m, a[2]), Keep(m, a[3]);
    InBoundsOnlyCons(m, a[3..]);
    assert a[3..][1..] == [];
    InBoundsOnlyCons(m, a[2..]);
    assert a[2..][1..] == a[3..];
    InBoundsOnlyCons(m, a[1..]);
    assert a[1..][1..] == a[2..];
    InBoundsOnlyCons(m, a);
    assert InBoundsOnly(m, a) == k0 + (k1 + (k2 + k3));
    assert k0 + (k1 + (k2 + k3)) == k0 + k1 + k2 + k3;
  }

  /** Looking up a kept coordinate yields its stored tile, nothing when it was dropped. */
  lemma TilesAtKeep(m: Map, c: (int, int))
    requires m.Valid()
    ensures TilesAt(m, Keep(m, c)) == if m.InBounds(c.0, c.1) then [m.TileAt(c.0, c.1)] else []
  {
  }

  /**
   * On a map at least 2 wide and 2 high, `getAdjacent` returns exactly the in-bounds
   * 4-neighbours, left, right, up, down, with no padding.
   */
  lemma GetAdjacentExact(m: Map, x: int, y: int)
    requires m.Valid() && m.width >= 2 && m.height >= 2 && m.InBounds(x, y)
    ensures GetAdjacent(m, x, y) == NeighbourTiles(m, x, y)
    ensures 2 <= |GetAdjacent(m, x, y)| <= 4
  {
    GetAdjacentUnpadded(m, x, y);
    PresentNeighbours(m, x, y);
  }

  /** The entries found are the tiles at the in-bounds 4-neighbours. */
  lemma PresentNeighbours(m: Map, x: int, y: int)
    requires m.Valid() && m.InBounds(x, y)
    ensures Present(m, x, y) == NeighbourTiles(m, x, y)
  {
    var l, r, u, d := Keep(m, (x - 1, y)), Keep(m, (x + 1, y)), Keep(m, (x, y - 1)), Keep(m, (x, y + 1));
    AroundInBounds(m, x, y);
    TilesAtAppend(m, l + r + u, d);
    TilesAtAppend(m, l + r, u);
    TilesAtAppend(m, l, r);
    TilesAtKeep(m, (x - 1, y));
    TilesAtKeep(m, (x + 1, y));
    TilesAtKeep(m, (x, y - 1));
    TilesAtKeep(m, (x, y + 1));
  }

  /** On a one-column map, `getAdjacent` pads its result with a null entry. */
  lemma GetAdjacentPadsNarrowMap(m: Map, y: int)
    requires m.Valid() && m.width == 1 && m.height >= 2 && m.InBounds(0, y)
    ensures |GetAdjacent(m, 0, y)| == |NeighbourTiles(m, 0, y)| + 1
    ensures GetAdjacent(m, 0, y)[|GetAdjacent(m, 0, y)| - 1].None?
  {
    AroundInBounds(m, 0, y);
    assert Keep(m, (-1, y)) == [] && Keep(m, (1, y)) == [];
  }

  /** `getLeft`: the stored tile one column to the left, null at the left edge or out of bounds. */
  function GetLeft(m: Map, t: Option<Tile>): (r: Option<Tile>)
    requires m.Valid()
    ensures t.None? || t.value.x <= 0 || !m.InBounds(t.value.x, t.value.y) ==> r.None?
    ensures t.Some? && t.value.x > 0 && m.InBounds(t.value.x, t.value.y) ==> r == m.TileAt(t.value.x - 1, t.value.y)
  {
    match t
    case None => None
    case Some(p) =>
      if p.x <= 0 || p.y < 0 || p.x >= m.width || p.y >= m.height then None
      else m.TileAt(p.x - 1, p.y)
  }

  /** `getRight`: the stored tile one column to the right, null at the right edge or out of bounds. */
  function GetRight(m: Map, t: Option<Tile>): (r: Option<Tile>)
    requires m.Valid()
    ensures t.None? || t.value.x >= m.width - 1 || !m.InBounds(t.value.x, t.value.y) ==> r.None?
    ensures t.Some? && t.value.x < m.width - 1 && m.InBounds(t.value.x, t.value.y) ==> r == m.TileAt(t.value.x + 1, t.value.y)
  {
    match t
    case None => None
    case Some(p) =>
      if p.x < 0 || p.y < 0 || p.x >= m.width - 1 || p.y >= m.height then None
      else m.TileAt(p.x + 1, p.y)
  }

  /** `getUp`: the stored tile one row up, null at the top edge or out of bounds. */
  function GetUp(m: Map, t: Option<Tile>): (r: Option<Tile>)
    requires m.Valid()
    ensures t.None? || t.value.y <= 0 || !m.InBounds(t.value.x, t.value.y) ==> r.None?
    ensures t.Some? && t.value.y > 0 && m.InBounds(t.value.x, t.value.y) ==> r == m.TileAt(t.value.x, t.value.y - 1)
  {
    match t
    case None => None
    case Some(p) =>
      if p.x < 0 || p.y <= 0 || p.x >= m.width || p.y >= m.height then None
      else m.TileAt(p.x, p.y - 1)
  }

  /** `getDown`: the stored tile one row down, null at the bottom edge or out of bounds. */
  function GetDown(m: Map, t: Option<Tile>): (r: Option<Tile>)
    requires m.Valid()
    ensures t.None? || t.value.y >= m.height - 1 || !m.InBounds(t.value.x, t.value.y) ==> r.None?
    ensures t.Some? && t.value.y < m.height - 1 && m.InBounds(t.value.x, t.value.y) ==> r == m.TileAt(t.value.x, t.value.y + 1)
  {
    match t
    case None => None
    case Some(p) =>
      if p.x < 0 || p.y < 0 || p.x >= m.width || p.y >= m.height - 1 then None
      else m.TileAt(p.x, p.y + 1)
  }

  /** On a complete map every neighbour lookup returns a tile of the map that is a 4-neighbour. */
  lemma NeighbourLookupsOnCompleteMap(m: Map, t: Tile)
    requires m.Complete()
    ensures GetLeft(m, Some(t)).Some? ==> Adjacent4(t, GetLeft(m, Some(t)).value) && m.Holds(GetLeft(m, Some(t)).value)
    ensures GetRight(m, Some(t)).Some? ==> Adjacent4(t, GetRight(m, Some(t)).value) && m.Holds(GetRight(m, Some(t)).value)
    ensures GetUp(m, Some(t)).Some? ==> Adjacent4(t, GetUp(m, Some(t)).value) && m.Holds(GetUp(m, Some(t)).value)
    ensures GetDown(m, Some(t)).Some? ==> Adjacent4(t, GetDown(m, Some(t)).value) && m.Holds(GetDown(m, Some(t)).value)
    ensures m.InBounds(t.x, t.y) && t.x > 0 ==> GetLeft(m, Some(t)).Some?
    ensures m.InBounds(t.x, t.y) && t.x < m.width - 1 ==> GetRight(m, Some(t)).Some?
    ensures m.InBounds(t.x, t.y) && t.y > 0 ==> GetUp(m, Some(t)).Some?
    ensures m.InBounds(t.x, t.y) && t.y < m.height - 1 ==> GetDown(m, Some(t)).Some?
  {
  }

  /** Two tiles one step apart along exactly one axis (the 4-neighbourhood). */
  predicate Adjacent4(a: Tile, b: Tile) {
    (a.y == b.y && (a.x - b.x == 1 || b.x - a.x == 1)) || (a.x == b.x && (a.y - b.y == 1 || b.y - a.y == 1))
  }

  /**
   * `isAdjacent`: true when the column or the row differs by one, whatever the other
   * coordinate is.
   */
  predicate IsAdjacent(current: Tile, other: Tile) {
    current.x - 1 == other.x || current.x + 1 == other.x
    || current.y - 1 == other.y || current.y + 1 == other.y
  }

  /** The relation `isAdjacent` decides, stated through distances. */
  lemma IsAdjacentMeaning(a: Tile, b: Tile)
    ensures IsAdjacent(a, b) <==> (a.x - b.x == 1 || b.x - a.x == 1 || a.y - b.y == 1 || b.y - a.y == 1)
    ensures IsAdjacent(a, b) <==> IsAdjacent(b, a)
    ensures Same(a, b) ==> !IsAdjacent(a, b)
    ensures Adjacent4(a, b) ==> IsAdjacent(a, b)
  {
  }

  /**
   * What `isAdjacent` accepts beyond the 4-neighbourhood: exactly the tiles one column away
   * in another row and the tiles one row away in another column, diagonal or far off.
   */
  lemma IsAdjacentIsLoose(a: Tile, b: Tile)
    ensures IsAdjacent(a, b) && !Adjacent4(a, b) <==>
      ((a.x - b.x == 1 || b.x - a.x == 1) && a.y != b.y) || ((a.y - b.y == 1 || b.y - a.y == 1) && a.x != b.x)
  {
  }
}

=== FILE: numeric.dfy ===
/** Integer helpers for the Java casts and arithmetic the game relies on. */
module Numeric {

  function Abs(n: int): (r: nat)
    ensures r == n || r == -n
  {
    if n < 0 then -n else n
  }

  function Min(a: int, b: int): (r: int)
    ensures r <= a && r <= b
    ensures r == a || r == b
  {
    if a <= b then a else b
  }

  /** Java's `(int)` cast of a `double`: truncation toward zero. */
  function Trunc(r: real): (n: int)
    ensures 0.0 <= r ==> n as real <= r < n as real + 1.0
    ensures r < 0.0 ==> n as real - 1.0 < r <= n as real
  {
    if r >= 0.0 then r.Floor else -((-r).Floor)
  }

  /** Rounded-up quotient of a natural number by a positive divisor. */
  function CeilDiv(a: nat, b: nat): (q: nat)
    requires b > 0
    ensures q * b >= a
    ensures q > 0 ==> (q - 1) * b < a
  {
    (a + b - 1) / b
  }

  /** `Math.random()` promises values in [0, 1). */
  ghost predicate UnitDraws(draws: seq<real>) {
    forall i :: 0 <= i < |draws| ==> 0.0 <= draws[i] < 1.0
  }
}

=== FILE: pathfinding.dfy ===
/**
 * The A* search of `Level.getPath`, kept literal: open and closed lists of `PathTile`s
 * compared by coordinates, a linear minimum-f scan that prefers the last of equal
 * entries, replacement of an open entry when the expanding node's g is below the stored g,
 * and reconstruction along the parent chain of the last closed node.
 */
module PathFinding {
  import opened Wrappers
  import opened Numeric
  import opened Tiles
  import opened Grid

  /** A search node: the tile it stands for, its parent, f = g + h and g = moves from the start. */
  datatype PathTile = PathTile(parent: Option<PathTile>, current: Tile, f: int, g: int)

  /** The `PathTile` constructor: g is 0 without a parent and one more than the parent's otherwise. */
  function NewPathTile(parent: Option<PathTile>, current: Tile, h: int): PathTile {
    var g := match parent case None => 0 case Some(p) => p.g + 1;
    PathTile(parent, current, h + g, g)
  }

  /** The Manhattan heuristic `getPath` uses, measured from `target`. */
  function Manhattan(target: Tile, t: Tile): nat {
    Abs(target.x - t.x) + Abs(target.y - t.y)
  }

  /** The child node `getPath` builds for neighbour `t` of `cur`. */
  function Child(cur: PathTile, t: Tile, target: Tile): PathTile {
    NewPathTile(Some(cur), t, Manhattan(target, t))
  }

  /** The values `equals(Object)` may receive. */
  datatype Obj = TileObj(tile: Tile) | PathTileObj(pathTile: PathTile) | OtherObj

  /** `Tile.equals(Object)`: a tile equals a tile or a path node at the same coordinates. */
  predicate TileEquals(t: Tile, o: Obj) {
    match o
    case TileObj(u) => t.x == u.x && t.y == u.y
    case PathTileObj(p) => t.x == p.current.x && t.y == p.current.y
    case OtherObj => false
  }

  /** `PathTile.equals(Object)`: equal to another path node over the same coordinates only. */
  predicate PathTileEquals(p: PathTile, o: Obj) {
    match o
    case PathTileObj(q) => TileEquals(p.current, TileObj(q.current))
    case _ => false
  }

  /**
   * The equalities are coordinate comparisons: an equivalence on tiles, a tile equals a
   * path node iff it equals the node's tile, and anything else is unequal.
   */
  lemma EqualsMeaning(t: Tile, u: Tile, v: Tile, p: PathTile, q: PathTile)
    ensures TileEquals(t, TileObj(u)) <==> Same(t, u)
    ensures TileEquals(t, TileObj(t))
    ensures TileEquals(t, TileObj(u)) <==> TileEquals(u, TileObj(t))
    ensures TileEquals(t, TileObj(u)) && TileEquals(u, TileObj(v)) ==> TileEquals(t, TileObj(v))
    ensures TileEquals(t, PathTileObj(p)) <==> TileEquals(t, TileObj(p.current))
    ensures !TileEquals(t, OtherObj)
    ensures PathTileEquals(p, PathTileObj(q)) <==> Same(p.current, q.current)
    ensures !PathTileEquals(p, TileObj(t)) && !PathTileEquals(p, OtherObj)
  {
  }

  /** `ArrayList.indexOf(t)` on a node list: the first node equal to `t`, or -1. */
  function IndexOf(list: seq<PathTile>, t: Tile): (r: int)
    ensures -1 <= r < |list|
    ensures r >= 0 ==> Same(list[r].current, t)
    ensures forall k :: 0 <= k < |list| && (r < 0 || k < r) ==> !Same(list[k].current, t)
  {
    if list == [] then -1
    else if TileEquals(t, PathTileObj(list[0])) then 0
    else
      var i := IndexOf(list[1..], t);
      if i < 0 then -1 else i + 1
  }

  /** `ArrayList.contains(t)` on a node list. */
  predicate Contains(list: seq<PathTile>, t: Tile) {
    IndexOf(list, t) >= 0
  }

  lemma ContainsWitness(list: seq<PathTile>, t: Tile, k: int)
    requires 0 <= k < |list| && Same(list[k].current, t)
    ensures Contains(list, t)
  {
  }

  lemma ContainsSame(list: seq<PathTile>, t: Tile, u: Tile)
    requires Same(t, u)
    ensures Contains(list, t) == Contains(list, u)
  {
    if Contains(list, t) {
      ContainsWitness(list, u, IndexOf(list, t));
    }
    if Contains(list, u) {
      ContainsWitness(list, t, IndexOf(list, u));
    }
  }

  lemma ContainsAppend(list: seq<PathTile>, p: PathTile, t: Tile)
    ensures Contains(list + [p], t) <==> Contains(list, t) || Same(p.current, t)
  {
    var l := list + [p];
    if Contains(list, t) {
      ContainsWitness(l, t, IndexOf(list, t));
    } else if Same(p.current, t) {
      ContainsWitness(l, t, |list|);
    }
    if Contains(l, t) {
      var i := IndexOf(l, t);
      if i < |list| {
        ContainsWitness(list, t, i);
      }
    }
  }

  /** No two nodes of the list stand for the same coordinates. */
  ghost predicate DistinctKeys(list: seq<PathTile>) {
    forall i, j :: 0 <= i < j < |list| ==> !Same(list[i].current, list[j].current)
  }

  /**
   * The minimum-f scan over a non-empty open list: an entry of least f, and the last such
   * entry, because the comparison is `<=`.
   */
  function MinF(open: seq<PathTile>): (r: nat)
    requires |open| > 0
    ensures r < |open|
    ensures forall k :: 0 <= k < |open| ==> open[r].f <= open[k].f
    ensures forall k :: r < k < |open| ==> open[k].f > open[r].f
  {
    MinFFrom(open, 1, 0)
  }

  /** The scan from position `i` on, with `best` the entry chosen among the first `i`. */
  function MinFFrom(open: seq<PathTile>, i: nat, best: nat): (r: nat)
    requires best < i <= |open|
    requires forall k :: 0 <= k < i ==> open[best].f <= open[k].f
    requires forall k :: best < k < i ==> open[k].f > open[best].f
    ensures r < |open|
    ensures forall k :: 0 <= k < |open| ==> open[r].f <= open[k].f
    ensures forall k :: r < k < |open| ==> open[k].f > open[r].f
    decreases |open| - i
  {
    if i == |open| then best
    else if open[i].f <= open[best].f then MinFFrom(open, i + 1, i)
    else MinFFrom(open, i + 1, best)
  }

  /** Removes entry `i`. */
  function RemoveAt<T>(s: seq<T>, i: nat): (r: seq<T>)
    requires i < |s|
    ensures |r| == |s| - 1
    ensures forall k :: 0 <= k < i ==> r[k] == s[k]
    ensures forall k :: i <= k < |r| ==> r[k] == s[k + 1]
  {
    s[..i] + s[i + 1..]
  }

  /**
   * One neighbour `t` of the expanded node `cur`: a wall or a closed tile is skipped; a new
   * tile is appended as a child of `cur`; an open tile is replaced by that child only when
   * `cur.g` is below the stored g.
   */
  function Relax(open: seq<PathTile>, closed: seq<PathTile>, cur: PathTile, t: Tile, target: Tile)
    : (r: seq<PathTile>)
    ensures t.isWall || Contains(closed, t) ==> r == open
    ensures |r| == |open| || |r| == |open| + 1
    ensures |r| == |open| + 1 <==> !t.isWall && !Contains(closed, t) && !Contains(open, t)
    ensures |r| == |open| + 1 ==> r[|open|] == Child(cur, t, target)
    ensures forall k :: 0 <= k < |open| ==>
      r[k] == open[k] || (Same(open[k].current, t) && cur.g < open[k].g && r[k] == Child(cur, t, target))
    ensures forall u :: Contains(open, u) ==> Contains(r, u)
    ensures !t.isWall ==> Contains(r, t) || Contains(closed, t)
  {
    if t.isWall || Contains(closed, t) then open
    else
      var child := Child(cur, t, target);
      var i := IndexOf(open, t);
      if i < 0 then
        var r := open + [child];
        assert forall u :: Contains(open, u) ==> Contains(r, u) by {
          forall u | Contains(open, u) ensures Contains(r, u) {
            ContainsWitness(r, u, IndexOf(open, u));
          }
        }
        ContainsWitness(r, t, |open|);
        r
      else if cur.g < open[i].g then
        var r := open[i := child];
        assert forall u :: Contains(open, u) ==> Contains(r, u) by {
          forall u | Contains(open, u) ensures Contains(r, u) {
            var j := IndexOf(open, u);
            ContainsWitness(r, u, j);
          }
        }
        ContainsWitness(r, t, i);
        r
      else
        open
  }

  /** The `for (Tile t : adjacent)` loop: relaxes each neighbour in turn. */
  function ExpandAll(open: seq<PathTile>, closed: seq<PathTile>, cur: PathTile, adj: seq<Tile>, target: Tile)
    : (r: seq<PathTile>)
    ensures forall k :: 0 <= k < |r| ==> r[k] in open || r[k].parent == Some(cur)
    ensures forall u :: Contains(open, u) ==> Contains(r, u)
    ensures forall k :: 0 <= k < |adj| && !adj[k].isWall ==> Contains(r, adj[k]) || Contains(closed, adj[k])
    decreases |adj|
  {
    if adj == [] then open
    else ExpandAll(Relax(open, closed, cur, adj[0], target), closed, cur, adj[1..], target)
  }

  /** A map `getPath` can search: complete, at least 2 by 2, with the start inside. */
  ghost predicate Searchable(m: Map, start: Tile) {
    m.Complete() && m.width >= 2 && m.height >= 2 && m.InBounds(start.x, start.y)
  }

  /** On a complete map at least 2 by 2, every `getAdjacent` entry is a map tile beside (x, y). */
  lemma AdjacentEntries(m: Map, x: int, y: int)
    requires m.Complete() && m.width >= 2 && m.height >= 2 && m.InBounds(x, y)
    ensures forall k :: 0 <= k < |GetAdjacent(m, x, y)| ==>
      GetAdjacent(m, x, y)[k].Some? && m.Holds(GetAdjacent(m, x, y)[k].value)
      && Adjacent4(GetAdjacent(m, x, y)[k].value, Tile(x, y, false))
  {
    GetAdjacentExact(m, x, y);
    var cs := InBoundsOnly(m, Around(x, y));
    forall k | 0 <= k < |cs|
      ensures GetAdjacent(m, x, y)[k] == m.TileAt(cs[k].0, cs[k].1) && cs[k] in Around(x, y)
    {
      TilesAtIndex(m, cs, k);
      InBoundsOnlyFrom(m, Around(x, y), k);
    }
  }

  /** The `getAdjacent` entries of an in-bounds cell of a complete map, all of them tiles. */
  function AdjacentTiles(m: Map, x: int, y: int): (r: seq<Tile>)
    requires m.Complete() && m.width >= 2 && m.height >= 2 && m.InBounds(x, y)
    ensures |r| == |GetAdjacent(m, x, y)|
    ensures forall k :: 0 <= k < |r| ==> GetAdjacent(m, x, y)[k] == Some(r[k])
    ensures forall k :: 0 <= k < |r| ==> m.Holds(r[k]) && Adjacent4(r[k], Tile(x, y, false))
  {
    AdjacentEntries(m, x, y);
    var a := GetAdjacent(m, x, y);
    seq(|a|, k requires 0 <= k < |a| => a[k].value)
  }

  /** Every map tile beside (x, y) is among the adjacent tiles. */
  lemma AdjacentTilesComplete(m: Map, x: int, y: int, t: Tile)
    requires m.Complete() && m.width >= 2 && m.height >= 2 && m.InBounds(x, y)
    requires m.Holds(t) && Adjacent4(t, Tile(x, y, false))
    ensures t in AdjacentTiles(m, x, y)
  {
    assert (t.x, t.y) in Around(x, y);
    var a := GetAdjacent(m, x, y);
    assert m.TileAt(t.x, t.y) == Some(t);
    assert Some(t) in a;
    var k :| 0 <= k < |a| && a[k] == Some(t);
    assert AdjacentTiles(m, x, y)[k] == t;
  }

  /**
   * A well-formed node: a non-root node stands for a walkable map tile next to its parent's,
   * has g one more than its parent and f = g + Manhattan distance to the target, and its
   * parent is the root or a node away from the start; the root stands for the start with g 0.
   */
  ghost predicate Chain(m: Map, start: Tile, target: Tile, n: PathTile)
    decreases n
  {
    match n.parent
    case None => n.current == start && n.g == 0
    case Some(p) =>
      m.Holds(n.current) && !n.current.isWall && Adjacent4(n.current, p.current)
      && n.g == p.g + 1 && p.g >= 0 && n.f == n.g + Manhattan(target, n.current)
      && (p.parent.Some? ==> !Same(p.current, start))
      && Chain(m, start, target, p)
  }

  /** Every node of the list is a well-formed non-root node. */
  ghost predicate Linked(m: Map, start: Tile, target: Tile, list: seq<PathTile>) {
    forall k :: 0 <= k < |list| ==> list[k].parent.Some? && Chain(m, start, target, list[k])
  }

  /** No open node stands for a closed tile. */
  ghost predicate Disjoint(open: seq<PathTile>, closed: seq<PathTile>) {
    forall k :: 0 <= k < |open| ==> !Contains(closed, open[k].current)
  }

  /**
   * After the start is expanded: every walkable neighbour of the start is open or closed,
   * and an open neighbour of the start has g at most 1.
   */
  ghost predicate StartSealed(m: Map, start: Tile, open: seq<PathTile>, closed: seq<PathTile>)
    requires Searchable(m, start)
  {
    var a := AdjacentTiles(m, start.x, start.y);
    (forall k :: 0 <= k < |a| && !a[k].isWall ==> Contains(open, a[k]) || Contains(closed, a[k]))
    && (forall k :: 0 <= k < |open| && Adjacent4(open[k].current, start) ==> open[k].g <= 1)
  }

  /** What holds at the top of each search iteration after the first. */
  ghost predicate SearchInv(m: Map, start: Tile, target: Tile, open: seq<PathTile>, closed: seq<PathTile>) {
    Searchable(m, start) && !Same(start, target)
    && Linked(m, start, target, open) && Linked(m, start, target, closed)
    && DistinctKeys(open) && DistinctKeys(closed) && Disjoint(open, closed)
    && !Contains(closed, target) && StartSealed(m, start, open, closed)
  }

  /** The in-bounds coordinates no closed node stands for: shrinks with every iteration. */
  ghost function Unclosed(m: Map, closed: seq<PathTile>): set<(int, int)> {
    set x, y | 0 <= x < m.width && 0 <= y < m.height && !Contains(closed, Tile(x, y, false)) :: (x, y)
  }

  /** Relaxing one neighbour keeps the list invariants. */
  lemma RelaxPreserves(m: Map, start: Tile, target: Tile, open: seq<PathTile>, closed: seq<PathTile>,
                       cur: PathTile, t: Tile)
    requires Searchable(m, start)
    requires Linked(m, start, target, open) && DistinctKeys(open) && Disjoint(open, closed)
    requires Chain(m, start, target, cur) && m.Holds(t) && Adjacent4(t, cur.current)
    requires cur.parent.None? || !Same(cur.current, start)
    ensures var r := Relax(open, closed, cur, t, target);
      Linked(m, start, target, r) && DistinctKeys(r) && Disjoint(r, closed)
      && (StartSealed(m, start, open, closed) ==> StartSealed(m, start, r, closed))
  {
    RelaxLists(m, start, target, open, closed, cur, t);
    if StartSealed(m, start, open, closed) {
      RelaxSealed(m, start, target, open, closed, cur, t);
    }
  }

  /** Relaxing one neighbour keeps the open list well-linked, keyed uniquely and apart from the closed list. */
  lemma RelaxLists(m: Map, start: Tile, target: Tile, open: seq<PathTile>, closed: seq<PathTile>,
                   cur: PathTile, t: Tile)
    requires Linked(m, start, target, open) && DistinctKeys(open) && Disjoint(open, closed)
    requires Chain(m, start, target, cur) && m.Holds(t) && Adjacent4(t, cur.current)
    requires cur.parent.None? || !Same(cur.current, start)
    ensures var r := Relax(open, closed, cur, t, target);
      Linked(m, start, target, r) && DistinctKeys(r) && Disjoint(r, closed)
  {
    RelaxLinked(m, start, target, open, closed, cur, t);
    RelaxKeys(open, closed, cur, t, target);
    RelaxDisjoint(open, closed, cur, t, target);
  }

  /** A relaxed entry is a well-formed child of the current node. */
  lemma RelaxLinked(m: Map, start: Tile, target: Tile, open: seq<PathTile>, closed: seq<PathTile>,
                    cur: PathTile, t: Tile)
    requires Linked(m, start, target, open)
    requires Chain(m, start, target, cur) && m.Holds(t) && Adjacent4(t, cur.current)
    requires cur.parent.None? || !Same(cur.current, start)
    ensures Linked(m, start, target, Relax(open, closed, cur, t, target))
  {
    var r := Relax(open, closed, cur, t, target);
    if !t.isWall && !Contains(closed, t) {
      var child := Child(cur, t, target);
      assert Chain(m, start, target, child);
      assert forall k :: 0 <= k < |r| ==> r[k] == child || r[k] == open[k];
    }
  }

  /** A relaxed entry stands for a tile that is not closed. */
  lemma RelaxDisjoint(open: seq<PathTile>, closed: seq<PathTile>, cur: PathTile, t: Tile, target: Tile)
    requires Disjoint(open, closed)
    ensures Disjoint(Relax(open, closed, cur, t, target), closed)
  {
    var r := Relax(open, closed, cur, t, target);
    if !t.isWall && !Contains(closed, t) {
      assert forall k :: 0 <= k < |r| ==> r[k].current == t || r[k] == open[k];
    }
  }

  /** Relaxing one neighbour keeps one open entry per tile. */
  lemma RelaxKeys(open: seq<PathTile>, closed: seq<PathTile>, cur: PathTile, t: Tile, target: Tile)
    requires DistinctKeys(open)
    ensures DistinctKeys(Relax(open, closed, cur, t, target))
  {
    var r := Relax(open, closed, cur, t, target);
    if |r| == |open| + 1 {
      assert forall k :: 0 <= k < |open| ==> !Same(open[k].current, t);
      assert r == open + [Child(cur, t, target)];
    } else {
      assert forall k :: 0 <= k < |r| ==> Same(r[k].current, open[k].current);
    }
  }

  /** Relaxing one neighbour keeps the start's neighbours listed, each at most one move deep while open. */
  lemma RelaxSealed(m: Map, start: Tile, target: Tile, open: seq<PathTile>, closed: seq<PathTile>,
                    cur: PathTile, t: Tile)
    requires Searchable(m, start) && StartSealed(m, start, open, closed)
    requires m.Holds(t)
    ensures StartSealed(m, start, Relax(open, closed, cur, t, target), closed)
  {
    var r := Relax(open, closed, cur, t, target);
    if |r| == |open| + 1 && Adjacent4(t, start) {
      AdjacentTilesComplete(m, start.x, start.y, t);
    }
  }

  /** Expanding a node that may be a parent keeps the list invariants. */
  lemma {:induction false} ExpandAllPreserves(m: Map, start: Tile, target: Tile, open: seq<PathTile>,
                                              closed: seq<PathTile>, cur: PathTile, adj: seq<Tile>)
    requires Searchable(m, start)
    requires Linked(m, start, target, open) && DistinctKeys(open) && Disjoint(open, closed)
    requires Chain(m, start, target, cur)
    requires forall k :: 0 <= k < |adj| ==> m.Holds(adj[k]) && Adjacent4(adj[k], cur.current)
    requires cur.parent.None? || !Same(cur.current, start)
    ensures var r := ExpandAll(open, closed, cur, adj, target);
      Linked(m, start, target, r) && DistinctKeys(r) && Disjoint(r, closed)
      && (StartSealed(m, start, open, closed) ==> StartSealed(m, start, r, closed))
    decreases |adj|
  {
    if adj != [] {
      RelaxPreserves(m, start, target, open, closed, cur, adj[0]);
      ExpandAllPreserves(m, start, target, Relax(open, closed, cur, adj[0], target), closed, cur, adj[1..]);
    }
  }

  /**
   * Expanding a later node over the start's coordinates changes nothing: its neighbours are
   * all open with g at most 1, or closed.
   */
  lemma {:induction false} ExpandAllNoOp(m: Map, start: Tile, target: Tile, open: seq<PathTile>,
                                         closed: seq<PathTile>, cur: PathTile, adj: seq<Tile>)
    requires Searchable(m, start) && StartSealed(m, start, open, closed)
    requires cur.g >= 2
    requires forall k :: 0 <= k < |adj| ==> adj[k] in AdjacentTiles(m, start.x, start.y)
    ensures ExpandAll(open, closed, cur, adj, target) == open
    decreases |adj|
  {
    if adj != [] {
      var t := adj[0];
      var a := AdjacentTiles(m, start.x, start.y);
      if !t.isWall && !Contains(closed, t) {
        var j :| 0 <= j < |a| && a[j] == t;
        var i := IndexOf(open, t);
        assert Adjacent4(open[i].current, start);
      }
      assert Relax(open, closed, cur, t, target) == open;
      ExpandAllNoOp(m, start, target, open, closed, cur, adj[1..]);
    }
  }

  /** With distinct keys, `remove(minF)` removes exactly the chosen entry. */
  lemma SelectIndex(open: seq<PathTile>, i: nat)
    requires DistinctKeys(open) && i < |open|
    ensures IndexOf(open, open[i].current) == i
  {
  }

  lemma ClosedAppend(closed: seq<PathTile>, cur: PathTile)
    ensures forall u :: Contains(closed + [cur], u) <==> Contains(closed, u) || Same(cur.current, u)
  {
    forall u ensures Contains(closed + [cur], u) <==> Contains(closed, u) || Same(cur.current, u) {
      ContainsAppend(closed, cur, u);
    }
  }

  /** Moving the chosen open node to the closed list keeps the list invariants. */
  lemma SelectLists(m: Map, start: Tile, target: Tile, open: seq<PathTile>, closed: seq<PathTile>, i: nat)
    requires Linked(m, start, target, open) && Linked(m, start, target, closed)
    requires DistinctKeys(open) && DistinctKeys(closed) && Disjoint(open, closed) && i < |open|
    ensures var open1 := RemoveAt(open, i); var closed1 := closed + [open[i]];
      Linked(m, start, target, open1) && Linked(m, start, target, closed1)
      && DistinctKeys(open1) && DistinctKeys(closed1) && Disjoint(open1, closed1)
  {
    var cur := open[i];
    var open1 := RemoveAt(open, i);
    var closed1 := closed + [cur];
    ClosedAppend(closed, cur);
    forall k | 0 <= k < |open1| ensures !Contains(closed1, open1[k].current) {
      assert open1[k] == open[if k < i then k else k + 1];
    }
  }

  /** Moving the chosen open node to the closed list keeps the start sealed. */
  lemma SelectSealed(m: Map, start: Tile, open: seq<PathTile>, closed: seq<PathTile>, i: nat)
    requires Searchable(m, start) && StartSealed(m, start, open, closed) && i < |open|
    ensures StartSealed(m, start, RemoveAt(open, i), closed + [open[i]])
  {
    var cur := open[i];
    var open1 := RemoveAt(open, i);
    var closed1 := closed + [cur];
    ClosedAppend(closed, cur);
    var a := AdjacentTiles(m, start.x, start.y);
    forall k | 0 <= k < |a| && !a[k].isWall ensures Contains(open1, a[k]) || Contains(closed1, a[k]) {
      if Contains(open, a[k]) {
        var j := IndexOf(open, a[k]);
        if j < i {
          ContainsWitness(open1, a[k], j);
        } else if j > i {
          ContainsWitness(open1, a[k], j - 1);
        }
      }
    }
    forall k | 0 <= k < |open1| && Adjacent4(open1[k].current, start) ensures open1[k].g <= 1 {
      assert open1[k] == open[if k < i then k else k + 1];
    }
  }

  /** Closing a tile that was not closed shrinks the set of unclosed coordinates. */
  lemma SelectShrinks(m: Map, closed: seq<PathTile>, cur: PathTile)
    requires m.InBounds(cur.current.x, cur.current.y) && !Contains(closed, cur.current)
    ensures Unclosed(m, closed + [cur]) < Unclosed(m, closed)
  {
    ClosedAppend(closed, cur);
    var key := (cur.current.x, cur.current.y);
    ContainsSame(closed, cur.current, Tile(key.0, key.1, false));
    assert key in Unclosed(m, closed);
    assert key !in Unclosed(m, closed + [cur]);
  }

  /** The closed list after one iteration. */
  function Closed1(open: seq<PathTile>, closed: seq<PathTile>): seq<PathTile>
    requires |open| > 0
  {
    closed + [open[MinF(open)]]
  }

  /** The open list after one iteration. */
  function Open2(m: Map, target: Tile, open: seq<PathTile>, closed: seq<PathTile>): seq<PathTile>
    requires m.Complete() && m.width >= 2 && m.height >= 2 && |open| > 0
    requires m.InBounds(open[MinF(open)].current.x, open[MinF(open)].current.y)
  {
    var cur := open[MinF(open)];
    var open1 := RemoveAt(open, IndexOf(open, cur.current));
    ExpandAll(open1, closed + [cur], cur, AdjacentTiles(m, cur.current.x, cur.current.y), target)
  }

  /** One iteration keeps the invariants (while the target is not closed) and closes one more tile. */
  lemma StepPreserves(m: Map, start: Tile, target: Tile, open: seq<PathTile>, closed: seq<PathTile>)
    requires SearchInv(m, start, target, open, closed) && |open| > 0
    ensures m.InBounds(open[MinF(open)].current.x, open[MinF(open)].current.y)
    ensures Unclosed(m, Closed1(open, closed)) < Unclosed(m, closed)
    ensures DistinctKeys(Closed1(open, closed)) && Linked(m, start, target, Closed1(open, closed))
    ensures Contains(Closed1(open, closed), target) <==> Same(open[MinF(open)].current, target)
    ensures !Same(open[MinF(open)].current, target) ==>
      SearchInv(m, start, target, Open2(m, target, open, closed), Closed1(open, closed))
  {
    var i := MinF(open);
    var cur := open[i];
    SelectIndex(open, i);
    SelectLists(m, start, target, open, closed, i);
    SelectSealed(m, start, open, closed, i);
    SelectShrinks(m, closed, cur);
    ContainsAppend(closed, cur, target);
    ExpandPreserves(m, start, target, RemoveAt(open, i), closed + [cur], cur);
  }

  /** What one iteration of the search loop leads to: a final answer, or the next lists. */
  datatype StepOutcome = Done(found: Option<seq<PathTile>>) | Continue(open: seq<PathTile>, closed: seq<PathTile>)

  /** The lists `Search` returns: the closed list once the target is closed. */
  ghost predicate Found(m: Map, start: Tile, target: Tile, closed: seq<PathTile>) {
    |closed| > 0 && DistinctKeys(closed) && Linked(m, start, target, closed)
    && Same(closed[|closed| - 1].current, target)
  }

  /**
   * One iteration of the `while (!targetFound)` loop: close the last open node of least f,
   * expand it, and stop with `None` when the open list drains before the target is closed,
   * or with the closed list once the target is closed.
   */
  function Step(m: Map, start: Tile, target: Tile, open: seq<PathTile>, closed: seq<PathTile>): (r: StepOutcome)
    requires SearchInv(m, start, target, open, closed) && |open| > 0
    ensures r.Done? && r.found.Some? ==> Found(m, start, target, r.found.value)
    ensures r.Continue? ==>
      SearchInv(m, start, target, r.open, r.closed) && |r.open| > 0 && Unclosed(m, r.closed) < Unclosed(m, closed)
  {
    StepPreserves(m, start, target, open, closed);
    var targetFound := Same(open[MinF(open)].current, target);
    var closed1 := Closed1(open, closed);
    var open2 := Open2(m, target, open, closed);
    if open2 == [] && !Contains(closed1, target) then Done(None)
    else if targetFound then Done(Some(closed1))
    else Continue(open2, closed1)
  }

  /** The `while (!targetFound)` loop from its second iteration on. */
  function Search(m: Map, start: Tile, target: Tile, open: seq<PathTile>, closed: seq<PathTile>)
    : (r: Option<seq<PathTile>>)
    requires SearchInv(m, start, target, open, closed) && |open| > 0
    ensures r.Some? ==> Found(m, start, target, r.value)
    decreases Unclosed(m, closed)
  {
    match Step(m, start, target, open, closed)
    case Done(found) => found
    case Continue(open2, closed1) => Search(m, start, target, open2, closed1)
  }

  /** A non-root node over the start's coordinates lies at least two moves from the root. */
  lemma StartNodeDeep(m: Map, start: Tile, target: Tile, n: PathTile)
    requires Searchable(m, start)
    requires n.parent.Some? && Chain(m, start, target, n) && Same(n.current, start)
    ensures n.g >= 2
    ensures forall k :: 0 <= k < |AdjacentTiles(m, n.current.x, n.current.y)| ==>
      AdjacentTiles(m, n.current.x, n.current.y)[k] in AdjacentTiles(m, start.x, start.y)
  {
    var p := n.parent.value;
    assert p.parent.Some?;
  }

  /** Expanding the node just closed keeps the list invariants, whether or not it may be a parent. */
  lemma ExpandPreserves(m: Map, start: Tile, target: Tile, open: seq<PathTile>, closed: seq<PathTile>, cur: PathTile)
    requires Searchable(m, start)
    requires Linked(m, start, target, open) && DistinctKeys(open) && Disjoint(open, closed)
    requires StartSealed(m, start, open, closed)
    requires cur.parent.Some? && Chain(m, start, target, cur)
    ensures var r := ExpandAll(open, closed, cur, AdjacentTiles(m, cur.current.x, cur.current.y), target);
      Linked(m, start, target, r) && DistinctKeys(r) && Disjoint(r, closed) && StartSealed(m, start, r, closed)
  {
    var adj := AdjacentTiles(m, cur.current.x, cur.current.y);
    if !Same(cur.current, start) {
      ExpandAllPreserves(m, start, target, open, closed, cur, adj);
    } else {
      StartNodeDeep(m, start, target, cur);
      ExpandAllNoOp(m, start, target, open, closed, cur, adj);
    }
  }

  /** The first iteration expands the root (the start) and establishes the loop invariant. */
  lemma FirstExpansion(m: Map, start: Tile, target: Tile)
    requires Searchable(m, start) && !Same(start, target)
    ensures var root := NewPathTile(None, start, 0);
      SearchInv(m, start, target, ExpandAll([], [], root, AdjacentTiles(m, start.x, start.y), target), [])
  {
    var root := NewPathTile(None, start, 0);
    var a := AdjacentTiles(m, start.x, start.y);
    ExpandAllPreserves(m, start, target, [], [], root, a);
    var open := ExpandAll([], [], root, a, target);
    forall k | 0 <= k < |open| && Adjacent4(open[k].current, start) ensures open[k].g <= 1 {
      assert open[k].parent == Some(root);
    }
  }

  /** The reconstruction loop: the node's tile, then its parent's, and so on back to the root. */
  function {:tailrecursion false} Trace(n: PathTile): (r: seq<Tile>)
    decreases n
  {
    [n.current] + (match n.parent case None => [] case Some(p) => Trace(p))
  }

  /** `ArrayList.remove(Object)`: drops the first entry equal to `t`, if any. */
  function RemoveFirst(s: seq<Tile>, t: Tile): (r: seq<Tile>)
    ensures (forall k :: 0 <= k < |s| ==> !Same(t, s[k])) ==> r == s
    ensures |r| == |s| || |r| == |s| - 1
  {
    if s == [] then []
    else if TileEquals(t, TileObj(s[0])) then s[1..]
    else [s[0]] + RemoveFirst(s[1..], t)
  }

  /** When entry `i` is the first equal to `t`, exactly that entry is removed. */
  lemma {:induction false} RemoveFirstAt(s: seq<Tile>, t: Tile, i: nat)
    requires i < |s| && Same(t, s[i])
    requires forall k :: 0 <= k < i ==> !Same(t, s[k])
    ensures RemoveFirst(s, t) == s[..i] + s[i + 1..]
  {
    if i > 0 {
      RemoveFirstAt(s[1..], t, i - 1);
      assert s[1..][..i - 1] == s[1..i];
      assert s[1..][i..] == s[i + 1..];
      assert s[..i] == [s[0]] + s[1..i];
    }
  }

  /**
   * The tiles of a well-formed chain: as many entries as moves plus one, ending at the start,
   * each tile but the last a walkable map tile next to the following one, and none strictly
   * between the first and the last over the start's coordinates.
   */
  lemma {:induction false} TraceShape(m: Map, start: Tile, target: Tile, n: PathTile)
    requires Chain(m, start, target, n)
    ensures |Trace(n)| == n.g + 1
    ensures Trace(n)[0] == n.current && Trace(n)[|Trace(n)| - 1] == start
    ensures forall k :: 0 <= k < |Trace(n)| - 1 ==>
      m.Holds(Trace(n)[k]) && !Trace(n)[k].isWall && Adjacent4(Trace(n)[k], Trace(n)[k + 1])
    ensures forall k :: 1 <= k < |Trace(n)| - 1 ==> !Same(Trace(n)[k], start)
    decreases n
  {
    match n.parent
    case None =>
    case Some(p) =>
      TraceShape(m, start, target, p);
      var t := Trace(n);
      assert t == [n.current] + Trace(p);
  }

  /**
   * What `getPath` returns for distinct start and target: the target's coordinates first,
   * every entry a walkable map tile away from the start, consecutive entries 4-neighbours,
   * and the last entry next to the start.
   */
  ghost predicate Route(m: Map, start: Tile, target: Tile, p: seq<Tile>) {
    |p| >= 1 && Same(p[0], target) && Adjacent4(p[|p| - 1], start)
    && (forall k :: 0 <= k < |p| ==> m.Holds(p[k]) && !p[k].isWall && !Same(p[k], start))
    && (forall k :: 0 <= k < |p| - 1 ==> Adjacent4(p[k], p[k + 1]))
  }

  /** Removing the start from a traced chain drops just its last entry and leaves a route. */
  lemma RouteOfTrace(m: Map, start: Tile, target: Tile, t: seq<Tile>)
    requires |t| >= 2 && t[|t| - 1] == start && Same(t[0], target) && !Same(start, target)
    requires forall k :: 0 <= k < |t| - 1 ==> m.Holds(t[k]) && !t[k].isWall && Adjacent4(t[k], t[k + 1])
    requires forall k :: 1 <= k < |t| - 1 ==> !Same(t[k], start)
    ensures RemoveFirst(t, start) == t[..|t| - 1]
    ensures Route(m, start, target, t[..|t| - 1])
  {
    var last := |t| - 1;
    RemoveFirstAt(t, start, last);
    assert t[..last] + t[last + 1..] == t[..last];
  }

  /** Reconstructing from the closed target node and removing the start gives a route of g moves. */
  lemma RouteFromTrace(m: Map, start: Tile, target: Tile, n: PathTile)
    requires n.parent.Some? && Chain(m, start, target, n)
    requires Same(n.current, target) && !Same(start, target)
    ensures Route(m, start, target, RemoveFirst(Trace(n), start))
    ensures |RemoveFirst(Trace(n), start)| == n.g
  {
    TraceShape(m, start, target, n);
    RouteOfTrace(m, start, target, Trace(n));
  }

  /** The closed list a search returns reconstructs, from its last node, to a route. */
  lemma RouteFromFound(m: Map, start: Tile, target: Tile, closed: seq<PathTile>)
    requires Found(m, start, target, closed) && !Same(start, target)
    ensures Route(m, start, target, RemoveFirst(Trace(closed[|closed| - 1]), start))
  {
    var last := closed[|closed| - 1];
    assert last.parent.Some? && Chain(m, start, target, last);
    RouteFromTrace(m, start, target, last);
  }

  /**
   * `getPath(start, target)` on a complete map: `Some([])` when start and target coincide,
   * `None` when the search drains the open list, otherwise the reconstructed tiles with the
   * start removed.
   */
  function GetPath(m: Map, start: Tile, target: Tile): (r: Option<seq<Tile>>)
    requires Searchable(m, start)
    ensures Same(start, target) ==> r == Some([])
    ensures !Same(start, target) && (!m.InBounds(target.x, target.y) || m.cells[target.x][target.y] == Some(true))
      ==> r.None?
    ensures r.Some? && !Same(start, target) ==> Route(m, start, target, r.value)
  {
    if TileEquals(start, TileObj(target)) then Some([])
    else
      var root := NewPathTile(None, start, 0);
      var open := ExpandAll([], [], root, AdjacentTiles(m, start.x, start.y), target);
      FirstExpansion(m, start, target);
      if open == [] then None
      else
        match Search(m, start, target, open, [])
        case None => None
        case Some(closed) =>
          RouteFromFound(m, start, target, closed);
          Some(RemoveFirst(Trace(closed[|closed| - 1]), start))
  }

  /** Every walkable map tile beside a closed node is open or closed. */
  ghost predicate Sealed(m: Map, open: seq<PathTile>, closed: seq<PathTile>) {
    forall k, t :: 0 <= k < |closed| && m.Holds(t) && !t.isWall && Adjacent4(t, closed[k].current) ==>
      Contains(open, t) || Contains(closed, t)
  }

  /** Removing one entry keeps every tile that entry does not stand for. */
  lemma RemoveAtContains(open: seq<PathTile>, i: nat, t: Tile)
    requires i < |open| && Contains(open, t) && !Same(open[i].current, t)
    ensures Contains(RemoveAt(open, i), t)
  {
    var j := IndexOf(open, t);
    ContainsWitness(RemoveAt(open, i), t, if j < i then j else j - 1);
  }

  /** Expanding `cur` leaves each walkable map tile beside it open or closed. */
  lemma ExpandSeals(m: Map, open: seq<PathTile>, closed: seq<PathTile>, cur: PathTile, target: Tile, t: Tile)
    requires m.Complete() && m.width >= 2 && m.height >= 2 && m.InBounds(cur.current.x, cur.current.y)
    requires m.Holds(t) && !t.isWall && Adjacent4(t, cur.current)
    ensures var r := ExpandAll(open, closed, cur, AdjacentTiles(m, cur.current.x, cur.current.y), target);
      Contains(r, t) || Contains(closed, t)
  {
    var adj := AdjacentTiles(m, cur.current.x, cur.current.y);
    AdjacentTilesComplete(m, cur.current.x, cur.current.y, t);
    var j :| 0 <= j < |adj| && adj[j] == t;
  }

  /** One iteration keeps every closed node sealed: the node it closes has just been expanded. */
  lemma StepSeals(m: Map, start: Tile, target: Tile, open: seq<PathTile>, closed: seq<PathTile>)
    requires SearchInv(m, start, target, open, closed) && |open| > 0 && Sealed(m, open, closed)
    ensures m.InBounds(open[MinF(open)].current.x, open[MinF(open)].current.y)
    ensures Sealed(m, Open2(m, target, open, closed), Closed1(open, closed))
  {
    StepPreserves(m, start, target, open, closed);
    var i := MinF(open);
    var cur := open[i];
    SelectIndex(open, i);
    var open1 := RemoveAt(open, i);
    var closed1 := closed + [cur];
    var open2 := ExpandAll(open1, closed1, cur, AdjacentTiles(m, cur.current.x, cur.current.y), target);
    assert open2 == Open2(m, target, open, closed);
    ClosedAppend(closed, cur);
    forall k, t | 0 <= k < |closed1| && m.Holds(t) && !t.isWall && Adjacent4(t, closed1[k].current)
      ensures Contains(open2, t) || Contains(closed1, t)
    {
      if k == |closed| {
        ExpandSeals(m, open1, closed1, cur, target, t);
      } else {
        assert closed1[k] == closed[k];
        if Contains(open, t) && !Same(cur.current, t) {
          RemoveAtContains(open, i, t);
        }
      }
    }
  }

  /** With nothing open, every entry of a route is closed, working back from the start's side. */
  lemma {:induction false} DrainedReaches(m: Map, start: Tile, target: Tile, closed: seq<PathTile>,
                                          p: seq<Tile>, k: nat)
    requires Searchable(m, start) && Sealed(m, [], closed) && StartSealed(m, start, [], closed)
    requires Route(m, start, target, p) && k < |p|
    ensures Contains(closed, p[k])
    decreases |p| - k
  {
    if k == |p| - 1 {
      var a := AdjacentTiles(m, start.x, start.y);
      AdjacentTilesComplete(m, start.x, start.y, p[k]);
      var j :| 0 <= j < |a| && a[j] == p[k];
      assert !Contains([], a[j]);
    } else {
      DrainedReaches(m, start, target, closed, p, k + 1);
      var j := IndexOf(closed, p[k + 1]);
      assert Adjacent4(p[k], closed[j].current);
      assert !Contains([], p[k]);
    }
  }

  /** While a route exists, an iteration from sealed lists never drains the open list. */
  lemma StepNotDrained(m: Map, start: Tile, target: Tile, open: seq<PathTile>, closed: seq<PathTile>,
                       p: seq<Tile>)
    requires SearchInv(m, start, target, open, closed) && |open| > 0 && Sealed(m, open, closed)
    requires Route(m, start, target, p)
    ensures m.InBounds(open[MinF(open)].current.x, open[MinF(open)].current.y)
    ensures Open2(m, target, open, closed) != [] || Contains(Closed1(open, closed), target)
  {
    StepPreserves(m, start, target, open, closed);
    StepSeals(m, start, target, open, closed);
    var closed1 := Closed1(open, closed);
    if Open2(m, target, open, closed) == [] && !Contains(closed1, target) {
      DrainedReaches(m, start, target, closed1, p, 0);
      ContainsSame(closed1, p[0], target);
      assert false;
    }
  }

  /** While a route exists, an iteration from sealed lists either closes the target or goes on sealed. */
  lemma StepContinues(m: Map, start: Tile, target: Tile, open: seq<PathTile>, closed: seq<PathTile>,
                      p: seq<Tile>)
    requires SearchInv(m, start, target, open, closed) && |open| > 0 && Sealed(m, open, closed)
    requires Route(m, start, target, p)
    ensures var r := Step(m, start, target, open, closed);
      (r.Done? ==> r.found.Some?) && (r.Continue? ==> Sealed(m, r.open, r.closed))
  {
    StepSeals(m, start, target, open, closed);
    StepNotDrained(m, start, target, open, closed, p);
  }

  /** From sealed lists, the loop drains the open list only when no route exists. */
  lemma {:induction false} SearchComplete(m: Map, start: Tile, target: Tile, open: seq<PathTile>,
                                          closed: seq<PathTile>, p: seq<Tile>)
    requires SearchInv(m, start, target, open, closed) && |open| > 0 && Sealed(m, open, closed)
    requires Route(m, start, target, p)
    ensures Search(m, start, target, open, closed).Some?
    decreases Unclosed(m, closed)
  {
    StepContinues(m, start, target, open, closed, p);
    match Step(m, start, target, open, closed)
    case Done(_) =>
    case Continue(open2, closed1) => SearchComplete(m, start, target, open2, closed1, p);
  }

  /** Expanding the start opens the route's last entry, a walkable neighbour of the start. */
  lemma RouteStartsOpen(m: Map, start: Tile, target: Tile, p: seq<Tile>)
    requires Searchable(m, start) && Route(m, start, target, p)
    ensures Contains(ExpandAll([], [], NewPathTile(None, start, 0), AdjacentTiles(m, start.x, start.y), target),
                     p[|p| - 1])
  {
    var a := AdjacentTiles(m, start.x, start.y);
    var last := p[|p| - 1];
    AdjacentTilesComplete(m, start.x, start.y, last);
    var j :| 0 <= j < |a| && a[j] == last;
    assert !Contains([], last);
  }

  /** `getPath` finds a path whenever a route from the start to the target exists. */
  lemma GetPathComplete(m: Map, start: Tile, target: Tile, p: seq<Tile>)
    requires Searchable(m, start) && !Same(start, target) && Route(m, start, target, p)
    ensures GetPath(m, start, target).Some?
  {
    var open := ExpandAll([], [], NewPathTile(None, start, 0), AdjacentTiles(m, start.x, start.y), target);
    FirstExpansion(m, start, target);
    RouteStartsOpen(m, start, target, p);
    SearchComplete(m, start, target, open, [], p);
    assert !TileEquals(start, TileObj(target)) && open != [];
  }

  /** For distinct start and target, `getPath` returns a path exactly when a route exists. */
  lemma GetPathFindsIffRoute(m: Map, start: Tile, target: Tile)
    requires Searchable(m, start) && !Same(start, target)
    ensures GetPath(m, start, target).Some? <==> exists p :: Route(m, start, target, p)
  {
    var r := GetPath(m, start, target);
    if r.Some? {
      assert Route(m, start, target, r.value);
    }
    if exists p :: Route(m, start, target, p) {
      var p :| Route(m, start, target, p);
      GetPathComplete(m, start, target, p);
    }
  }

  /** A chain of 4-neighbour steps covers at most one unit of Manhattan distance per step. */
  lemma {:induction false} StepsBound(s: seq<Tile>, j: nat)
    requires j < |s|
    requires forall k :: 0 <= k < |s| - 1 ==> Adjacent4(s[k], s[k + 1])
    ensures Manhattan(s[j], s[0]) <= j
  {
    if j > 0 {
      StepsBound(s, j - 1);
      assert Adjacent4(s[j - 1], s[j]);
    }
  }

  /** A route never has fewer entries than the Manhattan distance from the start to the target. */
  lemma RouteAtLeastDistance(m: Map, start: Tile, target: Tile, p: seq<Tile>)
    requires Route(m, start, target, p)
    ensures |p| >= Manhattan(target, start)
  {
    var s := p + [start];
    assert forall k :: 0 <= k < |s| - 1 ==> Adjacent4(s[k], s[k + 1]);
    StepsBound(s, |p|);
  }
}

=== FILE: placement.dfy ===
/**
 * Placing things on a finished level: `getRandomTile`, which samples walkable tiles (with a
 * guaranteed route to a given tile), and `addEnemies` / `addPowerUps`, which decide how many
 * enemies and power-ups of each kind a level gets and where they start.
 */
module Placement {
  import opened Wrappers
  import opened Numeric
  import opened Tiles
  import opened Grid
  import opened PathFinding
  import opened PowerUps

  const MAX_ENEMIES: int := 4
  const MAX_POWER_UPS: int := 5
  const MIN_STARTING_DISTANCE_FROM_PLAYER: int := 10
  const HEAL_AMOUNT: int := 50

  /** A finished map `getRandomTile` can sample: complete and at least 2 by 2. */
  ghost predicate Sampleable(m: Map) {
    m.Complete() && m.width >= 2 && m.height >= 2
  }

  /**
   * An acceptable sample: a walkable map tile outside the last column and row and, with a
   * target, one from which `getPath` reaches the target in at least `minDistance` tiles.
   */
  ghost predicate Placed(m: Map, t: Tile, target: Option<Tile>, minDistance: int) {
    Sampleable(m) && m.Holds(t) && !t.isWall && t.x <= m.width - 2 && t.y <= m.height - 2
    && (target.Some? ==> GetPath(m, t, target.value).Some? && |GetPath(m, t, target.value).value| >= minDistance)
  }

  /** `(int)(r * (n - 1))` for a draw r in [0, 1) lies in [0, n - 2]. */
  lemma ScaledDraw(r: real, n: int)
    requires 0.0 <= r < 1.0 && n >= 2
    ensures 0 <= Trunc(r * (n - 1) as real) <= n - 2
  {
    var k := (n - 1) as real;
    assert r * k < k by {
      assert (1.0 - r) * k > 0.0;
    }
  }

  /** Whether a sampled tile is kept: walkable, and with a target, reaching it in `minDistance` tiles or more. */
  function Keep(m: Map, t: Tile, target: Option<Tile>, minDistance: int): (ok: bool)
    requires Sampleable(m) && m.Holds(t) && t.x <= m.width - 2 && t.y <= m.height - 2
    ensures ok <==> Placed(m, t, target, minDistance)
  {
    !t.isWall && (target.None? || (GetPath(m, t, target.value).Some? && |GetPath(m, t, target.value).value| >= minDistance))
  }

  /** The tile that one attempt samples from two draws. */
  function Sample(m: Map, r1: real, r2: real): (t: Tile)
    requires Sampleable(m) && 0.0 <= r1 < 1.0 && 0.0 <= r2 < 1.0
    ensures m.Holds(t) && t.x <= m.width - 2 && t.y <= m.height - 2
  {
    ScaledDraw(r1, m.width);
    ScaledDraw(r2, m.height);
    m.TileAt(Trunc(r1 * (m.width - 1) as real), Trunc(r2 * (m.height - 1) as real)).value
  }

  /**
   * `getRandomTile(target, minDistance)`: two draws per attempt pick a column and a row;
   * the attempt is kept when the tile is walkable and, with a target, has a long enough
   * path to it. Returns the tile and the draws left, or `None` when the draws run out.
   */
  function RandomTile(m: Map, target: Option<Tile>, minDistance: int, draws: seq<real>): (r: Option<(Tile, seq<real>)>)
    requires Sampleable(m) && UnitDraws(draws)
    ensures r.Some? ==> Placed(m, r.value.0, target, minDistance)
    ensures r.Some? ==> |r.value.1| < |draws| && UnitDraws(r.value.1)
    decreases |draws|
  {
    if |draws| < 2 then None
    else
      var t := Sample(m, draws[0], draws[1]);
      if Keep(m, t, target, minDistance) then Some((t, draws[2..]))
      else RandomTile(m, target, minDistance, draws[2..])
  }

  /** Every tile in `ts` is an acceptable sample for `target`, checked from the last one back. */
  ghost predicate AllPlaced(m: Map, ts: seq<Tile>, target: Tile)
    decreases |ts|
  {
    ts == [] || (AllPlaced(m, ts[..|ts| - 1], target)
                 && Placed(m, ts[|ts| - 1], Some(target), MIN_STARTING_DISTANCE_FROM_PLAYER))
  }

  lemma AllPlacedAppend(m: Map, ts: seq<Tile>, t: Tile, target: Tile)
    requires AllPlaced(m, ts, target) && Placed(m, t, Some(target), MIN_STARTING_DISTANCE_FROM_PLAYER)
    ensures AllPlaced(m, ts + [t], target)
  {
    assert (ts + [t])[..|ts|] == ts;
  }

  /** `AllPlaced` speaks about every entry. */
  lemma {:induction false} AllPlacedAt(m: Map, ts: seq<Tile>, target: Tile, k: nat)
    requires AllPlaced(m, ts, target) && k < |ts|
    ensures Placed(m, ts[k], Some(target), MIN_STARTING_DISTANCE_FROM_PLAYER)
    decreases |ts|
  {
    if k < |ts| - 1 {
      AllPlacedAt(m, ts[..|ts| - 1], target, k);
    }
  }

  /** Sample one more start tile for `addEnemies` / `addPowerUps`, extending a list of placed ones. */
  method PlaceNext(m: Map, player: Tile, placed: seq<Tile>, draws: seq<real>) returns (r: Option<(Tile, seq<real>)>)
    requires Sampleable(m) && UnitDraws(draws) && AllPlaced(m, placed, player)
    ensures r.Some? ==> AllPlaced(m, placed + [r.value.0], player) && UnitDraws(r.value.1)
  {
    r := RandomTile(m, Some(player), MIN_STARTING_DISTANCE_FROM_PLAYER, draws);
    if r.Some? {
      AllPlacedAppend(m, placed, r.value.0, player);
    }
  }

  /** A tile placed at least one step from the target is elsewhere, and its route is no shorter than the Manhattan distance. */
  lemma PlacedAwayFromTarget(m: Map, t: Tile, target: Tile, minDistance: int)
    requires Placed(m, t, Some(target), minDistance) && minDistance >= 1
    ensures !Same(t, target)
    ensures |GetPath(m, t, target).value| >= Manhattan(target, t)
  {
    RouteAtLeastDistance(m, t, target, GetPath(m, t, target).value);
  }

  /** The enemy classes `addEnemies` creates. */
  datatype EnemyClass = SimpleEnemy | SearchEnemy | RandomEnemy

  /** The start tiles of a list of placed enemies. */
  function StartTiles(es: seq<(EnemyClass, Tile)>): (ts: seq<Tile>)
    ensures |ts| == |es| && forall k :: 0 <= k < |es| ==> ts[k] == es[k].1
  {
    seq(|es|, k requires 0 <= k < |es| => es[k].1)
  }

  /** The classes of a list of placed enemies. */
  function Classes(es: seq<(EnemyClass, Tile)>): (cs: seq<EnemyClass>)
    ensures |cs| == |es| && forall k :: 0 <= k < |es| ==> cs[k] == es[k].0
  {
    seq(|es|, k requires 0 <= k < |es| => es[k].0)
  }

  /** Pairs each enemy class with its start tile. */
  function Zip(cs: seq<EnemyClass>, ts: seq<Tile>): (es: seq<(EnemyClass, Tile)>)
    requires |cs| == |ts|
    ensures Classes(es) == cs && StartTiles(es) == ts
  {
    seq(|cs|, k requires 0 <= k < |cs| => (cs[k], ts[k]))
  }

  /** One simple and one search enemy, then `numRandom` random ones. */
  function EnemyOrder(numRandom: nat): (s: seq<EnemyClass>)
    ensures |s| == 2 + numRandom && s[0] == SimpleEnemy && s[1] == SearchEnemy
    ensures forall k :: 2 <= k < |s| ==> s[k] == RandomEnemy
  {
    [SimpleEnemy, SearchEnemy] + seq(numRandom, _ => RandomEnemy)
  }

  /** The number of random enemies: one below HARD_DIFFICULTY, two from it on. */
  function NumRandom(difficulty: real): (n: nat)
    ensures n == 1 || n == 2
    ensures n == 2 <==> difficulty >= HARD_DIFFICULTY
  {
    if difficulty < HARD_DIFFICULTY then 1 else 2
  }

  /** The class of the next enemy and the counts left: simple ones first, then search, then random. */
  method NextEnemy(numSimple: int, numSearch: int, numRandom: int)
    returns (made: Option<EnemyClass>, simple: int, search: int, random: int)
    ensures numSimple > 0 ==> made == Some(SimpleEnemy) && (simple, search, random) == (numSimple - 1, numSearch, numRandom)
    ensures numSimple <= 0 && numSearch > 0 ==>
      made == Some(SearchEnemy) && (simple, search, random) == (numSimple, numSearch - 1, numRandom)
    ensures numSimple <= 0 && numSearch <= 0 && numRandom > 0 ==>
      made == Some(RandomEnemy) && (simple, search, random) == (numSimple, numSearch, numRandom - 1)
    ensures numSimple <= 0 && numSearch <= 0 && numRandom <= 0 ==>
      made.None? && (simple, search, random) == (numSimple, numSearch, numRandom)
  {
    simple, search, random := numSimple, numSearch, numRandom;
    if numSimple > 0 {
      made := Some(SimpleEnemy);
      simple := numSimple - 1;
    } else if numSearch > 0 {
      made := Some(SearchEnemy);
      search := numSearch - 1;
    } else if numRandom > 0 {
      made := Some(RandomEnemy);
      random := numRandom - 1;
    } else {
      made := None;
    }
  }

  /**
   * The start tiles of `n` new entities: one `getRandomTile(player, MIN_STARTING_DISTANCE_FROM_PLAYER)`
   * call each, in order, threading the draws.
   */
  method PlaceAll(m: Map, player: Tile, n: nat, draws: seq<real>) returns (r: Option<seq<Tile>>)
    requires Sampleable(m) && UnitDraws(draws)
    ensures r.Some? ==> |r.value| == n && AllPlaced(m, r.value, player)
  {
    var ds := draws;
    var tiles: seq<Tile> := [];
    while |tiles| < n
      invariant |tiles| <= n && UnitDraws(ds) && AllPlaced(m, tiles, player)
      decreases n - |tiles|
    {
      var t := PlaceNext(m, player, tiles, ds);
      if t.None? {
        return None;
      }
      ds := t.value.1;
      tiles := tiles + [t.value.0];
    }
    return Some(tiles);
  }

  /**
   * The classes `addEnemies` hands out over its loop: simple ones first, then search,
   * then random, one per iteration while `i < total && i < MAX_ENEMIES`.
   */
  method EnemyClasses(difficulty: real) returns (classes: seq<EnemyClass>)
    ensures classes == EnemyOrder(NumRandom(difficulty)) && |classes| <= MAX_ENEMIES
  {
    var numSimple := 1;
    var numSearch := 1;
    var numRandom := NumRandom(difficulty);
    var total := numSimple + numSearch + numRandom;
    var order := EnemyOrder(numRandom);
    classes := [];
    var i := 0;
    while i < total && i < MAX_ENEMIES
      invariant 0 <= i <= total && |classes| == i
      invariant numSimple == (if i == 0 then 1 else 0)
      invariant numSearch == (if i <= 1 then 1 else 0)
      invariant numRandom == (if i <= 2 then NumRandom(difficulty) else NumRandom(difficulty) + 2 - i)
      invariant classes == order[..i]
      decreases total - i
    {
      var made;
      made, numSimple, numSearch, numRandom := NextEnemy(numSimple, numSearch, numRandom);
      if made.None? {
        // The later revision breaks out here; the counts cover `total`, so this is unreachable.
        assert false;
      }
      assert order[..i + 1] == order[..i] + [order[i]];
      classes := classes + [made.value];
      i := i + 1;
    }
    assert classes == order;
  }

  /**
   * `addEnemies(player)`: one simple enemy, one search enemy and one or two random ones
   * (by difficulty), each on its own random tile with a route of at least
   * MIN_STARTING_DISTANCE_FROM_PLAYER tiles to the player. The class handed out in an
   * iteration does not depend on the draws, so classes and tiles are computed apart.
   */
  method AddEnemies(m: Map, difficulty: real, player: Tile, draws: seq<real>)
    returns (r: Option<seq<(EnemyClass, Tile)>>)
    requires Sampleable(m) && UnitDraws(draws)
    ensures r.Some? ==> |r.value| == 2 + NumRandom(difficulty) && |r.value| <= MAX_ENEMIES
    ensures r.Some? ==> Classes(r.value) == EnemyOrder(NumRandom(difficulty))
    ensures r.Some? ==> AllPlaced(m, StartTiles(r.value), player)
  {
    var classes := EnemyClasses(difficulty);
    var tiles := PlaceAll(m, player, |classes|, draws);
    if tiles.None? {
      return None;
    }
    return Some(Zip(classes, tiles.value));
  }

  /** The positions of a list of power-ups. */
  function Positions(ps: seq<PowerUp>): (ts: seq<Tile>)
    ensures |ts| == |ps| && forall k :: 0 <= k < |ps| ==> ts[k] == ps[k].position
  {
    seq(|ps|, k requires 0 <= k < |ps| => ps[k].position)
  }

  /** The kinds of a list of power-ups. */
  function KindsOf(ps: seq<PowerUp>): (ks: seq<Kind>)
    ensures |ks| == |ps| && forall k :: 0 <= k < |ps| ==> ks[k] == ps[k].kind
  {
    seq(|ps|, k requires 0 <= k < |ps| => ps[k].kind)
  }

  /** New power-ups of the given kinds on the given tiles. */
  function Build(ks: seq<Kind>, ts: seq<Tile>): (ps: seq<PowerUp>)
    requires |ks| == |ts|
    ensures KindsOf(ps) == ks && Positions(ps) == ts
    ensures forall k :: 0 <= k < |ps| ==> !ps[k].destroyed
  {
    seq(|ks|, k requires 0 <= k < |ks| => NewPowerUp(ks[k], ts[k]))
  }

  /** The power-up kinds in creation order: `numHealth` health power-ups, then `numSpeed` speed ones. */
  function PowerUpOrder(numHealth: nat, numSpeed: nat): (s: seq<Kind>)
    ensures |s| == numHealth + numSpeed
    ensures forall k :: 0 <= k < numHealth ==> s[k] == Health(HEAL_AMOUNT)
    ensures forall k :: numHealth <= k < |s| ==> s[k] == Speed
  {
    seq(numHealth, _ => Health(HEAL_AMOUNT)) + seq(numSpeed, _ => Speed)
  }

  /**
   * The kinds `addPowerUps` hands out: one health and one speed power-up below
   * HARD_DIFFICULTY; from it on each count gains `(int)(Math.random() * 2)`, which uses two
   * draws. Health power-ups come first; the loop stops at MAX_POWER_UPS or when both counts
   * are used up. Returns the kinds and the draws left.
   */
  method PowerUpKinds(difficulty: real, draws: seq<real>) returns (r: Option<(seq<Kind>, seq<real>)>)
    requires UnitDraws(draws)
    ensures r.Some? ==> UnitDraws(r.value.1)
    ensures r.Some? ==> exists nh: nat, ns: nat ::
      1 <= nh <= 2 && 1 <= ns <= 2 && (difficulty < HARD_DIFFICULTY ==> nh == 1 && ns == 1)
      && r.value.0 == PowerUpOrder(nh, ns)
    ensures difficulty < HARD_DIFFICULTY ==> r == Some(([Health(HEAL_AMOUNT), Speed], draws))
  {
    var ds := draws;
    var numHealth := 1;
    var numSpeed := 1;
    if difficulty >= HARD_DIFFICULTY {
      if |ds| < 2 {
        return None;
      }
      ScaledDraw(ds[0], 3);
      ScaledDraw(ds[1], 3);
      numHealth := numHealth + Trunc(ds[0] * 2.0);
      numSpeed := numSpeed + Trunc(ds[1] * 2.0);
      ds := ds[2..];
    }
    var nh: nat, ns: nat := numHealth, numSpeed;
    var total := numHealth + numSpeed;
    var order := PowerUpOrder(nh, ns);
    var kinds: seq<Kind> := [];
    var i := 0;
    while i < total && i < MAX_POWER_UPS
      invariant 0 <= i <= total && |kinds| == i
      invariant numHealth == (if i <= nh then nh - i else 0)
      invariant numSpeed == (if i <= nh then ns else ns + nh - i)
      invariant kinds == order[..i]
      decreases total - i
    {
      var made: Option<Kind>;
      if numHealth > 0 {
        made := Some(Health(HEAL_AMOUNT));
        numHealth := numHealth - 1;
      } else if numSpeed > 0 {
        made := Some(Speed);
        numSpeed := numSpeed - 1;
      } else {
        made := None;
      }
      if made.None? {
        // Both revisions break out here; the counts cover `total`, so this is unreachable.
        assert false;
      }
      assert order[..i + 1] == order[..i] + [order[i]];
      kinds := kinds + [made.value];
      i := i + 1;
    }
    assert kinds == order;
    if difficulty < HARD_DIFFICULTY {
      assert order == [Health(HEAL_AMOUNT), Speed];
    }
    return Some((kinds, ds));
  }

  /**
   * `addPowerUps(playerPosition)`: the kinds above, each on its own random tile with a route
   * of at least MIN_STARTING_DISTANCE_FROM_PLAYER tiles to the player, never destroyed and
   * never more than MAX_POWER_UPS.
   */
  method AddPowerUps(m: Map, difficulty: real, player: Tile, draws: seq<real>)
    returns (r: Option<seq<PowerUp>>)
    requires Sampleable(m) && UnitDraws(draws)
    ensures r.Some? ==> exists nh: nat, ns: nat ::
      1 <= nh <= 2 && 1 <= ns <= 2 && (difficulty < HARD_DIFFICULTY ==> nh == 1 && ns == 1)
      && KindsOf(r.value) == PowerUpOrder(nh, ns)
    ensures r.Some? ==> |r.value| <= 4 < MAX_POWER_UPS
    ensures r.Some? ==> forall k :: 0 <= k < |r.value| ==> !r.value[k].destroyed
    ensures r.Some? ==> AllPlaced(m, Positions(r.value), player)
  {
    var kinds := PowerUpKinds(difficulty, draws);
    if kinds.None? {
      return None;
    }
    ghost var nh: nat, ns: nat :| 1 <= nh <= 2 && 1 <= ns <= 2
      && (difficulty < HARD_DIFFICULTY ==> nh == 1 && ns == 1)
      && kinds.value.0 == PowerUpOrder(nh, ns);
    var tiles := PlaceAll(m, player, |kinds.value.0|, kinds.value.1);
    if tiles.None? {
      return None;
    }
    var ps := Build(kinds.value.0, tiles.value);
    assert KindsOf(ps) == PowerUpOrder(nh, ns) && |ps| == nh + ns;
    return Some(ps);
  }
}

=== FILE: player.dfy ===
/**
 * The player: a list of held keys (kept in press order, without duplicates), a movement
 * choice made from the most recently pressed movement key whenever the player is at rest,
 * and a rate-limited fire rule that launches a projectile while the space bar is held.
 */
module Players {
  import opened Wrappers
  import opened Tiles
  import opened Grid
  import opened Actors
  import opened Projectiles

  const DEFAULT_SHOOT_INTERVAL: int := 1000
  const NUM_FRAMES: int := 3
  const FPS: int := 15
  const FIRE_KEY: char := ' '

  /** The player's actor state, held keys, shooting interval and time of the last shot. */
  datatype Player = Player(actor: Actor, keys: seq<char>, shootInterval: int, lastProjectileTime: int)

  /** The constructor: the given health, no keys, the default interval, never fired. */
  function NewPlayer(position: Option<Tile>, level: Option<Level>, health: int): (p: Player)
    ensures p.keys == [] && p.shootInterval == DEFAULT_SHOOT_INTERVAL && p.lastProjectileTime == 0
    ensures p.actor.health == health && p.actor.position == position && p.actor.level == level
    ensures p.actor.fps == FPS && p.actor.numFrames == NUM_FRAMES && !p.actor.Moving()
    ensures p.actor.xDefaultFrame == 1 && p.actor.yDefaultFrame == -1
  {
    var a := NewActor(position, level, NUM_FRAMES, FPS);
    Player(a.(health := health, xDefaultFrame := 1, yDefaultFrame := -1), [], DEFAULT_SHOOT_INTERVAL, 0)
  }

  /** `Character.toLowerCase`, for the ASCII letters. */
  function ToLower(c: char): (r: char)
    ensures 'A' <= c <= 'Z' ==> 'a' <= r <= 'z' && r as int - c as int == 32
    ensures !('A' <= c <= 'Z') ==> r == c
  {
    if 'A' <= c <= 'Z' then (c as int + 32) as char else c
  }

  /** No key appears twice. */
  predicate Distinct(keys: seq<char>) {
    forall i, j :: 0 <= i < j < |keys| ==> keys[i] != keys[j]
  }

  /** `keyPressed`: the lower-cased key is appended unless it is already held. */
  function KeyPressed(p: Player, c: char): (r: Player)
    ensures ToLower(c) in r.keys
    ensures ToLower(c) in p.keys ==> r == p
    ensures ToLower(c) !in p.keys ==> r == p.(keys := p.keys + [ToLower(c)])
    ensures Distinct(p.keys) ==> Distinct(r.keys)
  {
    var k := ToLower(c);
    if k in p.keys then p else p.(keys := p.keys + [k])
  }

  /** The position of the first occurrence of `c` in `keys` (`indexOf`). */
  function IndexOf(keys: seq<char>, c: char): (i: nat)
    requires c in keys
    ensures i < |keys| && keys[i] == c && c !in keys[..i]
  {
    if keys[0] == c then 0 else 1 + IndexOf(keys[1..], c)
  }

  /** `keyReleased`: the lower-cased key is removed if held; the others keep their order. */
  function KeyReleased(p: Player, c: char): (r: Player)
    ensures ToLower(c) !in p.keys ==> r == p
    ensures ToLower(c) in p.keys ==>
      var i := IndexOf(p.keys, ToLower(c));
      r == p.(keys := p.keys[..i] + p.keys[i + 1..])
    ensures Distinct(p.keys) ==> Distinct(r.keys) && ToLower(c) !in r.keys
    ensures |r.keys| == |p.keys| || |r.keys| == |p.keys| - 1
    ensures forall k :: k in r.keys ==> k in p.keys
  {
    var k := ToLower(c);
    if k in p.keys then
      var i := IndexOf(p.keys, k);
      p.(keys := p.keys[..i] + p.keys[i + 1..])
    else p
  }

  /** Pressing then releasing a key that was not held restores the key list. */
  lemma PressReleaseRestores(p: Player, c: char)
    requires ToLower(c) !in p.keys
    ensures KeyReleased(KeyPressed(p, c), c) == p
  {
    var k := ToLower(c);
    var ks := p.keys + [k];
    assert ks[|p.keys|] == k;
    assert ks[..|p.keys|] == p.keys;
  }

  predicate IsMoveKey(c: char) {
    c == 'a' || c == 'd' || c == 'w' || c == 's'
  }

  /** The most recently pressed movement key: the last of a/d/w/s in the key list. */
  function LastMoveKey(keys: seq<char>): (r: Option<char>)
    ensures r.None? <==> forall i :: 0 <= i < |keys| ==> !IsMoveKey(keys[i])
    ensures r.Some? ==> IsMoveKey(r.value)
    ensures r.Some? ==> exists i :: 0 <= i < |keys| && keys[i] == r.value && forall j :: i < j < |keys| ==> !IsMoveKey(keys[j])
    decreases |keys|
  {
    if keys == [] then None
    else if IsMoveKey(keys[|keys| - 1]) then Some(keys[|keys| - 1])
    else
      var r := LastMoveKey(keys[..|keys| - 1]);
      assert forall i :: 0 <= i < |keys| - 1 ==> keys[..|keys| - 1][i] == keys[i];
      r
  }

  /** The neighbour a movement key points at: a left, d right, w up, s down. */
  function KeyTarget(m: Map, pos: Tile, c: char): (t: Option<Tile>)
    requires m.Valid() && IsMoveKey(c)
    ensures c == 'a' ==> t == GetLeft(m, Some(pos))
    ensures c == 'd' ==> t == GetRight(m, Some(pos))
    ensures c == 'w' ==> t == GetUp(m, Some(pos))
    ensures c == 's' ==> t == GetDown(m, Some(pos))
  {
    match c
    case 'a' => GetLeft(m, Some(pos))
    case 'd' => GetRight(m, Some(pos))
    case 'w' => GetUp(m, Some(pos))
    case _ => GetDown(m, Some(pos))
  }

  /** Where a shot starts: the target when it is a walkable tile, the position otherwise. */
  function FireSource(a: Actor): (t: Tile)
    requires a.position.Some?
    ensures t == a.position.value || (a.target.Some? && t == a.target.value && !t.isWall)
  {
    if a.target.Some? && !a.target.value.isWall then a.target.value else a.position.value
  }

  /** The tile a shot heads for: the neighbour of the source in the flagged direction, if any. */
  function FireDirection(a: Actor, m: Map): (t: Option<Tile>)
    requires a.position.Some? && m.Valid()
    ensures !a.moveLeft && !a.moveRight && !a.moveUp && !a.moveDown ==> t.None?
    ensures a.moveLeft ==> t == GetLeft(m, Some(FireSource(a)))
    ensures !a.moveLeft && a.moveRight ==> t == GetRight(m, Some(FireSource(a)))
    ensures !a.moveLeft && !a.moveRight && a.moveUp ==> t == GetUp(m, Some(FireSource(a)))
    ensures !a.moveLeft && !a.moveRight && !a.moveUp && a.moveDown ==> t == GetDown(m, Some(FireSource(a)))
    ensures t.Some? ==> m.Holds(t.value) && Adjacent4(FireSource(a), t.value)
  {
    var src := Some(FireSource(a));
    if a.moveLeft then GetLeft(m, src)
    else if a.moveRight then GetRight(m, src)
    else if a.moveUp then GetUp(m, src)
    else if a.moveDown then GetDown(m, src)
    else None
  }

  /** Whether a shot goes off at `now`. */
  predicate Fires(p: Player, m: Map, now: int)
    requires p.actor.position.Some? && m.Valid()
  {
    FIRE_KEY in p.keys
    && FireDirection(p.actor, m).Some? && !FireDirection(p.actor, m).value.isWall
    && now - p.lastProjectileTime > p.shootInterval
  }

  /** A player's level, when present, holds a well-formed map, and its frame rate is non-zero. */
  ghost predicate Ready(p: Player) {
    (p.actor.level.Some? ==> p.actor.level.value.grid.Valid()) && p.actor.fps != 0
  }

  /** The fire rule on its own: the player and projectile list after a possible shot. */
  function Fire(p: Player, m: Map, projectiles: seq<Projectile>, now: int): (r: (Player, seq<Projectile>))
    requires p.actor.position.Some? && m.Valid()
    ensures r.0 == p.(lastProjectileTime := r.0.lastProjectileTime)
    ensures Fires(p, m, now) ==>
      r.0.lastProjectileTime == now
      && r.1 == projectiles + [NewProjectile(Some(FireSource(p.actor)), FireDirection(p.actor, m), p.actor.level)]
    ensures !Fires(p, m, now) ==> r.0 == p && r.1 == projectiles
  {
    if Fires(p, m, now) then
      (p.(lastProjectileTime := now),
       projectiles + [NewProjectile(Some(FireSource(p.actor)), FireDirection(p.actor, m), p.actor.level)])
    else (p, projectiles)
  }

  /** The target an idle player steers to: the most recent movement key's neighbour, else the current target. */
  function Chosen(a: Actor, m: Map, keys: seq<char>): (t: Option<Tile>)
    requires a.position.Some? && m.Valid()
    ensures LastMoveKey(keys).None? ==> t == a.target
    ensures LastMoveKey(keys).Some? ==> t == KeyTarget(m, a.position.value, LastMoveKey(keys).value)
  {
    match LastMoveKey(keys)
    case Some(c) => KeyTarget(m, a.position.value, c)
    case None => a.target
  }

  /**
   * `update`: without a level or position nothing happens. Otherwise a projectile may be
   * fired, and when at rest the most recent movement key picks the target and
   * `moveToTarget` runs; the animation then advances.
   */
  function Update(p: Player, projectiles: seq<Projectile>, now: int): (r: (Player, seq<Projectile>))
    requires Ready(p)
    ensures p.actor.level.None? || p.actor.position.None? ==> r == (p, projectiles)
    ensures Ready(r.0) && r.0.keys == p.keys && r.0.shootInterval == p.shootInterval
    ensures r.0.actor.level == p.actor.level && r.0.actor.position == p.actor.position
    ensures p.actor.level.Some? && p.actor.position.Some? ==>
      var m := p.actor.level.value.grid;
      if Fires(p, m, now) then
        r.0.lastProjectileTime == now
        && r.1 == projectiles + [NewProjectile(Some(FireSource(p.actor)), FireDirection(p.actor, m), p.actor.level)]
      else r.0.lastProjectileTime == p.lastProjectileTime && r.1 == projectiles
    ensures !p.actor.transitionComplete ==> r.0.actor.target == p.actor.target && r.0.actor.Moving() == p.actor.Moving()
    ensures p.actor.level.Some? && p.actor.position.Some? && p.actor.transitionComplete ==>
      var chosen := Chosen(p.actor, p.actor.level.value.grid, p.keys);
      (r.0.actor.Moving() <==> Accepts(p.actor.position, chosen))
      && (Accepts(p.actor.position, chosen) ==> r.0.actor.target == chosen)
      && (!Accepts(p.actor.position, chosen) ==> r.0.actor.target.None?)
  {
    var a := p.actor;
    if a.level.None? || a.position.None? then (p, projectiles)
    else
      var m := a.level.value.grid;
      var fired := Fire(p, m, projectiles, now);
      var steered := if a.transitionComplete then MoveToTarget(a.(target := Chosen(a, m, p.keys))).0 else a;
      (fired.0.(actor := UpdateAnimation(steered, now)), fired.1)
  }

  /**
   * Shots are rate-limited: after a shot at `t1`, an update at `t2` within the shooting
   * interval fires nothing.
   */
  lemma FireRateLimited(p: Player, projectiles: seq<Projectile>, t1: int, t2: int)
    requires Ready(p) && p.actor.level.Some? && p.actor.position.Some?
    requires Fires(p, p.actor.level.value.grid, t1) && t2 - t1 <= p.shootInterval
    ensures var r1 := Update(p, projectiles, t1);
      Update(r1.0, r1.1, t2).1 == r1.1 && Update(r1.0, r1.1, t2).0.lastProjectileTime == t1
  {
  }

  /**
   * At rest, holding a movement key whose neighbour is missing or a wall leaves the player
   * with no target and not moving; keys other than a/d/w/s never steer.
   */
  lemma BlockedKeyStops(p: Player, projectiles: seq<Projectile>, now: int)
    requires Ready(p) && p.actor.level.Some? && p.actor.position.Some? && p.actor.transitionComplete
    requires LastMoveKey(p.keys).Some?
    requires var t := KeyTarget(p.actor.level.value.grid, p.actor.position.value, LastMoveKey(p.keys).value);
      t.None? || t.value.isWall
    ensures var r := Update(p, projectiles, now).0;
      r.actor.target.None? && !r.actor.Moving()
  {
  }

  /** `reset`: the actor reset plus an empty key list. */
  function Reset(p: Player, level: Option<Level>, position: Option<Tile>): (r: Player)
    ensures r.keys == [] && r.actor == Actors.Reset(p.actor, level, position)
    ensures r.shootInterval == p.shootInterval && r.lastProjectileTime == p.lastProjectileTime
  {
    Player(Actors.Reset(p.actor, level, position), [], p.shootInterval, p.lastProjectileTime)
  }
}

=== FILE: powerups.dfy ===
/**
 * Power-ups: a health pick-up that heals the player by a fixed amount (capped) and a speed
 * pick-up that starts a 2000 ms speed-bonus window. Only the player can use them; using
 * one marks it destroyed. Both revisions of the speed power-up behave the same.
 */
module PowerUps {
  import opened Numeric
  import opened Tiles
  import opened Actors

  const SPEED_POWER_UP_DURATION: int := 2000

  /** The two subclasses: a health power-up carries its heal amount. */
  datatype Kind = Health(healAmount: int) | Speed

  /** A power-up: what it does, where it lies, and whether it has been used up. */
  datatype PowerUp = PowerUp(kind: Kind, position: Tile, destroyed: bool)

  /** The constructor: placed at `position`, not destroyed. */
  function NewPowerUp(kind: Kind, position: Tile): (p: PowerUp)
    ensures !p.destroyed && p.position == position && p.kind == kind
  {
    PowerUp(kind, position, false)
  }

  /**
   * `doPowerUp(actor)`: on a player (`isPlayer`, Java's `instanceof Player`) a health
   * power-up adds its heal amount up to MAX_HEALTH and a speed power-up starts a new bonus
   * window at `now`; either is then destroyed. On any other actor nothing changes.
   */
  function DoPowerUp(p: PowerUp, a: Actor, isPlayer: bool, now: int): (r: (PowerUp, Actor))
    ensures r.0.kind == p.kind && r.0.position == p.position
    ensures !isPlayer ==> r == (p, a)
    ensures isPlayer ==> r.0.destroyed
    ensures isPlayer && p.kind.Health? ==>
      r.1 == a.(health := r.1.health)
      && r.1.health == (if a.health + p.kind.healAmount > MAX_HEALTH then MAX_HEALTH else a.health + p.kind.healAmount)
    ensures isPlayer && p.kind.Speed? ==>
      r.1 == a.(speedBonusStart := now, speedBonusDuration := SPEED_POWER_UP_DURATION)
  {
    if !isPlayer then (p, a)
    else
      var used := p.(destroyed := true);
      match p.kind
      case Health(amount) => (used, AddHealth(a, amount))
      case Speed => (used, AddSpeedBonus(a, SPEED_POWER_UP_DURATION, now))
  }

  /**
   * `doPowerUp` does not look at `destroyed`: using a health power-up twice heals twice,
   * still capped at MAX_HEALTH.
   */
  lemma HealTwiceCapped(p: PowerUp, a: Actor, now: int)
    requires p.kind.Health? && p.kind.healAmount >= 0 && a.health <= MAX_HEALTH
    ensures var once := DoPowerUp(p, a, true, now);
      var twice := DoPowerUp(once.0, once.1, true, now);
      twice.1.health == Min(a.health + 2 * p.kind.healAmount, MAX_HEALTH)
  {
  }

  /** Using a speed power-up again restarts the window instead of lengthening it. */
  lemma SpeedDoesNotStack(p: PowerUp, a: Actor, t1: int, t2: int)
    requires p.kind.Speed?
    ensures var once := DoPowerUp(p, a, true, t1);
      var twice := DoPowerUp(once.0, once.1, true, t2);
      twice.1.speedBonusStart == t2 && twice.1.speedBonusDuration == SPEED_POWER_UP_DURATION
      && twice.1 == DoPowerUp(p, a, true, t2).1
  {
  }
}

=== FILE: projectile.dfy ===
/**
 * Projectiles: an actor launched towards a neighbouring tile that keeps travelling in the
 * same direction after each completed transition and asks to be destroyed as soon as the
 * next tile is missing or a wall. Both revisions of `Projectile` share this model.
 */
module Projectiles {
  import opened Wrappers
  import opened Tiles
  import opened Grid
  import opened Actors

  const NUM_FRAMES: int := 3
  const DAMAGE_TO_ENEMY: int := 25
  const FPS: int := 50

  /** The projectile's actor state and its `destroyProjectile` flag. */
  datatype Projectile = Projectile(actor: Actor, destroyed: bool)

  /**
   * The constructor: no health, the given target, one `moveToTarget` attempt, speed 2 and
   * no default frames; it starts not destroyed.
   */
  function NewProjectile(position: Option<Tile>, target: Option<Tile>, level: Option<Level>): (p: Projectile)
    ensures !p.destroyed && p.actor.health == 0 && p.actor.speed == 2.0
    ensures p.actor.position == position && p.actor.level == level
    ensures p.actor.fps == FPS && p.actor.numFrames == NUM_FRAMES
    ensures p.actor.xDefaultFrame == -1 && p.actor.yDefaultFrame == -1
    ensures p.actor.Moving() <==> Accepts(position, target)
    ensures Accepts(position, target) ==> p.actor.target == target && p.actor.xMove == 0 && p.actor.yMove == 0
    ensures !Accepts(position, target) ==>
      p.actor.target.None? && p.actor.transitionComplete
      && !p.actor.moveLeft && !p.actor.moveRight && !p.actor.moveUp && !p.actor.moveDown
  {
    var a := NewActor(position, level, NUM_FRAMES, FPS).(health := 0, target := target);
    var moved := MoveToTarget(a).0;
    Projectile(moved.(speed := 2.0, xDefaultFrame := -1, yDefaultFrame := -1), false)
  }

  /** The next tile in the direction of the last move (left, right, up, down), or the current target. */
  function Continuation(a: Actor, m: Map): (t: Option<Tile>)
    requires m.Valid()
    ensures !a.moveLeft && !a.moveRight && !a.moveUp && !a.moveDown ==> t == a.target
    ensures a.moveLeft ==> t == GetLeft(m, a.position)
    ensures !a.moveLeft && a.moveRight ==> t == GetRight(m, a.position)
    ensures !a.moveLeft && !a.moveRight && a.moveUp ==> t == GetUp(m, a.position)
    ensures !a.moveLeft && !a.moveRight && !a.moveUp && a.moveDown ==> t == GetDown(m, a.position)
  {
    if a.moveLeft then GetLeft(m, a.position)
    else if a.moveRight then GetRight(m, a.position)
    else if a.moveUp then GetUp(m, a.position)
    else if a.moveDown then GetDown(m, a.position)
    else a.target
  }

  /** A projectile's level, when present, holds a well-formed map, and its frame rate is non-zero. */
  ghost predicate Ready(p: Projectile) {
    (p.actor.level.Some? ==> p.actor.level.value.grid.Valid()) && p.actor.fps != 0
  }

  /**
   * `update`: without a level or position nothing happens. Once the transition has completed
   * the next tile in the same direction becomes the target, and a rejected `moveToTarget`
   * raises the destroy flag. The frame counter is then updated.
   */
  function Update(p: Projectile, now: int): (r: Projectile)
    requires Ready(p)
    ensures p.actor.level.None? || p.actor.position.None? ==> r == p
    ensures p.destroyed ==> r.destroyed
    ensures Ready(r) && r.actor.level == p.actor.level && r.actor.position == p.actor.position
    ensures !p.actor.transitionComplete ==> r.destroyed == p.destroyed && r.actor.target == p.actor.target
    ensures p.actor.level.Some? && p.actor.position.Some? && p.actor.transitionComplete ==>
      var next := Continuation(p.actor, p.actor.level.value.grid);
      (r.destroyed <==> p.destroyed || !Accepts(p.actor.position, next))
      && (r.actor.Moving() <==> Accepts(p.actor.position, next))
      && (Accepts(p.actor.position, next) ==> r.actor.target == next)
  {
    var a := p.actor;
    if a.level.None? || a.position.None? then p
    else if a.transitionComplete then
      var moved := MoveToTarget(a.(target := Continuation(a, a.level.value.grid)));
      Projectile(UpdateAnimation(moved.0, now), p.destroyed || !moved.1)
    else Projectile(UpdateAnimation(a, now), p.destroyed)
  }

  /** `destroyProjectile`: raises the flag and touches nothing else. */
  function DestroyProjectile(p: Projectile): (r: Projectile)
    ensures r.destroyed && r.actor == p.actor
  {
    p.(destroyed := true)
  }

  /** The column and row offsets of the direction the projectile last moved in. */
  function Heading(a: Actor): (int, int) {
    if a.moveLeft then (-1, 0) else if a.moveRight then (1, 0)
    else if a.moveUp then (0, -1) else if a.moveDown then (0, 1) else (0, 0)
  }

  /**
   * A projectile that has completed a transition on a complete map goes on to the next
   * tile along its heading, and is destroyed exactly when that tile is off the map or a
   * wall.
   */
  lemma ContinuesStraight(p: Projectile, now: int)
    requires Ready(p) && p.actor.level.Some? && p.actor.level.value.grid.Complete()
    requires p.actor.position.Some? && p.actor.transitionComplete && Heading(p.actor) != (0, 0)
    requires p.actor.level.value.grid.InBounds(p.actor.position.value.x, p.actor.position.value.y)
    ensures var m := p.actor.level.value.grid;
      var pos := p.actor.position.value;
      var (i, j) := (pos.x + Heading(p.actor).0, pos.y + Heading(p.actor).1);
      var r := Update(p, now);
      (r.destroyed <==> p.destroyed || !m.InBounds(i, j) || m.cells[i][j] == Some(true))
      && (m.InBounds(i, j) && m.cells[i][j] == Some(false) ==>
            r.actor.Moving() && r.actor.target == Some(Tile(i, j, false)))
  {
    var m := p.actor.level.value.grid;
    var pos := p.actor.position.value;
    var (i, j) := (pos.x + Heading(p.actor).0, pos.y + Heading(p.actor).1);
    ContinuationAhead(p.actor, m);
    var next := Continuation(p.actor, m);
    assert Accepts(p.actor.position, next) <==> m.InBounds(i, j) && m.cells[i][j] == Some(false);
  }

  /**
   * On a complete map the continuation of an actor with a heading is the map tile one step
   * along that heading, or null off the map; a tile found there is beside the position.
   */
  lemma ContinuationAhead(a: Actor, m: Map)
    requires m.Complete() && a.position.Some? && Heading(a) != (0, 0)
    requires m.InBounds(a.position.value.x, a.position.value.y)
    ensures var (i, j) := (a.position.value.x + Heading(a).0, a.position.value.y + Heading(a).1);
      Continuation(a, m) == if m.InBounds(i, j) then Some(Tile(i, j, m.cells[i][j].value)) else None
    ensures Continuation(a, m).Some? ==> IsAdjacent(a.position.value, Continuation(a, m).value)
  {
    var pos := a.position.value;
    NeighbourLookupsOnCompleteMap(m, pos);
    var next := Continuation(a, m);
    if next.Some? {
      IsAdjacentMeaning(pos, next.value);
    }
  }

  /** A launch that `moveToTarget` rejects sets no heading, so the first update destroys it. */
  lemma RejectedLaunchDestroys(position: Tile, target: Option<Tile>, level: Level, now: int)
    requires level.grid.Valid() && !Accepts(Some(position), target)
    ensures Update(NewProjectile(Some(position), target, Some(level)), now).destroyed
  {
  }

  /** What can happen to a projectile: an update tick, a drawing tick (`doMove`) or an explicit destroy. */
  datatype Event = Tick(now: int) | Draw(dims: TileDims, now: int) | Destroy

  /** One event applied to a projectile. */
  function Apply(p: Projectile, e: Event): (r: Projectile)
    requires Ready(p)
    ensures Ready(r) && r.actor.level == p.actor.level
    ensures p.destroyed ==> r.destroyed
  {
    match e
    case Tick(now) => Update(p, now)
    case Draw(dims, now) =>
      DoMoveKeepsSettings(p.actor, dims, now);
      p.(actor := DoMove(p.actor, dims, now))
    case Destroy => DestroyProjectile(p)
  }

  /** A projectile after a sequence of events. */
  function Run(p: Projectile, evs: seq<Event>): (r: Projectile)
    requires Ready(p)
    ensures Ready(r) && r.actor.level == p.actor.level
    ensures p.destroyed ==> r.destroyed
    decreases |evs|
  {
    if evs == [] then p else Run(Apply(p, evs[0]), evs[1..])
  }

  /** Once destroyed, a projectile stays destroyed whatever happens after. */
  lemma {:induction false} DestroyedForever(p: Projectile, evs: seq<Event>, k: nat)
    requires Ready(p) && k <= |evs| && Run(p, evs[..k]).destroyed
    ensures Run(p, evs).destroyed
  {
    assert evs == evs[..k] + evs[k..];
    RunSplit(p, evs[..k], evs[k..]);
  }

  /** Running two event sequences one after the other is running their concatenation. */
  lemma {:induction false} RunSplit(p: Projectile, a: seq<Event>, b: seq<Event>)
    requires Ready(p)
    ensures Run(p, a + b) == Run(Run(p, a), b)
    decreases |a|
  {
    if a == [] {
      assert a + b == b;
    } else {
      assert (a + b)[0] == a[0];
      assert (a + b)[1..] == a[1..] + b;
      RunSplit(Apply(p, a[0]), a[1..], b);
    }
  }
}

=== FILE: tiles.dfy ===
/** Tiles: grid coordinates with a wall flag, compared by coordinates only. */
module Tiles {

  /** A map cell. `x` is the column, `y` the row. */
  datatype Tile = Tile(x: int, y: int, isWall: bool)

  /** Java `Tile.equals`: coordinates decide, the wall flag is ignored. */
  predicate Same(a: Tile, b: Tile) {
    a.x == b.x && a.y == b.y
  }

  lemma SameIsEquivalence(a: Tile, b: Tile, c: Tile)
    ensures Same(a, a)
    ensures Same(a, b) <==> Same(b, a)
    ensures Same(a, b) && Same(b, c) ==> Same(a, c)
  {
  }

  /** `Same` ignores the wall flag: two tiles at one spot are equal whatever their flags. */
  lemma SameIgnoresWall(x: int, y: int, w1: bool, w2: bool)
    ensures Same(Tile(x, y, w1), Tile(x, y, w2))
    ensures w1 != w2 ==> Tile(x, y, w1) != Tile(x, y, w2)
  {
  }

  /** The tile pixel dimensions, shared by every tile (Java's static `WIDTH`/`HEIGHT`). */
  datatype TileDims = TileDims(width: int, height: int)

  function XPixels(t: Tile, dims: TileDims): int {
    t.x * dims.width
  }

  function YPixels(t: Tile, dims: TileDims): int {
    t.y * dims.height
  }

  /** The pixel distance between two tiles is the coordinate distance scaled by the tile size. */
  lemma PixelDistance(a: Tile, b: Tile, dims: TileDims)
    ensures XPixels(b, dims) - XPixels(a, dims) == (b.x - a.x) * dims.width
    ensures YPixels(b, dims) - YPixels(a, dims) == (b.y - a.y) * dims.height
    ensures Same(a, b) ==> XPixels(a, dims) == XPixels(b, dims) && YPixels(a, dims) == YPixels(b, dims)
  {
  }

  /** Outcome of `loadImages`: the (possibly unchanged) dimensions and whether it threw. */
  datatype LoadOutcome = LoadOutcome(dims: TileDims, threw: bool)

  /** `loadImages`: adopt the wall image size only when both images agree in size. */
  function LoadImages(current: TileDims, wallW: int, wallH: int, emptyW: int, emptyH: int): (r: LoadOutcome)
    ensures !r.threw <==> wallW == emptyW && wallH == emptyH
    ensures !r.threw ==> r.dims == TileDims(wallW, wallH) && r.dims == TileDims(emptyW, emptyH)
    ensures r.threw ==> r.dims == current
  {
    if wallW == emptyW && wallH == emptyH then LoadOutcome(TileDims(wallW, wallH), false)
    else LoadOutcome(current, true)
  }
}

=== FILE: wrappers.dfy ===
/** The Option type standing in for Java's nullable references. */
module Wrappers {

  /** `None` plays the role of `null`; `Some(v)` a present value. */
  datatype Option<+T> = None | Some(value: T)
}
